=== FILE: README.md ===
# Welth: budget alerts, ledger rules and the farm assistant, in Dafny

This project models the decision logic of the Welth personal-finance app and
its farm-assistant chatbot, and proves properties of that model. The model
covers:

- **Budget alerts.** `checkBudgetAlert` computes the month's usage and
  projection figures, decides whether to alert, picks the alert type and
  stamps `lastAlertSent` so that at most one alert goes out per calendar
  month (`Calendar`, `Categories`, `BudgetAlert`).
- **Ledger.** Recording and editing a transaction: the authorisation and
  lookup errors, the balance rule, the stored next recurring date, and the
  alert evaluation that follows an expense (`Recurrence`, `Ledger`).
- **Users and accounts.** Getting or creating the signed-in user, the
  one-default-account rule of `createAccount`, and `serializeTransaction`
  (`Dashboard`).
- **Interface language.** The supported-language guard, the restored
  language, translation loading with an English fallback, and the dotted-key
  lookup `t` (`Translations`).
- **Farm assistant.**
  - The loan field, the loan amount read out of a chat message, the tool
    tiers and the offline keyword reply (`Chatbot`).
  - The figures and fallback reply of the assistant endpoint (`Gemini`).
  - The crop-suggestion endpoint (`Crops`).
  - The canned-reply classifier (`KeywordReply`).

The JavaScript behaviour the code relies on is written out in small modules:

- `JsText`: `trim`, white space, ASCII `toLowerCase`, `includes`, `split`/`join`, the `replace` filters.
- `JsNumber`: `parseFloat` and `String(v)`.
- `JsValues`: JSON values, property access, truthiness.

Money is an exact `real`; NaN is `None`. The database, the authentication
provider, the rate limiter, the email service and the language model are
inputs: store snapshots, a session, a rate decision, a send result, and the
model's text (or `None` when the call fails).

Modelling decisions:

- **Expense window.** The expenses the alert sums are those dated on or after
  the first of the current month. Expenses dated later in the future count
  too, because the query has only a lower bound. The source computes the
  bound as "today with the day set to 1", keeping the time of day; the model
  works in whole days.
- **Zero budget.** A budget amount of zero is never guarded against in the
  source. The model requires stored budget amounts to be positive
  (`Domain.BudgetsUsable`) rather than invent behaviour for a division by zero.
- **Projection.** The projection adds the pro-rata budget for the remaining
  days (`budget / daysInMonth * daysRemaining`), as the code does, not the
  observed spend rate. `BudgetAlert.ComputeFigures` takes the month's length
  and today's day of the month as numbers; `BudgetAlert.FiguresOn` reads both
  from the date of the evaluation.
- **Date overflow.** Adding a month or a year to a date follows JavaScript's
  `Date` overflow: 31 January plus one month is 3 March in a common year
  (`Recurrence.MonthlyOverflowExample`).

## Model

| member | source | states |
|---|---|---|
| Calendar.DaysInMonth | actions/transaction.js:90 | The last day of a month (day 0 of the next month) is between 28 and 31, and February has 29 days exactly in leap years. |
| Calendar.IsNewMonthIsMonthChange | actions/transaction.js:20-25 | `isNewMonth(a, b)` holds exactly when the two dates fall in different calendar months (month or year differ); it is symmetric and false for two dates of the same month and year. |
| Calendar.MonthStart | actions/transaction.js:45-46 | The first of the current month is a valid date in the same calendar month, on day 1, and not after today. |
| Calendar.MakeDate | actions/transaction.js:452-461 | A `Date` built from a year, a month up to 13 and a day up to 38 rolls over as JavaScript does: its day number is the first of that month plus the day minus one, and it is the date itself when the day fits the month. |
| Calendar.BeforeIsDayOrder | actions/transaction.js:53-55 | Date comparison by (year, month, day) agrees with the order of day numbers. |
| Calendar.FirstOfNextMonth | actions/transaction.js:458 | The first of the following month lies exactly one month-length after the first of this month, across a year end too. |
| Recurrence.NextRecurringDate | actions/transaction.js:447-466 | DAILY moves the date one day later, WEEKLY seven, MONTHLY to the same day number one month later (with overflow), YEARLY one year later; any other interval returns the date unchanged. |
| Recurrence.NextRecurringDateIsLater | actions/transaction.js:447-466 | For each of the four intervals the next date is strictly after the start date. |
| Recurrence.MonthlyKeepsDay | actions/transaction.js:457-458 | When the day exists in the next month, MONTHLY gives the same day of the next month. |
| Recurrence.YearlyKeepsDay | actions/transaction.js:460-461 | Except on 29 February, YEARLY gives the same month and day of the next year. |
| Recurrence.MonthlyOverflowExample | actions/transaction.js:457-458 | 31 January 2025 plus one month is 3 March 2025. |
| Recurrence.NextRecurringField | actions/transaction.js:219-222 | The stored next date is present exactly when the transaction is recurring with a non-empty interval; it is later than the date for a known interval and equal to it otherwise. |
| Categories.CategoriesOf | actions/transaction.js:67-68 | The distinct categories: a category is listed exactly when some transaction has it, and none twice. |
| Categories.GroupByCategory | actions/transaction.js:67-79 | One group per distinct category, carrying the sum of that category's amounts. |
| Categories.GroupTotalsAddUp | actions/transaction.js:67-79 | The group totals add up to the sum of all the amounts grouped: no transaction is lost or counted in two groups. |
| Categories.SortDescending | actions/transaction.js:80-84 | The groups ordered by sum, descending, as a permutation of the input. |
| Categories.TopCategories | actions/transaction.js:67-86 | At most three groups, sorted descending, taken from the grouping with no group repeated (a sub-multiset of it), so the categories kept are distinct; no group left out has a larger sum than any kept one. |
| BudgetAlert.ComputeFigures | actions/transaction.js:62-95 | For a positive budget and a day `today` of a month of `daysInMonth` days: `percentageUsed * budget == total * 100`, `remainingBudget + total == budget`, `daysRemaining + today == daysInMonth` with `0 <= daysRemaining < daysInMonth`, the projection lies in `[total, total + budget)`, and the projected percentage is at least the used one. |
| BudgetAlert.FiguresOn | actions/transaction.js:90-91 | On date `now` the month length is the calendar length of `now`'s month and the day is `now`'s day of the month. |
| BudgetAlert.ProjectionReachesBudget | actions/transaction.js:92-94 | The projection reaches the budget exactly when `total * daysInMonth >= budget * today`, that is, when spending has reached the budget's pro-rata share up to today. |
| BudgetAlert.ProjectionBounds | actions/transaction.js:89-95 | The projection adds `budget * daysRemaining / daysInMonth` to the total, so it lies in `[total, total + budget)`; `daysRemaining` lies in `[0, daysInMonth - 1]`. |
| BudgetAlert.PercentagesOrdered | actions/transaction.js:94-95 | A projection at least the total gives a projected percentage at least the used percentage. |
| BudgetAlert.ShouldSendAlert | actions/transaction.js:98-105 | The three-clause alert condition is equivalent to "used ≥ 80 or projected ≥ 100". |
| BudgetAlert.SelectAlertType | actions/transaction.js:108-112 | Exceeded whenever used ≥ 100 (even when the projection also passes 100), else projection when projected ≥ 100, else warning. |
| BudgetAlert.Subject | actions/transaction.js:122 | The subject says "Budget Exceeded" exactly for the exceeded type, and "Budget Warning" otherwise. |
| BudgetAlert.DecisionInAmounts | actions/transaction.js:64-112 | Without division: alert exactly when 5·total ≥ 4·budget or total·daysInMonth ≥ budget·today; exceeded exactly when total ≥ budget; projection exactly when total < budget but total·daysInMonth ≥ budget·today. |
| BudgetAlert.NameOr | actions/transaction.js:124 | A missing or empty name is replaced by the fallback; a non-empty one is kept. |
| BudgetAlert.Evaluate | actions/transaction.js:40-151 | Without a budget or a user nothing happens. An email is attempted exactly when the alert condition holds and the month gate is open. The stamp becomes `now` exactly when the send succeeds; a failed send leaves the budget unchanged. The email goes to the user's address with the exceeded type exactly when total ≥ budget. |
| BudgetAlert.AtMostOneAlertPerMonth | actions/transaction.js:107 | Over any sequence of evaluations within one calendar month, at most one alert is sent successfully, and none if the budget already records an alert in that month. |
| BudgetAlert.RolloverReopensGate | actions/transaction.js:107-151 | An alert stamped in an earlier month does not block an alerting evaluation in a later month; success stamps `now`, failure leaves the stamp. |
| BudgetAlert.AlertWindow | actions/transaction.js:48-56 | The transactions summed are exactly the user's expenses on the account dated on or after the first of the current month. |
| BudgetAlert.RecordedExpenseAddsToTotal | actions/transaction.js:48-62 | Recording an expense inside the window raises the month's total by its amount. |
| BudgetAlert.UsageMonotone | actions/transaction.js:64 | A larger month total never gives a smaller used percentage. |
| BudgetAlert.ProjectionUsageMonotone | actions/transaction.js:94-95 | A larger month total never gives a smaller projected percentage. |
| BudgetAlert.CheckBudgetAlert | actions/transaction.js:28-156 | Only the user's own budget stamp can change: users, accounts, transactions and other budgets stay. The store changes exactly when an alert was sent. Without a budget or user the outcome is "no budget or user". With both, an email is attempted exactly when the alert condition holds for the window's expense total against the stored budget on today's date and the month gate is open. It is sent exactly when it is attempted and the email service succeeds. |
| BudgetAlert.SecondCheckInMonthIsSilent | actions/transaction.js:107 | Once a check has sent an alert, a later check in the same calendar month neither sends nor attempts one. This holds on any account and after any further expenses. |
| Ledger.FindTransaction | actions/transaction.js:286-293 | The position found holds the first transaction with that id owned by the user; none is found exactly when no such transaction exists. |
| Ledger.CreateTransaction | actions/transaction.js:159-247 | The result names the session, rate-limit, "User not found" and "Account not found" errors in order; it succeeds exactly when signed in, allowed, the user exists and owns the account. On success the transaction is appended with its next recurring date, the account moves by −amount for an expense and +amount otherwise, other accounts stay, and users are unchanged. A transaction that is not an expense leaves every budget as it was and raises no alert. For an expense, the alert is the outcome of the budget check run for the user on the store just after the write, and only that user's budget stamp can change. Errors change nothing. |
| Ledger.CreateKeepsLedgerConsistent | actions/transaction.js:209-229 | After a create, every account's balance minus the contributions of its recorded transactions is what it was before. |
| Ledger.UpdateTransactionAsWritten | actions/transaction.js:271-348 | The errors in source order: "Unauthorized", "User not found", "Transaction not found", and a failed update of a missing form account. It succeeds exactly when signed in, the user exists, the user owns a transaction with that id, and the form's account exists. As the source does it, the edited transaction then replaces the original, and the form's account is incremented by new effect − old effect. This happens whichever account the transaction was on and whoever owns the form's account. Users are unchanged. After the write, a non-expense leaves the budgets as they were; an expense runs the budget check for the user on the written store, which gives the alert and can change only that user's budget stamp. |
| Ledger.MoveEffect | actions/transaction.js:296-304 | The balances after an edit: only the old and the new account change. On one account the balance moves by the single increment new − old. When the account changes, the old account's balance loses the old effect and the new account's gains the new effect. No other field changes. |
| Ledger.UpdateTransaction | actions/transaction.js:271-348 | The corrected edit has the same errors in the same order, with "Account not found" for a form account the caller does not own. It succeeds exactly when signed in, the user exists, the user owns a transaction with that id, and the user owns the form's account. The balances become `MoveEffect` of the original, users are unchanged, and errors change nothing. The budget check after the write is as in the as-written edit: none for a non-expense, and for an expense the alert is the check's outcome on the written store, changing at most the user's stamp. |
| Ledger.UpdateKeepsLedgerConsistent | actions/transaction.js:296-330 | After a corrected edit, every account's balance minus its transactions' contributions is unchanged. |
| Ledger.UpdateTouchesOnlyOwnAccounts | actions/transaction.js:323-330 | The corrected edit moves no balance of another user's account except the two the edit names, and the form's account is the caller's. |
| Ledger.SameAccountEditsAgree | actions/transaction.js:296-330 | On an edit that keeps the account, the source's increment and the corrected move give the same result. |
| Ledger.CreateThenEdit | actions/transaction.js:210-304 | Creating a transaction and then editing it on the same account leaves the account at its balance before the create plus the edited transaction's effect. |
| Ledger.MovedEditLeavesOldEffect | actions/transaction.js:323-330 | Moving an income of 30 from account A to account B as written leaves A at 130 and B at 50, so A's opening balance drifts; the corrected edit gives 100 and 80. |
| Ledger.EditReachesForeignAccount | actions/transaction.js:323-330 | As written, an edit naming another user's account moves that account's balance; the corrected edit refuses with "Account not found". |
| Dashboard.DisplayName | actions/dashboard.js:50 | The name is first and last name joined by a space with surrounding white space removed, or "New User" when only white space remains; it never starts or ends with white space. |
| Dashboard.DisplayNameOfFullName | actions/dashboard.js:50 | Clean first and last names give "first last". |
| Dashboard.DisplayNameOfFirstNameOnly | actions/dashboard.js:50 | A clean first name and no last name give the first name alone. |
| Dashboard.GetOrCreateUser | actions/dashboard.js:21-61 | The result is an error on an empty id. An existing user comes back unchanged. The provider-missing and email-missing errors create nobody. A new user is created exactly when none exists and the provider reports a user with an email address. It is appended to the users, with the provider's first address and the display name. |
| Dashboard.GetOrCreateIsIdempotent | actions/dashboard.js:26-30 | Asking again returns the same user and creates nobody, whatever the provider now reports. |
| Dashboard.OpenAccount | actions/dashboard.js:131-157 | The new account is default exactly when the user has no account yet or asked for it. A default account clears the flag on every other account of that user. A non-default one changes no existing account. Other users' accounts never change. |
| Dashboard.OpenAccountKeepsOneDefault | actions/dashboard.js:138-157 | Opening an account never gives a user a second default account. |
| Dashboard.OpenAccountKeepsADefault | actions/dashboard.js:138-157 | Opening an account never leaves a user who has accounts without a default one. |
| Dashboard.CreateAccount | actions/dashboard.js:92-167 | The session and rate-limit errors come first. It succeeds exactly when the user can be obtained and the balance parses; an unparseable balance is "Invalid balance amount". Failures leave the accounts unchanged. |
| Dashboard.CreateAccountKeepsOneDefault | actions/dashboard.js:92-167 | Whatever the outcome, creating an account preserves "at most one default account per user". |
| Dashboard.CreateAccountKeepsADefault | actions/dashboard.js:92-167 | Whatever the outcome, creating an account preserves "every user with accounts has a default one". |
| Dashboard.SerializeRow | actions/dashboard.js:9-18 | The row's fields are JavaScript values. The result has the same fields. Non-money fields are copied unchanged. Money fields keep their numeric value but are no longer decimal objects. |
| Translations.Translate | context/LanguageContext.js:60-76 | While loading the key comes back. Otherwise the value the dotted path reaches is returned when every step resolves to a truthy value, and the key itself when some step fails. |
| Translations.TranslateNestedPath | context/LanguageContext.js:64-75 | Looking up the dotted form of a path through nested objects yields the value at its end. |
| Translations.TranslateUnresolvedSegment | context/LanguageContext.js:67-72 | When any segment is missing from, or falsy in, the object the earlier segments reach, the key itself comes back. |
| Translations.StringValuesAreIndexed | context/LanguageContext.js:67-69 | A segment after a string value indexes its characters: "greeting.0" with greeting "Hello" gives "H". |
| Translations.LoadTranslations | context/LanguageContext.js:31-48 | The requested file is used when it can be fetched. Otherwise, for a code other than English, the English file is used when it can be fetched. Otherwise the translations stay. Loading ends in every case. |
| Translations.ChangeLanguage | context/LanguageContext.js:50-58 | A code outside {en, ta, te, hi} changes nothing; a supported code becomes the language and is saved, and the translations become its file, else the English file for a code other than "en", else stay as they were. |
| Translations.Restore | context/LanguageContext.js:21-29 | The language is always supported. It differs from English exactly when a supported non-English code was saved. A saved code's file is loaded whenever it can be fetched, supported or not, and otherwise English is the fallback. On a first visit, with nothing saved, the English file is loaded. When no file can be fetched the translations stay empty. |
| Translations.LanguageStaysSupported | context/LanguageContext.js:6-58 | After start-up and any sequence of language changes the language is one of the four supported codes. |
| Translations.UnsupportedSavedCodeStillLoads | context/LanguageContext.js:23-28 | A saved "fr" leaves the language English but loads the French file. |
| KeywordReply.Reply | app/api/chatbot/route.js:6-14 | Savings/budget wins over everything; the crop reply needs savings to fail, the low-investment reply needs both earlier rules to fail; the default reply comes exactly when no rule matches. |
| KeywordReply.ScanCropLocationCorrect | app/api/chatbot/route.js:10 | The scan for `crop.*location` succeeds exactly when "crop" occurs and "location" starts at or after its end with no line terminator in between. |
| KeywordReply.CropRuleMeaning | app/api/chatbot/route.js:10 | The crop rule fires exactly on "best crop", or "crop" followed later on the same line by "location", ignoring case. |
| KeywordReply.CropAndLocationOnSeparateLines | app/api/chatbot/route.js:10 | "crop\nlocation" does not trigger the crop rule, because `.` does not cross a line break. |
| KeywordReply.ReplyIgnoresCase | app/api/chatbot/route.js:8-12 | A message and its lower-case form get the same reply. |
| JsNumber.ParseFloat | components/chatbot/Chatbot.jsx:78 | `parseFloat` gives a number exactly when the text after leading white space starts a decimal literal; without a leading minus the number is not negative. The same reading is used at app/api/gemini/route.js:9. The value read is the one of the numeral scanned, as the lemmas below state for a fraction without an exponent, an exponent `e`/`E` without a sign, with a plus sign or with a minus sign, and a leading minus. |
| JsNumber.ParseRendered | app/api/gemini/route.js:8-11 | The decimal text of a natural number parses back to that number. |
| JsNumber.DigitsThenStop | components/chatbot/Chatbot.jsx:78 | A digit string followed by anything that cannot continue a literal parses as the digits' value. |
| JsNumber.FractionValue | components/chatbot/Chatbot.jsx:78 | "d.f" followed by anything that cannot continue the literal reads as the numeral with integer digits d and fraction digits f. |
| JsNumber.FractionNumeral | components/chatbot/Chatbot.jsx:78 | That numeral is worth d plus f over 10 to the number of fraction digits. |
| JsNumber.ExponentValue | components/chatbot/Chatbot.jsx:78 | Digits d followed by an exponent part read as the numeral with integer digits d and that exponent. |
| JsNumber.ExponentDigits | components/chatbot/Chatbot.jsx:78 | "e" or "E" and a digit run k, followed by a non-digit, denote the exponent k and span one character more than k. |
| JsNumber.PlusExponentDigits | components/chatbot/Chatbot.jsx:78 | "e+k" or "E+k" followed by a non-digit scans as the exponent k, taking two characters more than the digits. |
| JsNumber.ExponentNumeral | components/chatbot/Chatbot.jsx:78 | A numeral with integer digits d and exponent e is worth d · 10^e. |
| JsNumber.NegativeExponentDigits | components/chatbot/Chatbot.jsx:78 | "e-k" or "E-k" followed by a non-digit scans as the exponent −k, taking two characters more than the digits. |
| JsNumber.NegativeExponentNumeral | components/chatbot/Chatbot.jsx:78 | A numeral with integer digits d and exponent −e is worth d / 10^e. |
| JsNumber.NegatedValue | components/chatbot/Chatbot.jsx:78 | "-d" reads as the negative numeral of the digits d. |
| JsNumber.NegatedNumeral | components/chatbot/Chatbot.jsx:78 | That numeral is worth minus the digits' value. |
| JsNumber.OneAndAHalf | components/chatbot/Chatbot.jsx:78 | "1.5" reads as 1.5. |
| JsNumber.TwoThousand | components/chatbot/Chatbot.jsx:78 | "2e3" reads as 2000. |
| JsNumber.QuarterFromExponent | components/chatbot/Chatbot.jsx:78 | "25e-2" reads as 0.25. |
| Chatbot.SanitizeLoanInput | components/chatbot/Chatbot.jsx:450 | The field keeps only digits, commas and dots: a character survives exactly when it was typed and is one of those, and nothing is added. |
| Chatbot.SanitizeKeepsOrder | components/chatbot/Chatbot.jsx:450 | Sanitising distributes over concatenation, so kept characters stay in their original order. |
| Chatbot.SanitizeKeepsLoanText | components/chatbot/Chatbot.jsx:450 | Text already made of loan characters is left as typed; sanitising twice equals sanitising once. |
| Chatbot.SubmitLoan | components/chatbot/Chatbot.jsx:75-91 | Empty or non-numeric input is ignored. Otherwise the amount is read with every comma removed (and is not negative), and the field is hidden and cleared. |
| Chatbot.SubmitIgnoresCommas | components/chatbot/Chatbot.jsx:78-84 | "a,b" as typed would read as a, but is submitted as the number the digits of a and b denote. |
| Chatbot.ExtractLoanAmount | components/chatbot/Chatbot.jsx:140-147 | An amount exists exactly when the pattern matches somewhere, and is never negative. |
| Chatbot.NoKeywordNoAmount | components/chatbot/Chatbot.jsx:141 | Without "loan", "budget", "rupees" or "dollars" (in any case) there is no amount. |
| Chatbot.AmountThenWord | components/chatbot/Chatbot.jsx:141-144 | Digits followed by white space and a keyword give the digits' value. |
| Chatbot.ExtractGroupedAmount | components/chatbot/Chatbot.jsx:141-144 | "a,b loan" gives the comma-free number. |
| Chatbot.UpdateLoan | components/chatbot/Chatbot.jsx:166-169 | A non-zero extracted amount replaces the loan; otherwise the loan stays. The result is the old loan or positive. |
| Chatbot.ZeroAmountKeepsLoan | components/chatbot/Chatbot.jsx:166-169 | "0 loan" extracts 0, and because 0 is falsy the loan is unchanged. |
| Chatbot.LoanStaysPositive | components/chatbot/Chatbot.jsx:166-169 | From a positive loan (the initial 50000), any sequence of messages keeps it positive. The initial loan is set at components/chatbot/Chatbot.jsx:34. |
| Chatbot.MixFor | components/chatbot/Chatbot.jsx:285-291 | Four tools below 5000 and five otherwise; an advanced tool exactly from 15000; intermediate tools exactly from 5000. |
| Chatbot.RecommendedTools | components/chatbot/Chatbot.jsx:283-291 | The list has 4 or 5 catalogue tools and starts with the first two basic tools. |
| Chatbot.ToolTiers | components/chatbot/Chatbot.jsx:285-291 | The three tiers, tool by tool: four basics; three basics and two intermediate; two, two and the first advanced. |
| Chatbot.ToolMixMonotone | components/chatbot/Chatbot.jsx:285-291 | A larger loan never gives fewer powered tools or more hand tools. |
| Chatbot.OfflineTopic | components/chatbot/Chatbot.jsx:223-302 | Each topic is characterised exactly, in the priority crop > loan/budget > fertilizer > tool/equipment > generic. |
| Chatbot.SendOfflineAsWritten | components/chatbot/Chatbot.jsx:151-293 | A message that is empty after trimming is dropped: no loan update, no reply. Otherwise, as written, the loan is updated from the message, but the reply quotes and tiers the previous loan. |
| Chatbot.StaleLoanInToolReply | components/chatbot/Chatbot.jsx:166-293 | With a loan of 1000, "N dollars: tools?" for N ≥ 5000 sets the loan to N but lists four basic tools, where the tier for N has five. |
| Chatbot.SendOffline | components/chatbot/Chatbot.jsx:151-293 | A blank message is dropped as before. Otherwise the corrected reply quotes and tiers the loan as updated by the same message. |
| Chatbot.BlankMessageIgnored | components/chatbot/Chatbot.jsx:151-153 | A message made only of white space produces nothing in either version. |
| Gemini.SafeParseFloat | app/api/gemini/route.js:8-11 | Numbers and decimals pass through; text reads as `parseFloat` when it starts a literal and as 0 otherwise; every other value is 0. |
| Gemini.TypeTotalAppend | app/api/gemini/route.js:50-56 | A new transaction adds its amount to its own user's total of its own type and leaves every other total unchanged. |
| Gemini.TypeTotalOfOthers | app/api/gemini/route.js:50-56 | Only the user's own transactions count: other users' transactions total 0. |
| Gemini.LoanAmount | app/api/gemini/route.js:62 | The stated loan if non-zero, else the budget if non-zero, else 50000; never 0. |
| Gemini.FarmingBudget | app/api/gemini/route.js:74 | At most the loan; with a positive budget, the smaller of loan and budget; otherwise the loan. |
| Gemini.SavingsRatio | app/api/gemini/route.js:75 | 0 without income; otherwise ratio·income == (income − expenses)·100. |
| Gemini.SavingsRatioBounds | app/api/gemini/route.js:75 | With income, the ratio is at most 100 for non-negative expenses, and not negative exactly when expenses do not exceed income. |
| Gemini.ComputeFigures | app/api/gemini/route.js:49-75 | A found user's stored transaction totals and stored budget are used, the client's figures otherwise. The stated loan and balance come from the client. The loan and farming budget are derived as above. |
| Gemini.BudgetLevel | app/api/gemini/route.js:183 | "low" exactly below 5000, "high" exactly from 15000, "medium" otherwise. |
| Gemini.BudgetLevelMatchesToolTiers | app/api/gemini/route.js:183 | The endpoint's budget levels and the page's tool tiers switch at the same thresholds. The page's tiers are at components/chatbot/Chatbot.jsx:285-291. |
| Gemini.FallbackTopic | app/api/gemini/route.js:158-213 | Each topic is characterised exactly, in the priority crop > fertilizer > loan/budget > tool/equipment > generic. |
| Gemini.TopicsDisagreeOnlyOnFertilizerLoans | app/api/gemini/route.js:158-182 | The page and the endpoint choose different topics exactly for messages that mention fertilizer and loan or budget but no crop. The page's topics are at components/chatbot/Chatbot.jsx:223-261. |
| Gemini.HandleGemini | app/api/gemini/route.js:13-227 | Without a key, the development reply. A 404 exactly for a non-default string id with no user. A model reply is the model's text. A model reply or the fallback is given exactly when the request passes every check before the model call. These checks are a non-null body, a looked-up id that is a string of a stored user, and non-null client figures. The model's text wins when there is one. Without it, a string prompt gets the fallback. The fallback uses the prompt's topic and the budget level exactly for tools. Its figures are those computed from the looked-up user's records and the client's figures, with a missing `financialData` read as `{}`. |
| Gemini.StoredRecordsWin | app/api/gemini/route.js:34-60 | For a found user, income, expenses and a stored budget come from the records, whatever figures the client sent. |
| Gemini.DefaultUserUsesClientFigures | app/api/gemini/route.js:34 | The id "default-user" is not looked up; the client's figures are used. |
| Crops.CropsParse | app/api/crops/route.js:5-13 | Numbers pass through (NaN too); other falsy values are 0; text reads as `parseFloat`, with NaN read as 0. |
| Crops.ParsersAgreeExceptNaN | app/api/crops/route.js:5-13 | The two endpoints' readers agree on every value except NaN. The other reader is at app/api/gemini/route.js:8-11. |
| Crops.JsonFieldParses | app/api/crops/route.js:26-28 | Every field of parsed JSON reads as a number. |
| Crops.AllocationCoversBudget | app/api/crops/route.js:67-71 | The shares 20/15/30/25/10 % sum to 100 %, and the five amounts sum to the budget. |
| Crops.DebtToIncome | app/api/crops/route.js:90 | 0 without income; otherwise ratio·income == loan·100. |
| Crops.InvestmentBudget | app/api/crops/route.js:93 | At least the budget and at least 70 % of the balance, and equal to one of them. |
| Crops.HandleCrops | app/api/crops/route.js:15-168 | A 400 exactly when a parsed body lacks location, weather or financial data. Without a key, a complete body gets the summary. Its balance, budget and loan are the parsed request fields, and its allocation is the budget's shares, which sum to the budget. With a key and a model reply, a complete body gets suggestions. Their balance, budget, loan, income and expenses are the parsed request fields, with cash flow = income − expenses. The static fallback comes exactly on an unparsable or null body or a failed model call. |

## Left out

- I/O and services: the database, authentication, the rate limiter, email sending, page revalidation and the language-model calls become inputs. The prompt texts, the model selection and the cleanup of model output are not modelled.
- Concurrency: two simultaneous evaluations can both pass the month gate before either stamps the budget; the model runs evaluations one after another.
- Time of day and time zones: dates are whole days; the month-start bound that keeps the current time of day is modelled at day level.
- Floating point: money is exact; `toFixed`, `toLocaleString` and `Math.round` are display formatting and are left out, as are Infinity and the other rounding effects of `parseFloat`.
- BudgetAlert.Evaluate: the top-category percentages in the email (a division by the month's total) are not modelled; the categories and their sums are.
- BudgetAlert.CheckBudgetAlert: requires every stored budget to be positive, since the source divides by the amount without a guard.
- Ledger.CreateTransaction: the new id is an input assumed unused.
- Thrown and returned errors: an error the source throws (or catches and rethrows with a wrapped message) and an error it returns are both the same `Err` carrying the message. This applies to Ledger.CreateTransaction, Ledger.UpdateTransactionAsWritten, Ledger.UpdateTransaction, Dashboard.GetOrCreateUser and Dashboard.CreateAccount. The stack and the error's class are not modelled.
- Ledger.UpdateTransactionAsWritten: a form account that does not exist makes the database update fail, modelled as an error that leaves the store unchanged.
- Dashboard.CreateAccount: the new ids are inputs assumed unused; the other form fields copied into the record are not modelled.
- `getUserAccounts`, `getDashboardData`, `getTransaction`, `getUserTransactions` and receipt scanning are readers or model-backed actions outside the decision logic.
- JsText.Lower: `toLowerCase` is modelled on ASCII letters only; other letters are left as they are.
- JsNumber.ParseValue: `String(v)` of an array is not modelled (arrays read as NaN), and inherited properties are ignored in `t` and in the request fields.
- Translations: persistence in local storage is the `saved` field; fetching is a map of the files that can be fetched, and a failed English fallback leaves the old translations.
- Chatbot.SubmitLoan: requires the field text to be made of digits, commas and dots, since the field only ever holds sanitised text.
- Chatbot: restoring saved messages and the saved loan from local storage, the greeting, the financial data sent to the endpoint and the reply texts beyond their topic, quoted loan and tool list are not modelled.
- Gemini.HandleGemini: the user name in the reply and the formatted figures are not modelled; a non-string `clerkUserId` is treated as the failing lookup it causes.
- Crops.HandleCrops: requires the body to be parsed JSON (which never holds NaN); the location and weather texts in the replies are not modelled.
- Presentation components, email templates, the location, weather, open-API and user routes, and the user-sync helper are outside the decision logic.

## Findings

| source | as written | input that shows it | evidently intended | confidence | as-written member | corrected member |
|---|---|---|---|---|---|---|
| actions/transaction.js:323-330 | An edit adds `new effect − old effect` to the account named in the form, even when the transaction was on another account. | Move an income of 30 from account A (balance 130) to account B (balance 50) without changing the amount: A stays 130, B stays 50. | The old account loses the old effect and the new account gains the new one (A 100, B 80). | likely; not executed | Ledger.MovedEditLeavesOldEffect | Ledger.UpdateTransaction |
| actions/transaction.js:296-330 | The form's account is never checked to belong to the caller, unlike in `createTransaction`. | User u1 edits their own transaction with the form naming u2's account V: V's balance changes by 40 − 30. | Reject an account the caller does not own ("Account not found"). | likely; not executed | Ledger.EditReachesForeignAccount | Ledger.UpdateTransaction |
| components/chatbot/Chatbot.jsx:166-169 | The loan amount stated in a message is set as state, but the offline reply built in the same call reads the previous loan. | Loan 1000, message "20000 dollars: tools?": the loan becomes 20000, but the reply lists the four basic tools of the below-5000 tier. | Quote and tier the loan just stated (five tools for 20000). | medium; not executed | Chatbot.StaleLoanInToolReply | Chatbot.SendOffline |

=== FILE: budget_alert.dfy ===
/** The budget-alert evaluator run after every expense is recorded
    (transaction.js, `checkBudgetAlert`): it sums the month's expenses of one
    account, compares them with the user's budget and a linear month-end
    projection, and sends at most one alert email per calendar month. The
    database reads become inputs and the email sender's reply becomes the
    boolean `sendOk`. */
module BudgetAlert {
  import opened Wrappers
  import opened Calendar
  import opened Domain
  import opened Categories

  datatype AlertType = BudgetExceeded | BudgetProjection | BudgetWarning

  /** The alert type as the email template receives it. */
  function AlertTypeName(t: AlertType): string {
    match t
    case BudgetExceeded => "budget-exceeded"
    case BudgetProjection => "budget-projection"
    case BudgetWarning => "budget-warning"
  }

  /** The derived numbers of one evaluation. */
  datatype Figures = Figures(
    percentageUsed: real,
    remainingBudget: real,
    daysInMonth: int,
    currentDay: int,
    daysRemaining: int,
    dailyBudget: real,
    projectedExpenses: real,
    projectedPercentage: real)

  /** Usage and projection for `total` spent against `budget` on day `today`
      of a month of `daysInMonth` days. The projection adds the budget's daily
      share for every remaining day; it does not extrapolate the observed
      spending rate. */
  function ComputeFigures(total: real, budget: real, daysInMonth: int, today: int): (f: Figures)
    requires budget > 0.0 && 1 <= today <= daysInMonth
    ensures f.percentageUsed * budget == total * 100.0
    ensures f.remainingBudget + total == budget
    ensures f.daysInMonth == daysInMonth && f.currentDay == today
    ensures 0 <= f.daysRemaining < f.daysInMonth && f.daysRemaining + f.currentDay == f.daysInMonth
    ensures f.projectedExpenses * (f.daysInMonth as real) == total * (f.daysInMonth as real) + budget * (f.daysRemaining as real)
    ensures total <= f.projectedExpenses < total + budget
    ensures f.projectedPercentage * budget == f.projectedExpenses * 100.0
    ensures f.percentageUsed <= f.projectedPercentage
  {
    var percentageUsed := (total / budget) * 100.0;
    var remainingBudget := budget - total;
    var daysRemaining := daysInMonth - today;
    var dailyBudget := budget / (daysInMonth as real);
    var projectedExpenses := total + dailyBudget * (daysRemaining as real);
    var projectedPercentage := (projectedExpenses / budget) * 100.0;
    ProjectionBounds(total, budget, daysInMonth, daysRemaining);
    PercentagesOrdered(total, projectedExpenses, budget);
    Figures(percentageUsed, remainingBudget, daysInMonth, today, daysRemaining,
            dailyBudget, projectedExpenses, projectedPercentage)
  }

  /** The figures on date `now`: the month's length and the day of the month come from the calendar. */
  function FiguresOn(total: real, budget: real, now: Date): (f: Figures)
    requires budget > 0.0 && Valid(now)
    ensures f.daysInMonth == DaysInMonth(now.year, now.month) && f.currentDay == now.day
  {
    ComputeFigures(total, budget, DaysInMonth(now.year, now.month), now.day)
  }

  lemma ProjectionBounds(total: real, budget: real, dim: int, rem: int)
    requires budget > 0.0 && 0 <= rem < dim
    ensures (total + budget / (dim as real) * (rem as real)) * (dim as real) == total * (dim as real) + budget * (rem as real)
    ensures total <= total + budget / (dim as real) * (rem as real) < total + budget
  {
    var d := budget / (dim as real);
    assert d * (dim as real) == budget;
    assert d > 0.0;
    assert d * (rem as real) >= 0.0;
    assert d * (rem as real) < d * (dim as real);
  }

  lemma PercentagesOrdered(total: real, projected: real, budget: real)
    requires budget > 0.0 && total <= projected
    ensures (total / budget) * 100.0 <= (projected / budget) * 100.0
    ensures (total / budget) * 100.0 * budget == total * 100.0
    ensures (projected / budget) * 100.0 * budget == projected * 100.0
  {
    assert total / budget <= projected / budget;
  }

  /** The source's three alert bands (warning, projected overrun, exceeded),
      which together say: at least 80 % used, or projected to reach 100 %. */
  predicate ShouldSendAlert(f: Figures)
    ensures ShouldSendAlert(f) <==> f.percentageUsed >= 80.0 || f.projectedPercentage >= 100.0
  {
    (f.percentageUsed >= 80.0 && f.percentageUsed < 100.0)
    || (f.projectedPercentage >= 100.0 && f.percentageUsed < 100.0)
    || f.percentageUsed >= 100.0
  }

  /** The alert type, by priority: exceeded over projection over warning. */
  function SelectAlertType(f: Figures): (t: AlertType)
    ensures f.percentageUsed >= 100.0 ==> t == BudgetExceeded
    ensures f.percentageUsed < 100.0 && f.projectedPercentage >= 100.0 ==> t == BudgetProjection
    ensures f.percentageUsed < 100.0 && f.projectedPercentage < 100.0 ==> t == BudgetWarning
  {
    if f.percentageUsed >= 100.0 then BudgetExceeded
    else if f.projectedPercentage >= 100.0 then BudgetProjection
    else BudgetWarning
  }

  /** The email subject: only an exceeded budget is called exceeded. */
  function Subject(t: AlertType): (s: string)
    ensures s == "Budget Alert: Budget Exceeded" <==> t == BudgetExceeded
    ensures t != BudgetExceeded ==> s == "Budget Alert: Budget Warning"
  {
    "Budget Alert: " + (if t == BudgetExceeded then "Budget Exceeded" else "Budget Warning")
  }

  /** The alert decision restated in the raw amounts, without any division:
      alert when `total` reaches 4/5 of the budget or the pro-rata budget up to
      today; the type is "exceeded" exactly when the whole budget is spent and
      "projection" exactly when it is not but the pro-rata share is. */
  lemma {:induction false} DecisionInAmounts(total: real, budget: real, daysInMonth: int, today: int)
    requires budget > 0.0 && 1 <= today <= daysInMonth
    ensures var f := ComputeFigures(total, budget, daysInMonth, today);
      && (ShouldSendAlert(f) <==>
            (5.0 * total >= 4.0 * budget || total * (f.daysInMonth as real) >= budget * (today as real)))
      && (SelectAlertType(f) == BudgetExceeded <==> total >= budget)
      && (SelectAlertType(f) == BudgetProjection <==>
            total < budget && total * (f.daysInMonth as real) >= budget * (today as real))
      && (SelectAlertType(f) == BudgetWarning <==>
            total < budget && total * (f.daysInMonth as real) < budget * (today as real))
  {
    var f := ComputeFigures(total, budget, daysInMonth, today);
    ScaledCompare(f.percentageUsed, total, budget, 100.0);
    ScaledCompare(f.percentageUsed, total, budget, 80.0);
    ScaledCompare(f.projectedPercentage, f.projectedExpenses, budget, 100.0);
    ProjectionReachesBudget(total, budget, daysInMonth, today, f.daysRemaining, f.projectedExpenses);
  }

  /** The projection reaches the budget exactly when the spending so far
      reaches the budget's pro-rata share up to today. */
  lemma ProjectionReachesBudget(total: real, budget: real, daysInMonth: int, today: int, rem: int, projected: real)
    requires budget > 0.0 && 1 <= today <= daysInMonth && rem + today == daysInMonth
    requires projected * (daysInMonth as real) == total * (daysInMonth as real) + budget * (rem as real)
    ensures projected >= budget <==> total * (daysInMonth as real) >= budget * (today as real)
  {
    var dim := daysInMonth as real;
    assert projected >= budget <==> projected * dim >= budget * dim;
    assert budget * dim == budget * (rem as real) + budget * (today as real);
  }

  /** With `p * b == x * 100` and `b > 0`, comparing the percentage `p` with `k`
      is comparing `x` with `k / 100` of `b`. */
  lemma ScaledCompare(p: real, x: real, b: real, k: real)
    requires b > 0.0 && p * b == x * 100.0
    ensures p >= k <==> x * 100.0 >= k * b
  {
    assert p >= k <==> p * b >= k * b;
  }

  /** The figures the alert email carries. */
  datatype AlertData = AlertData(
    percentageUsed: real,
    budgetAmount: real,
    totalExpenses: real,
    remainingBudget: real,
    daysRemaining: int,
    projectedExpenses: real,
    projectedPercentage: real,
    accountName: string,
    topCategories: seq<CategoryTotal>,
    alertType: AlertType)

  datatype AlertEmail = AlertEmail(to: string, subject: string, userName: string, data: AlertData)

  /** What one evaluation did. The source returns nothing; this makes its branches observable. */
  datatype Outcome =
    | NoBudgetOrUser
    | BelowThreshold
    | AlreadyAlertedThisMonth
    | SendFailed(email: AlertEmail)
    | Sent(email: AlertEmail)

  /** The JavaScript `||` default for a missing or empty name. */
  function NameOr(name: Option<string>, fallback: string): (r: string)
    ensures name.Some? && name.value != "" ==> r == name.value
    ensures name.None? || name.value == "" ==> r == fallback
  {
    if name.Some? && name.value != "" then name.value else fallback
  }

  /** The alert-month gate: no alert recorded yet, or the last one fell in another calendar month. */
  predicate MonthGateOpen(last: Option<Date>, now: Date) {
    last.None? || IsNewMonth(last.value, now)
  }

  /** One evaluation, given the budget and user records (if any), the month's
      expense total and top categories for the account, the account's name (if
      found), today's date and whether the email service reports success.
      Returns what happened and the budget record afterwards. */
  function Evaluate(budget: Option<Budget>, user: Option<User>, total: real, top: seq<CategoryTotal>,
                    accountName: Option<string>, now: Date, sendOk: bool): (r: (Outcome, Option<Budget>))
    requires Valid(now)
    requires budget.Some? && user.Some? ==> budget.value.amount > 0.0
    ensures budget.None? || user.None? ==> r.0 == NoBudgetOrUser && r.1 == budget
    ensures r.0.Sent? || r.0.SendFailed? <==>
              budget.Some? && user.Some?
              && ShouldSendAlert(FiguresOn(total, budget.value.amount, now))
              && MonthGateOpen(budget.value.lastAlertSent, now)
    ensures r.0.Sent? <==> (r.0.Sent? || r.0.SendFailed?) && sendOk
    ensures r.0.Sent? ==> r.1 == Some(budget.value.(lastAlertSent := Some(now)))
    ensures !r.0.Sent? ==> r.1 == budget
    ensures r.0.Sent? || r.0.SendFailed? ==>
              && r.0.email.to == user.value.email
              && r.0.email.data.budgetAmount == budget.value.amount
              && r.0.email.data.totalExpenses == total
              && r.0.email.data.topCategories == top
              && r.0.email.subject == Subject(r.0.email.data.alertType)
              && (r.0.email.data.alertType == BudgetExceeded <==> total >= budget.value.amount)
  {
    if budget.None? || user.None? then (NoBudgetOrUser, budget)
    else
      var b := budget.value;
      var u := user.value;
      var f := FiguresOn(total, b.amount, now);
      if !ShouldSendAlert(f) then (BelowThreshold, budget)
      else if !MonthGateOpen(b.lastAlertSent, now) then (AlreadyAlertedThisMonth, budget)
      else
        var alertType := SelectAlertType(f);
        DecisionInAmounts(total, b.amount, DaysInMonth(now.year, now.month), now.day);
        var data := AlertData(f.percentageUsed, b.amount, total, f.remainingBudget, f.daysRemaining,
                              f.projectedExpenses, f.projectedPercentage,
                              NameOr(accountName, "Default Account"), top, alertType);
        var email := AlertEmail(u.email, Subject(alertType), NameOr(Some(u.name), "User"), data);
        if sendOk then (Sent(email), Some(b.(lastAlertSent := Some(now))))
        else (SendFailed(email), budget)
  }

  /** One expense-triggered evaluation in a sequence: the day it runs, the
      month's total at that moment and the email service's reply. */
  datatype AlertStep = AlertStep(now: Date, total: real, sendOk: bool)

  /** Run evaluations one after another for one user, threading the budget
      record; returns the final budget and the number of alerts sent successfully. */
  function RunAlerts(b: Budget, u: User, steps: seq<AlertStep>): (r: (Budget, nat))
    requires b.amount > 0.0
    requires forall i :: 0 <= i < |steps| ==> Valid(steps[i].now)
    ensures r.0.amount == b.amount
    ensures r.1 <= |steps|
    decreases |steps|
  {
    if |steps| == 0 then (b, 0)
    else
      var e := Evaluate(Some(b), Some(u), steps[0].total, [], None, steps[0].now, steps[0].sendOk);
      var next := e.1.value;
      var rest := RunAlerts(next, u, steps[1..]);
      (rest.0, rest.1 + (if e.0.Sent? then 1 else 0))
  }

  /** All steps fall in the calendar month of `day`. */
  predicate AllInMonthOf(steps: seq<AlertStep>, day: Date) {
    forall i :: 0 <= i < |steps| ==> !IsNewMonth(steps[i].now, day)
  }

  /** De-duplication: however many expenses are recorded within one calendar
      month, at most one alert is sent successfully, and none at all once the
      budget already records an alert in that month. */
  lemma {:induction false} AtMostOneAlertPerMonth(b: Budget, u: User, steps: seq<AlertStep>, day: Date)
    requires b.amount > 0.0 && Valid(day)
    requires forall i :: 0 <= i < |steps| ==> Valid(steps[i].now)
    requires AllInMonthOf(steps, day)
    ensures RunAlerts(b, u, steps).1 <= 1
    ensures b.lastAlertSent.Some? && !IsNewMonth(b.lastAlertSent.value, day) ==> RunAlerts(b, u, steps).1 == 0
    decreases |steps|
  {
    if |steps| > 0 {
      var e := Evaluate(Some(b), Some(u), steps[0].total, [], None, steps[0].now, steps[0].sendOk);
      var next := e.1.value;
      assert AllInMonthOf(steps[1..], day) by {
        forall i | 0 <= i < |steps[1..]| ensures !IsNewMonth(steps[1..][i].now, day) {
          assert steps[1..][i] == steps[i + 1];
        }
      }
      AtMostOneAlertPerMonth(next, u, steps[1..], day);
      if e.0.Sent? {
        assert next.lastAlertSent == Some(steps[0].now);
        assert !IsNewMonth(steps[0].now, day);
      } else {
        assert next == b;
      }
    }
  }

  /** Month rollover: an alert stamped in an earlier month does not block an
      alerting evaluation in a later one; a failed send leaves the stamp as it was. */
  lemma RolloverReopensGate(b: Budget, u: User, total: real, now: Date, sendOk: bool)
    requires b.amount > 0.0 && Valid(now)
    requires b.lastAlertSent.Some? && Valid(b.lastAlertSent.value)
    requires Before(MonthStart(b.lastAlertSent.value), MonthStart(now))
    requires ShouldSendAlert(FiguresOn(total, b.amount, now))
    ensures var e := Evaluate(Some(b), Some(u), total, [], None, now, sendOk);
      (sendOk ==> e.0.Sent? && e.1.value.lastAlertSent == Some(now))
      && (!sendOk ==> e.0.SendFailed? && e.1 == Some(b))
  {
    assert IsNewMonth(b.lastAlertSent.value, now);
  }

  /** The expenses the evaluator sums: the user's EXPENSE transactions on the
      account dated on or after the first of the current month. */
  predicate InAlertWindow(t: Transaction, userId: string, accountId: string, now: Date)
    requires Valid(now)
  {
    t.userId == userId && t.accountId == accountId && t.txType == Expense
    && OnOrAfter(t.date, MonthStart(now))
  }

  function AlertWindow(txs: seq<Transaction>, userId: string, accountId: string, now: Date): (w: seq<Transaction>)
    requires Valid(now)
    ensures forall t :: t in w <==> t in txs && InAlertWindow(t, userId, accountId, now)
    ensures |w| <= |txs|
  {
    if |txs| == 0 then []
    else
      var prev := AlertWindow(txs[..|txs| - 1], userId, accountId, now);
      var t := txs[|txs| - 1];
      assert txs == txs[..|txs| - 1] + [t];
      if InAlertWindow(t, userId, accountId, now) then prev + [t] else prev
  }

  /** A newly recorded expense in the window raises the month's total by its amount. */
  lemma {:induction false} RecordedExpenseAddsToTotal(txs: seq<Transaction>, t: Transaction, userId: string, accountId: string, now: Date)
    requires Valid(now) && InAlertWindow(t, userId, accountId, now)
    ensures SumAmounts(AlertWindow(txs + [t], userId, accountId, now))
         == SumAmounts(AlertWindow(txs, userId, accountId, now)) + t.amount
  {
    assert (txs + [t])[..|txs + [t]| - 1] == txs;
  }

  /** Percentage used never decreases as the month's total grows (budget and day fixed). */
  lemma UsageMonotone(t1: real, t2: real, budget: real, daysInMonth: int, today: int)
    requires budget > 0.0 && 1 <= today <= daysInMonth && t1 <= t2
    ensures ComputeFigures(t1, budget, daysInMonth, today).percentageUsed
            <= ComputeFigures(t2, budget, daysInMonth, today).percentageUsed
  {
    var p1 := ComputeFigures(t1, budget, daysInMonth, today).percentageUsed;
    var p2 := ComputeFigures(t2, budget, daysInMonth, today).percentageUsed;
    ScaledMonotone(p1, p2, t1, t2, budget);
  }

  /** Neither does the projected percentage. */
  lemma ProjectionUsageMonotone(t1: real, t2: real, budget: real, daysInMonth: int, today: int)
    requires budget > 0.0 && 1 <= today <= daysInMonth && t1 <= t2
    ensures ComputeFigures(t1, budget, daysInMonth, today).projectedPercentage
            <= ComputeFigures(t2, budget, daysInMonth, today).projectedPercentage
  {
    var f1 := ComputeFigures(t1, budget, daysInMonth, today);
    var f2 := ComputeFigures(t2, budget, daysInMonth, today);
    ProjectedPercentageStep(t1, t2, budget, f1.daysInMonth, f2.daysInMonth, f1.daysRemaining, f2.daysRemaining,
                            f1.projectedExpenses, f2.projectedExpenses, f1.projectedPercentage, f2.projectedPercentage);
  }

  /** The projected percentage grows with the total when the month length
      `dim` and the remaining days `rem` are the same. */
  lemma ProjectedPercentageStep(t1: real, t2: real, budget: real, dim1: int, dim2: int, rem1: int, rem2: int,
                                e1: real, e2: real, p1: real, p2: real)
    requires budget > 0.0 && 0 < dim1 && dim1 == dim2 && rem1 == rem2 && t1 <= t2
    requires e1 * (dim1 as real) == t1 * (dim1 as real) + budget * (rem1 as real)
    requires e2 * (dim2 as real) == t2 * (dim2 as real) + budget * (rem2 as real)
    requires p1 * budget == e1 * 100.0 && p2 * budget == e2 * 100.0
    ensures p1 <= p2
  {
    ProjectionMonotone(e1, e2, t1, t2, dim1 as real, budget * (rem1 as real));
    ScaledMonotone(p1, p2, e1, e2, budget);
  }

  lemma ScaledMonotone(p1: real, p2: real, x1: real, x2: real, b: real)
    requires b > 0.0 && p1 * b == x1 * 100.0 && p2 * b == x2 * 100.0 && x1 <= x2
    ensures p1 <= p2
  {
    CancelPositive(p1, p2, b);
  }

  lemma ProjectionMonotone(e1: real, e2: real, t1: real, t2: real, dim: real, extra: real)
    requires dim > 0.0 && e1 * dim == t1 * dim + extra && e2 * dim == t2 * dim + extra && t1 <= t2
    ensures e1 <= e2
  {
    assert t1 * dim <= t2 * dim;
    CancelPositive(e1, e2, dim);
  }

  lemma CancelPositive(a: real, b: real, c: real)
    requires c > 0.0 && a * c <= b * c
    ensures a <= b
  {
  }

  /** The evaluator as the transaction actions call it: read the user's budget
      and user record from the store, sum the window, pick the top categories,
      look up the account name, evaluate, and write back the budget stamp.
      Nothing but the user's budget stamp can change. */
  function CheckBudgetAlert(s: Store, userId: string, accountId: string, now: Date, sendOk: bool): (r: (Store, Outcome))
    requires Valid(now) && BudgetsUsable(s)
    ensures r.0.users == s.users && r.0.accounts == s.accounts && r.0.transactions == s.transactions
    ensures r.0.budgets.Keys == s.budgets.Keys
    ensures forall u :: u in s.budgets && u != userId ==> r.0.budgets[u] == s.budgets[u]
    ensures r.1.Sent? <==> r.0.budgets != s.budgets
    ensures r.1.Sent? ==> r.0.budgets[userId] == s.budgets[userId].(lastAlertSent := Some(now))
    ensures userId !in s.budgets || FindUserById(s.users, userId).None? ==> r.1 == NoBudgetOrUser
    ensures userId in s.budgets && FindUserById(s.users, userId).Some? ==>
              ((r.1.Sent? || r.1.SendFailed?) <==>
                 ShouldSendAlert(FiguresOn(SumAmounts(AlertWindow(s.transactions, userId, accountId, now)),
                                           s.budgets[userId].amount, now))
                 && MonthGateOpen(s.budgets[userId].lastAlertSent, now))
    ensures r.1.Sent? <==> (r.1.Sent? || r.1.SendFailed?) && sendOk
    ensures BudgetsUsable(r.0)
  {
    var budget := if userId in s.budgets then Some(s.budgets[userId]) else None;
    var user := FindUserById(s.users, userId);
    var window := AlertWindow(s.transactions, userId, accountId, now);
    var total := SumAmounts(window);
    var accountName := if accountId in s.accounts then Some(s.accounts[accountId].name) else None;
    var e := Evaluate(budget, user, total, TopCategories(window), accountName, now, sendOk);
    if e.0.Sent? then
      assert e.1.value.lastAlertSent == Some(now);
      assert s.budgets[userId].lastAlertSent != Some(now) by {
        assert MonthGateOpen(s.budgets[userId].lastAlertSent, now);
      }
      ReplaceBudget(s, userId, e.1.value);
      (s.(budgets := s.budgets[userId := e.1.value]), e.0)
    else (s, e.0)
  }

  /** The store-level de-duplication: once a check has sent an alert, a second
      check later in the same calendar month, on any account and after any
      further expenses, sends nothing. */
  lemma SecondCheckInMonthIsSilent(s: Store, userId: string, accountId: string, now: Date, sendOk: bool,
                                   s2: Store, accountId2: string, later: Date, sendOk2: bool)
    requires Valid(now) && BudgetsUsable(s) && Valid(later)
    requires CheckBudgetAlert(s, userId, accountId, now, sendOk).1.Sent?
    requires var after := CheckBudgetAlert(s, userId, accountId, now, sendOk).0;
             s2.budgets == after.budgets && BudgetsUsable(s2)
    requires !IsNewMonth(now, later)
    ensures !CheckBudgetAlert(s2, userId, accountId2, later, sendOk2).1.Sent?
    ensures !CheckBudgetAlert(s2, userId, accountId2, later, sendOk2).1.SendFailed?
  {
    var r := CheckBudgetAlert(s, userId, accountId, now, sendOk);
    assert s2.budgets[userId].lastAlertSent == Some(now);
    assert !MonthGateOpen(s2.budgets[userId].lastAlertSent, later);
  }

  /** Replacing one user's budget record by one with the same amount keeps the
      other records and the store's budgets usable. */
  lemma ReplaceBudget(s: Store, userId: string, nb: Budget)
    requires userId in s.budgets && BudgetsUsable(s) && nb.amount == s.budgets[userId].amount
    ensures var t := s.(budgets := s.budgets[userId := nb]);
            && t.budgets.Keys == s.budgets.Keys
            && (forall u :: u in s.budgets && u != userId ==> t.budgets[u] == s.budgets[u])
            && t.budgets[userId] == nb
            && BudgetsUsable(t)
  {
  }
}

=== FILE: calendar.dfy ===
/** A proleptic Gregorian calendar of whole days: the part of JavaScript's
    `Date` that the transaction actions use. Months run from 1 to 12 (the
    source's `getMonth()` runs from 0 to 11; only equality of months matters
    there). Time of day and time zones are not modelled. */
module Calendar {

  datatype Date = Date(year: int, month: int, day: int)

  predicate IsLeapYear(y: int) {
    y % 4 == 0 && (y % 100 != 0 || y % 400 == 0)
  }

  function DaysInMonth(y: int, m: int): (n: int)
    requires 1 <= m <= 12
    ensures 28 <= n <= 31
    ensures m == 2 ==> (n == 29 <==> IsLeapYear(y))
  {
    if m == 2 then (if IsLeapYear(y) then 29 else 28)
    else if m == 4 || m == 6 || m == 9 || m == 11 then 30
    else 31
  }

  /** A calendar date that exists. */
  predicate Valid(d: Date) {
    1 <= d.month <= 12 && 1 <= d.day <= DaysInMonth(d.year, d.month)
  }

  function YearLength(y: int): int {
    if IsLeapYear(y) then 366 else 365
  }

  /** Days from 1 January of year 0 to 1 January of year `y` (negative before year 0). */
  function DaysBeforeYear(y: int): int
    decreases if y < 0 then -y else y
  {
    if y == 0 then 0
    else if y > 0 then DaysBeforeYear(y - 1) + YearLength(y - 1)
    else DaysBeforeYear(y + 1) - YearLength(y)
  }

  /** Days from 1 January to the first day of month `m` of year `y`. */
  function DaysBeforeMonth(y: int, m: int): int
    requires 1 <= m <= 12
  {
    var leap := if m > 2 && IsLeapYear(y) then 1 else 0;
    leap +
    (if m == 1 then 0 else if m == 2 then 31 else if m == 3 then 59
     else if m == 4 then 90 else if m == 5 then 120 else if m == 6 then 151
     else if m == 7 then 181 else if m == 8 then 212 else if m == 9 then 243
     else if m == 10 then 273 else if m == 11 then 304 else 334)
  }

  /** Day number of the first day of month `m` of year `y`. */
  function FirstOfMonth(y: int, m: int): int
    requires 1 <= m <= 12
  {
    DaysBeforeYear(y) + DaysBeforeMonth(y, m)
  }

  /** The ordinal of a date on a single day line: the independent reference
      against which date arithmetic is checked. */
  function DayNumber(d: Date): int
    requires 1 <= d.month <= 12
  {
    FirstOfMonth(d.year, d.month) + d.day - 1
  }

  /** The (year, month) after month `m` of year `y`. */
  function NextMonth(y: int, m: int): (r: (int, int))
    requires 1 <= m <= 12
    ensures 1 <= r.1 <= 12
  {
    if m == 12 then (y + 1, 1) else (y, m + 1)
  }

  lemma DaysBeforeNextYear(y: int)
    ensures DaysBeforeYear(y + 1) == DaysBeforeYear(y) + YearLength(y)
  {
  }

  /** Months are laid end to end on the day line. */
  lemma FirstOfNextMonth(y: int, m: int)
    requires 1 <= m <= 12
    ensures FirstOfMonth(NextMonth(y, m).0, NextMonth(y, m).1) == FirstOfMonth(y, m) + DaysInMonth(y, m)
  {
    if m == 12 {
      DaysBeforeNextYear(y);
    }
  }

  /** JavaScript's `new Date(y, m, d)` normalisation for the overflow the
      recurring-date helper can produce: month 13 wraps into January of the
      next year, and a day past the end of the month carries into the next
      month. The result is the day `d - 1` days after the first of the
      (wrapped) month, exactly as JavaScript's MakeDay counts it. */
  function MakeDate(y: int, m: int, d: int): (r: Date)
    requires 1 <= m <= 13 && 1 <= d <= 38
    ensures Valid(r)
    ensures m <= 12 ==> DayNumber(r) == FirstOfMonth(y, m) + d - 1
    ensures m == 13 ==> DayNumber(r) == FirstOfMonth(y + 1, 1) + d - 1
    ensures m <= 12 && d <= DaysInMonth(y, m) ==> r == Date(y, m, d)
  {
    var (y1, m1) := if m == 13 then (y + 1, 1) else (y, m);
    var dim := DaysInMonth(y1, m1);
    if d <= dim then Date(y1, m1, d)
    else
      var (y2, m2) := NextMonth(y1, m1);
      FirstOfNextMonth(y1, m1);
      Date(y2, m2, d - dim)
  }

  /** Chronological order of dates, field by field. */
  predicate Before(a: Date, b: Date) {
    a.year < b.year
    || (a.year == b.year && a.month < b.month)
    || (a.year == b.year && a.month == b.month && a.day < b.day)
  }

  predicate OnOrAfter(a: Date, b: Date) {
    !Before(a, b)
  }

  /** Each year occupies the day numbers [DaysBeforeYear(y), DaysBeforeYear(y + 1)). */
  lemma {:induction false} DaysBeforeYearMonotone(a: int, b: int)
    requires a <= b
    ensures DaysBeforeYear(a) + 365 * (b - a) <= DaysBeforeYear(b)
    decreases b - a
  {
    if a < b {
      DaysBeforeYearMonotone(a + 1, b);
      DaysBeforeNextYear(a);
    }
  }

  lemma DayNumberWithinYear(d: Date)
    requires Valid(d)
    ensures DaysBeforeYear(d.year) <= DayNumber(d) < DaysBeforeYear(d.year) + YearLength(d.year)
  {
  }

  /** The field-by-field order agrees with the order of day numbers. */
  lemma BeforeIsDayOrder(a: Date, b: Date)
    requires Valid(a) && Valid(b)
    ensures Before(a, b) <==> DayNumber(a) < DayNumber(b)
  {
    DayNumberWithinYear(a);
    DayNumberWithinYear(b);
    if a.year < b.year {
      DaysBeforeYearMonotone(a.year + 1, b.year);
      DaysBeforeNextYear(a.year);
    } else if b.year < a.year {
      DaysBeforeYearMonotone(b.year + 1, a.year);
      DaysBeforeNextYear(b.year);
    }
  }

  /** Index of the calendar month a date falls in, counted from January of year 0. */
  function MonthIndex(d: Date): int {
    12 * d.year + d.month
  }

  /** Two dates fall in different calendar months: a different month or a
      different year (transaction.js, `isNewMonth`). */
  predicate IsNewMonth(a: Date, b: Date) {
    a.month != b.month || a.year != b.year
  }

  /** Being in a new month is the same as having different month indices, so the
      relation is symmetric and false for any two dates of one month. */
  lemma IsNewMonthIsMonthChange(a: Date, b: Date)
    requires Valid(a) && Valid(b)
    ensures IsNewMonth(a, b) <==> MonthIndex(a) != MonthIndex(b)
    ensures IsNewMonth(a, b) <==> IsNewMonth(b, a)
    ensures a.year == b.year && a.month == b.month ==> !IsNewMonth(a, b)
  {
    if a.year < b.year {
      assert MonthIndex(a) <= 12 * (b.year - 1) + 12;
    } else if b.year < a.year {
      assert MonthIndex(b) <= 12 * (a.year - 1) + 12;
    }
  }

  /** The first day of the month a date falls in (the source's `startDate` without its time of day). */
  function MonthStart(d: Date): (r: Date)
    requires Valid(d)
    ensures Valid(r) && !IsNewMonth(r, d) && r.day == 1
    ensures OnOrAfter(d, r)
  {
    Date(d.year, d.month, 1)
  }
}

=== FILE: categories.dfy ===
/** The top spending categories reported in a budget alert: expenses grouped
    by category, summed, ordered by sum descending, first three kept
    (transaction.js, the `groupBy` query in `checkBudgetAlert`). The database
    leaves the order of equal sums unspecified; this model keeps such
    categories in order of first appearance. */
module Categories {
  import opened Domain

  datatype CategoryTotal = CategoryTotal(category: string, amount: real)

  /** Sum of the amounts of the transactions in `txs`. */
  function SumAmounts(txs: seq<Transaction>): real
  {
    if |txs| == 0 then 0.0 else SumAmounts(txs[..|txs| - 1]) + txs[|txs| - 1].amount
  }

  /** Sum of the amounts of the transactions of category `c`. */
  function CategorySum(txs: seq<Transaction>, c: string): real
  {
    if |txs| == 0 then 0.0
    else CategorySum(txs[..|txs| - 1], c) + (if txs[|txs| - 1].category == c then txs[|txs| - 1].amount else 0.0)
  }

  /** The distinct categories of `txs`, in order of first appearance. */
  function CategoriesOf(txs: seq<Transaction>): (cs: seq<string>)
    ensures forall c :: c in cs <==> exists i :: 0 <= i < |txs| && txs[i].category == c
    ensures forall i, j :: 0 <= i < j < |cs| ==> cs[i] != cs[j]
  {
    if |txs| == 0 then []
    else
      var prev := CategoriesOf(txs[..|txs| - 1]);
      var c := txs[|txs| - 1].category;
      assert forall i :: 0 <= i < |txs| - 1 ==> txs[..|txs| - 1][i] == txs[i];
      if c in prev then prev else prev + [c]
  }

  /** One total per category of `txs`. */
  function GroupByCategory(txs: seq<Transaction>): (g: seq<CategoryTotal>)
    ensures |g| == |CategoriesOf(txs)|
    ensures forall i :: 0 <= i < |g| ==> g[i] == CategoryTotal(CategoriesOf(txs)[i], CategorySum(txs, CategoriesOf(txs)[i]))
  {
    var cs := CategoriesOf(txs);
    seq(|cs|, i requires 0 <= i < |cs| => CategoryTotal(cs[i], CategorySum(txs, cs[i])))
  }

  /** Sum of the group totals in `g`. */
  function TotalOf(g: seq<CategoryTotal>): real {
    if |g| == 0 then 0.0 else g[0].amount + TotalOf(g[1..])
  }

  /** Sum over the categories `cs` of each category's sum in `txs`. */
  function SumOverCategories(cs: seq<string>, txs: seq<Transaction>): real {
    if |cs| == 0 then 0.0 else CategorySum(txs, cs[0]) + SumOverCategories(cs[1..], txs)
  }

  /** What one transaction `t` adds to the sums over the categories `cs`. */
  function ShareOf(cs: seq<string>, t: Transaction): real {
    if |cs| == 0 then 0.0 else (if t.category == cs[0] then t.amount else 0.0) + ShareOf(cs[1..], t)
  }

  predicate Distinct(cs: seq<string>) {
    forall i, j :: 0 <= i < j < |cs| ==> cs[i] != cs[j]
  }

  /** Grouping loses no transaction and counts none twice: the group totals
      add up to the sum of all the amounts. */
  lemma GroupTotalsAddUp(txs: seq<Transaction>)
    ensures TotalOf(GroupByCategory(txs)) == SumAmounts(txs)
  {
    var cs := CategoriesOf(txs);
    TotalOfGroups(GroupByCategory(txs), cs, txs);
    forall i | 0 <= i < |txs| ensures txs[i].category in cs {
    }
    CoveringCategoriesAddUp(cs, txs);
  }

  lemma {:induction false} TotalOfGroups(g: seq<CategoryTotal>, cs: seq<string>, txs: seq<Transaction>)
    requires |g| == |cs|
    requires forall i :: 0 <= i < |g| ==> g[i].amount == CategorySum(txs, cs[i])
    ensures TotalOf(g) == SumOverCategories(cs, txs)
    decreases |g|
  {
    if |g| > 0 {
      TotalOfGroups(g[1..], cs[1..], txs);
    }
  }

  /** Summing per category over distinct categories that cover every
      transaction gives the plain sum. */
  lemma {:induction false} CoveringCategoriesAddUp(cs: seq<string>, txs: seq<Transaction>)
    requires Distinct(cs)
    requires forall i :: 0 <= i < |txs| ==> txs[i].category in cs
    ensures SumOverCategories(cs, txs) == SumAmounts(txs)
    decreases |txs|
  {
    if |txs| == 0 {
      NothingOverCategories(cs);
    } else {
      var prefix := txs[..|txs| - 1];
      var t := txs[|txs| - 1];
      assert txs == prefix + [t];
      assert forall i :: 0 <= i < |prefix| ==> prefix[i] == txs[i];
      CoveringCategoriesAddUp(cs, prefix);
      SumOverAppend(cs, prefix, t);
      ShareOfCovered(cs, t);
    }
  }

  lemma {:induction false} NothingOverCategories(cs: seq<string>)
    ensures SumOverCategories(cs, []) == 0.0
    decreases |cs|
  {
    if |cs| > 0 {
      NothingOverCategories(cs[1..]);
    }
  }

  /** Appending `t` adds its share to the sums over `cs`. */
  lemma {:induction false} SumOverAppend(cs: seq<string>, prefix: seq<Transaction>, t: Transaction)
    ensures SumOverCategories(cs, prefix + [t]) == SumOverCategories(cs, prefix) + ShareOf(cs, t)
    decreases |cs|
  {
    if |cs| > 0 {
      assert (prefix + [t])[..|prefix + [t]| - 1] == prefix;
      SumOverAppend(cs[1..], prefix, t);
    }
  }

  /** Among distinct categories, a transaction's share is its amount when its
      category is listed once, and nothing when it is not listed. */
  lemma {:induction false} ShareOfCovered(cs: seq<string>, t: Transaction)
    requires Distinct(cs)
    ensures t.category in cs ==> ShareOf(cs, t) == t.amount
    ensures t.category !in cs ==> ShareOf(cs, t) == 0.0
    decreases |cs|
  {
    if |cs| > 0 {
      assert Distinct(cs[1..]) by {
        forall i, j | 0 <= i < j < |cs[1..]| ensures cs[1..][i] != cs[1..][j] {
          assert cs[1..][i] == cs[i + 1] && cs[1..][j] == cs[j + 1];
        }
      }
      ShareOfCovered(cs[1..], t);
      if t.category == cs[0] {
        assert t.category !in cs[1..] by {
          forall k | 0 <= k < |cs[1..]| ensures cs[1..][k] != cs[0] {
            assert cs[1..][k] == cs[k + 1];
          }
        }
      } else {
        assert t.category in cs ==> t.category in cs[1..] by {
          assert cs == [cs[0]] + cs[1..];
        }
      }
    }
  }

  predicate SortedDescending(s: seq<CategoryTotal>) {
    forall i, j :: 0 <= i < j < |s| ==> s[i].amount >= s[j].amount
  }

  /** Insert `x` into a descending list after every entry at least as large (so equal sums keep their order). */
  function Insert(x: CategoryTotal, s: seq<CategoryTotal>): (r: seq<CategoryTotal>)
    requires SortedDescending(s)
    ensures SortedDescending(r)
    ensures multiset(r) == multiset(s) + multiset{x}
    ensures |r| == |s| + 1 && (r[0] == x || (|s| > 0 && r[0] == s[0]))
  {
    if |s| == 0 then [x]
    else if s[0].amount >= x.amount then
      var tail := Insert(x, s[1..]);
      assert s == [s[0]] + s[1..];
      assert |s| > 1 ==> s[0].amount >= s[1].amount;
      ConsSorted(s[0], tail);
      ConsMultiset(s[0], tail, s[1..], x);
      [s[0]] + tail
    else
      ConsSorted(x, s);
      assert multiset([x] + s) == multiset{x} + multiset(s);
      [x] + s
  }

  /** Putting the same head on both sides keeps a multiset equation. */
  lemma ConsMultiset(h: CategoryTotal, t: seq<CategoryTotal>, rest: seq<CategoryTotal>, x: CategoryTotal)
    requires multiset(t) == multiset(rest) + multiset{x}
    ensures multiset([h] + t) == multiset([h] + rest) + multiset{x}
  {
    assert multiset([h] + t) == multiset{h} + multiset(t);
    assert multiset([h] + rest) == multiset{h} + multiset(rest);
  }

  /** An entry at least as large as the head of a descending list extends it. */
  lemma ConsSorted(h: CategoryTotal, t: seq<CategoryTotal>)
    requires SortedDescending(t) && (|t| > 0 ==> h.amount >= t[0].amount)
    ensures SortedDescending([h] + t)
  {
    var r := [h] + t;
    forall i, j | 0 <= i < j < |r| ensures r[i].amount >= r[j].amount {
      if i > 0 {
        assert r[i] == t[i - 1] && r[j] == t[j - 1];
      } else {
        assert r[j] == t[j - 1];
      }
    }
  }

  /** The totals ordered by amount, largest first. */
  function SortDescending(s: seq<CategoryTotal>): (r: seq<CategoryTotal>)
    ensures SortedDescending(r)
    ensures multiset(r) == multiset(s)
  {
    if |s| == 0 then []
    else
      assert s == s[..|s| - 1] + [s[|s| - 1]];
      Insert(s[|s| - 1], SortDescending(s[..|s| - 1]))
  }

  /** Cutting a descending list after its first `k` entries leaves out nothing larger than what it keeps. */
  lemma PrefixDominates(sorted: seq<CategoryTotal>, k: nat)
    requires SortedDescending(sorted) && k <= |sorted|
    ensures SortedDescending(sorted[..k])
    ensures forall t :: t in sorted[..k] ==> t in sorted
    ensures forall g :: g in sorted && g !in sorted[..k] ==>
              forall i :: 0 <= i < k ==> g.amount <= sorted[i].amount
  {
    forall g | g in sorted && g !in sorted[..k]
      ensures forall i :: 0 <= i < k ==> g.amount <= sorted[i].amount
    {
      var j :| 0 <= j < |sorted| && sorted[j] == g;
    }
  }

  /** The at most three largest entries of `groups`, largest first, each taken
      from `groups` at most as often as it occurs there; every entry left out is
      no larger than any entry kept. */
  function TakeTop3(groups: seq<CategoryTotal>): (top: seq<CategoryTotal>)
    ensures |top| == if |groups| < 3 then |groups| else 3
    ensures SortedDescending(top)
    ensures multiset(top) <= multiset(groups)
    ensures forall t :: t in top ==> t in groups
    ensures forall g :: g in groups && g !in top ==>
              forall i :: 0 <= i < |top| ==> g.amount <= top[i].amount
  {
    var sorted := SortDescending(groups);
    SameElements(sorted, groups);
    var k := if |sorted| < 3 then |sorted| else 3;
    PrefixDominates(sorted, k);
    PrefixSubMultiset(sorted, k);
    sorted[..k]
  }

  /** A prefix takes each entry at most as often as the whole list has it. */
  lemma PrefixSubMultiset(s: seq<CategoryTotal>, k: nat)
    requires k <= |s|
    ensures multiset(s[..k]) <= multiset(s)
  {
    assert s == s[..k] + s[k..];
  }

  /** Two lists with equal multisets have the same length and the same members. */
  lemma SameElements(a: seq<CategoryTotal>, b: seq<CategoryTotal>)
    requires multiset(a) == multiset(b)
    ensures |a| == |b|
    ensures forall g :: g in a <==> g in b
  {
    assert |multiset(a)| == |multiset(b)|;
    forall g ensures g in a <==> g in b {
      assert g in a <==> g in multiset(a);
      assert g in b <==> g in multiset(b);
    }
  }

  /** The category totals a budget alert reports: at most three distinct
      groups, largest first, and every category left out spent no more than any
      category kept. */
  function TopCategories(txs: seq<Transaction>): (top: seq<CategoryTotal>)
    ensures |top| == if |CategoriesOf(txs)| < 3 then |CategoriesOf(txs)| else 3
    ensures SortedDescending(top)
    ensures multiset(top) <= multiset(GroupByCategory(txs))
    ensures forall i, j :: 0 <= i < j < |top| ==> top[i].category != top[j].category
    ensures forall t :: t in top ==> t in GroupByCategory(txs)
    ensures forall g :: g in GroupByCategory(txs) && g !in top ==>
              forall i :: 0 <= i < |top| ==> g.amount <= top[i].amount
  {
    var groups := GroupByCategory(txs);
    var top := TakeTop3(groups);
    SubMultisetKeepsCategoriesDistinct(top, groups);
    top
  }

  /** Taking entries from a list whose categories are distinct, each at most as
      often as it occurs, gives a list whose categories are distinct too. */
  lemma SubMultisetKeepsCategoriesDistinct(top: seq<CategoryTotal>, groups: seq<CategoryTotal>)
    requires multiset(top) <= multiset(groups)
    requires forall i, j :: 0 <= i < j < |groups| ==> groups[i].category != groups[j].category
    ensures forall i, j :: 0 <= i < j < |top| ==> top[i].category != top[j].category
  {
    forall i, j | 0 <= i < j < |top|
      ensures top[i].category != top[j].category
    {
      var a :| 0 <= a < |groups| && groups[a] == top[i] by {
        assert top[i] in multiset(groups);
      }
      var b :| 0 <= b < |groups| && groups[b] == top[j] by {
        assert top[j] in multiset(groups);
      }
      OccursOnce(groups, a);
      RepeatedEntry(top, i, j);
    }
  }

  /** An entry at two positions occurs at least twice. */
  lemma RepeatedEntry(top: seq<CategoryTotal>, i: int, j: int)
    requires 0 <= i < j < |top|
    ensures top[i] == top[j] ==> multiset(top)[top[i]] >= 2
  {
    assert top == top[..j] + top[j..];
    assert top[i] in top[..j] && top[j] in top[j..];
  }

  /** An entry whose category occurs nowhere else in the list occurs once. */
  lemma OccursOnce(groups: seq<CategoryTotal>, a: int)
    requires 0 <= a < |groups|
    requires forall i, j :: 0 <= i < j < |groups| ==> groups[i].category != groups[j].category
    ensures multiset(groups)[groups[a]] == 1
  {
    var x := groups[a];
    assert groups == groups[..a] + [x] + groups[a + 1..];
    assert x !in groups[..a] by {
      forall k | 0 <= k < a ensures groups[..a][k] != x {
        assert groups[k].category != groups[a].category;
      }
    }
    var after := groups[a + 1..];
    assert x !in after by {
      forall k | 0 <= k < |after| ensures after[k] != x {
        assert after[k] == groups[a + 1 + k];
      }
    }
  }
}

=== FILE: chatbot.dfy ===
/** The farm assistant's client-side rules (components/chatbot/Chatbot.jsx):
    the loan-amount field and its submission, the loan amount read out of a
    chat message, the tool tiers, and the reply chosen by keyword when the
    assistant service cannot be reached. Rendering, local storage and the
    network request itself are outside the model. */
module Chatbot {
  import opened Wrappers
  import opened JsText
  import opened JsNumber

  /** The loan amount before the user gives one. */
  const InitialLoan: real := 50000.0

  // ---------------------------------------------------------------------
  // The loan-amount field

  predicate IsLoanChar(c: char) {
    IsDigit(c) || c == ',' || c == '.'
  }

  /** Text made only of digits, commas and dots. */
  predicate LoanText(s: string) {
    forall i :: 0 <= i < |s| ==> IsLoanChar(s[i])
  }

  /** The field's change handler: every character other than a digit, a comma or a dot is dropped. */
  function SanitizeLoanInput(raw: string): (r: string)
    ensures LoanText(r) && |r| <= |raw|
    ensures forall c :: c in r <==> c in raw && IsLoanChar(c)
  {
    Filter(raw, IsLoanChar)
  }

  /** The kept characters stay in their original order: sanitising is
      compatible with concatenation. */
  lemma SanitizeKeepsOrder(a: string, b: string)
    ensures SanitizeLoanInput(a + b) == SanitizeLoanInput(a) + SanitizeLoanInput(b)
  {
    FilterAppend(a, b, IsLoanChar);
  }

  /** Text already made of loan characters is left as typed, so sanitising twice changes nothing. */
  lemma SanitizeKeepsLoanText(s: string)
    ensures LoanText(s) ==> SanitizeLoanInput(s) == s
    ensures SanitizeLoanInput(SanitizeLoanInput(s)) == SanitizeLoanInput(s)
  {
    if LoanText(s) {
      FilterKeepsAll(s, IsLoanChar);
    }
    FilterKeepsAll(SanitizeLoanInput(s), IsLoanChar);
  }

  /** The loan state: the amount in use, whether the field is shown, and the field's text. */
  datatype LoanForm = LoanForm(loanAmount: real, showLoanInput: bool, input: string)

  /** Submitting the field. Its text only ever comes from the change handler,
      so it is loan text. Empty text, or text that does not read as a number,
      is ignored; otherwise the amount is read with every comma removed, the
      field is hidden and cleared. */
  function SubmitLoan(f: LoanForm): (r: LoanForm)
    requires LoanText(f.input)
    ensures (f.input == "" || ParseFloat(f.input).None?) ==> r == f
    ensures f.input != "" && ParseFloat(f.input).Some? ==>
              !r.showLoanInput && r.input == "" && ParseFloat(RemoveAll(f.input, ',')) == Some(r.loanAmount)
    ensures r.loanAmount >= 0.0 || r == f
  {
    if f.input == "" || ParseFloat(f.input).None? then f
    else
      var stripped := RemoveAll(f.input, ',');
      StrippedLoanTextParses(f.input);
      LoanForm(ParseFloat(stripped).value, false, "")
  }

  /** Loan text that reads as a number still does once its commas are gone,
      and the value is not negative. */
  lemma StrippedLoanTextParses(s: string)
    requires LoanText(s) && s != "" && ParseFloat(s).Some?
    ensures ParseFloat(RemoveAll(s, ',')).Some? && ParseFloat(RemoveAll(s, ',')).value >= 0.0
  {
    assert !IsJsSpace(s[0]);
    assert TrimStart(s) == s;
    var t := RemoveAll(s, ',');
    RemoveAllCons(s, ',');
    if !IsDigit(s[0]) {
      RemoveAllCons(s[1..], ',');
      assert s[1..][1..] == s[2..];
      assert t[1] == s[1];
    }
    assert !IsJsSpace(t[0]);
    assert TrimStart(t) == t;
  }

  /** Commas are ignored: "12,500" is submitted as 12500, where reading the
      text as typed would stop at the comma and give 12. */
  lemma SubmitIgnoresCommas(loan: real, a: string, b: string)
    requires |a| > 0 && AllDigits(a) && |b| > 0 && AllDigits(b)
    ensures ParseFloat(a + "," + b) == Some(DigitsValue(a) as real)
    ensures LoanText(a + "," + b) && AllDigits(a + b)
            && SubmitLoan(LoanForm(loan, true, a + "," + b)) == LoanForm(DigitsValue(a + b) as real, false, "")
  {
    var s := a + "," + b;
    assert s == a + ("," + b);
    DigitsThenStop(a, "," + b);
    GroupIsLoanText(a, b);
    CommaGroupParses(a, b);
    assert s != "";
  }

  lemma GroupIsLoanText(a: string, b: string)
    requires AllDigits(a) && AllDigits(b)
    ensures LoanText(a + "," + b) && AllDigits(a + b)
  {
    var s := a + "," + b;
    forall i | 0 <= i < |s| ensures IsLoanChar(s[i]) {
      if i < |a| { assert s[i] == a[i]; }
      else if i > |a| { assert s[i] == b[i - |a| - 1]; }
    }
    forall i | 0 <= i < |a + b| ensures IsDigit((a + b)[i]) {
      if i < |a| { assert (a + b)[i] == a[i]; }
      else { assert (a + b)[i] == b[i - |a|]; }
    }
  }

  /** "a,b" without its comma reads as the number the digits of a and b denote. */
  lemma CommaGroupParses(a: string, b: string)
    requires |a| > 0 && AllDigits(a) && |b| > 0 && AllDigits(b)
    ensures ParseFloat(RemoveAll(a + "," + b, ',')) == Some(DigitsValue(a + b) as real)
  {
    StripComma(a, b);
    assert AllDigits(a + b);
    DigitsThenStop(a + b, "");
    assert a + b + "" == a + b;
  }

  lemma StripComma(a: string, b: string)
    requires AllDigits(a) && AllDigits(b)
    ensures RemoveAll(a + "," + b, ',') == a + b
  {
    RemoveAllAppend(a + ",", b, ',');
    RemoveAllAppend(a, ",", ',');
    RemoveAllCons(",", ',');
    assert ","[1..] == "";
    assert ',' !in a && ',' !in b;
    RemoveAllAbsent(a, ',');
    RemoveAllAbsent(b, ',');
  }

  // ---------------------------------------------------------------------
  // The loan amount stated in a chat message:
  // /\$?(\d+(?:,\d+)*(?:\.\d+)?)\s?(?:loan|budget|rupees|dollars)/i

  /** The end of `(?:,\d+)*(?:\.\d+)?` after a digit run that ends at `n`. */
  function GroupEnd(t: string, n: nat): (e: nat)
    requires n <= |t|
    ensures n <= e <= |t|
    decreases |t| - n
  {
    if n < |t| && t[n] == ',' && DigitRun(t[n + 1..]) > 0 then GroupEnd(t, n + 1 + DigitRun(t[n + 1..]))
    else if n < |t| && t[n] == '.' && DigitRun(t[n + 1..]) > 0 then n + 1 + DigitRun(t[n + 1..])
    else n
  }

  /** The length of the amount that starts `t`, 0 when `t` does not start with
      a digit. The repetition is greedy, and a shorter amount would end on a
      digit, comma or dot, where neither white space nor a keyword can follow,
      so the longest amount is the only one the pattern can use. */
  function AmountLength(t: string): (n: nat)
    ensures n <= |t|
    ensures n > 0 <==> |t| > 0 && IsDigit(t[0])
  {
    var d := DigitRun(t);
    if d == 0 then 0 else GroupEnd(t, d)
  }

  predicate StartsWith(t: string, w: string) {
    |w| <= |t| && t[..|w|] == w
  }

  predicate StartsWithLoanWord(t: string) {
    StartsWith(t, "loan") || StartsWith(t, "budget") || StartsWith(t, "rupees") || StartsWith(t, "dollars")
  }

  /** `\s?(?:loan|budget|rupees|dollars)` matches at the start of `t`, ignoring case. */
  predicate LoanWordFollows(t: string) {
    var l := Lower(t);
    StartsWithLoanWord(l) || (|l| > 0 && IsJsSpace(l[0]) && StartsWithLoanWord(l[1..]))
  }

  /** The amount the pattern captures when its digits start at `p`. */
  function AmountAt(m: string, p: nat): (r: Option<string>)
    requires p <= |m|
    ensures r.Some? ==> |r.value| > 0 && IsDigit(r.value[0])
  {
    var n := AmountLength(m[p..]);
    if n > 0 && LoanWordFollows(m[p + n..]) then Some(m[p..p + n]) else None
  }

  /** The first capture at or after `p`. An optional "$" before the digits
      does not move the capture, so the leftmost match is found by trying each
      digit position in turn. */
  function FirstAmount(m: string, p: nat): (r: Option<string>)
    requires p <= |m|
    ensures r.Some? ==> exists q :: p <= q <= |m| && AmountAt(m, q) == r
    ensures r.Some? ==> |r.value| > 0 && IsDigit(r.value[0])
    decreases |m| - p
  {
    if p == |m| then None
    else if AmountAt(m, p).Some? then AmountAt(m, p)
    else FirstAmount(m, p + 1)
  }

  /** `extractLoanAmount(message)`: the captured amount with its commas removed,
      read as a number; `None` (null) when the pattern does not match. */
  function ExtractLoanAmount(m: string): (r: Option<real>)
    ensures r.Some? <==> FirstAmount(m, 0).Some?
    ensures r.Some? ==> r.value >= 0.0
  {
    var captured := FirstAmount(m, 0);
    if captured.None? then None
    else
      DigitFirstParses(captured.value);
      ParseFloat(RemoveAll(captured.value, ','))
  }

  /** Text that starts with a digit still does without its commas, so it reads as a number that is not negative. */
  lemma DigitFirstParses(s: string)
    requires |s| > 0 && IsDigit(s[0])
    ensures ParseFloat(RemoveAll(s, ',')).Some? && ParseFloat(RemoveAll(s, ',')).value >= 0.0
  {
    RemoveAllCons(s, ',');
    var t := RemoveAll(s, ',');
    assert !IsJsSpace(t[0]);
    assert TrimStart(t) == t;
  }

  /** Without one of the four keywords in the message there is no amount. */
  lemma NoKeywordNoAmount(m: string)
    requires !Includes(Lower(m), "loan") && !Includes(Lower(m), "budget")
    requires !Includes(Lower(m), "rupees") && !Includes(Lower(m), "dollars")
    ensures ExtractLoanAmount(m).None?
  {
    if FirstAmount(m, 0).Some? {
      var q :| 0 <= q <= |m| && AmountAt(m, q) == FirstAmount(m, 0);
      AmountAtHasWord(m, q);
    }
  }

  /** A capture is followed by one of the keywords. */
  lemma AmountAtHasWord(m: string, q: nat)
    requires q <= |m| && AmountAt(m, q).Some?
    ensures Includes(Lower(m), "loan") || Includes(Lower(m), "budget")
            || Includes(Lower(m), "rupees") || Includes(Lower(m), "dollars")
  {
    var k := q + AmountLength(m[q..]);
    assert LoanWordFollows(m[k..]);
    LowerSuffix(m, k);
    var l := Lower(m[k..]);
    if StartsWithLoanWord(l) {
      WordAt(Lower(m), k);
    } else {
      assert l[1..] == Lower(m)[k + 1..];
      WordAt(Lower(m), k + 1);
    }
  }

  lemma LowerSuffix(m: string, k: nat)
    requires k <= |m|
    ensures Lower(m[k..]) == Lower(m)[k..]
  {
  }

  /** A keyword at the start of a suffix occurs in the whole text. */
  lemma WordAt(s: string, k: nat)
    requires k <= |s| && StartsWithLoanWord(s[k..])
    ensures Includes(s, "loan") || Includes(s, "budget") || Includes(s, "rupees") || Includes(s, "dollars")
  {
    var w := if StartsWith(s[k..], "loan") then "loan"
             else if StartsWith(s[k..], "budget") then "budget"
             else if StartsWith(s[k..], "rupees") then "rupees"
             else "dollars";
    assert s[k..][..|w|] == s[k..k + |w|];
    assert OccursAt(s, w, k);
  }

  /** Digits followed by white space and a keyword are read as their value. */
  lemma AmountThenWord(d: string, rest: string)
    requires |d| > 0 && AllDigits(d)
    requires |rest| > 0 && IsJsSpace(rest[0]) && LoanWordFollows(rest)
    ensures ExtractLoanAmount(d + rest) == Some(DigitsValue(d) as real)
  {
    var m := d + rest;
    DigitRunOfDigits(d, rest);
    assert m[|d|] == rest[0];
    GroupEndAtSpace(m, |d|);
    assert m[0..] == m && m[|d|..] == rest && m[0..|d|] == d;
    assert AmountAt(m, 0) == Some(d);
    NoCommaInDigits(d);
    RemoveAllAbsent(d, ',');
    DigitsThenStop(d, "");
    assert d + "" == d;
  }

  /** A comma-grouped amount followed by " loan" is read with its commas
      removed: "12,500 loan" gives 12500. */
  lemma ExtractGroupedAmount(a: string, b: string)
    requires |a| > 0 && AllDigits(a) && |b| > 0 && AllDigits(b)
    ensures ExtractLoanAmount(a + "," + b + " loan") == Some(DigitsValue(a + b) as real)
  {
    var m := a + "," + b + " loan";
    GroupedAmountAtStart(a, b);
    assert FirstAmount(m, 0) == Some(a + "," + b);
    CommaGroupParses(a, b);
  }

  lemma GroupedAmountAtStart(a: string, b: string)
    requires |a| > 0 && AllDigits(a) && |b| > 0 && AllDigits(b)
    ensures AmountAt(a + "," + b + " loan", 0) == Some(a + "," + b)
  {
    var m := a + "," + b + " loan";
    var n := |a| + 1 + |b|;
    assert m[0..] == m;
    GroupedAmountLength(a, b, " loan");
    assert m[n..] == " loan";
    SpaceLoanFollows();
    assert m[0..n] == a + "," + b;
  }

  /** The amount "a,b" is read whole when white space follows it. */
  lemma GroupedAmountLength(a: string, b: string, rest: string)
    requires |a| > 0 && AllDigits(a) && |b| > 0 && AllDigits(b)
    requires |rest| > 0 && IsJsSpace(rest[0])
    ensures AmountLength(a + "," + b + rest) == |a| + 1 + |b|
  {
    var m := a + "," + b + rest;
    var n := |a| + 1 + |b|;
    GroupedParts(a, b, rest);
    GroupEndAfterComma(m, |a|, |b|);
    GroupEndAtSpace(m, n);
  }

  /** Where the digit runs and separators of "a,b" followed by `rest` lie. */
  lemma GroupedParts(a: string, b: string, rest: string)
    requires |a| > 0 && AllDigits(a) && |b| > 0 && AllDigits(b) && |rest| > 0 && !IsDigit(rest[0])
    ensures var m := a + "," + b + rest;
            && DigitRun(m) == |a| && m[|a|] == ',' && DigitRun(m[|a| + 1..]) == |b|
            && m[|a| + 1 + |b|] == rest[0]
  {
    var m := a + "," + b + rest;
    assert m == a + ("," + b + rest);
    DigitRunOfDigits(a, "," + b + rest);
    assert m[|a|] == ',';
    assert m[|a| + 1..] == b + rest;
    DigitRunOfDigits(b, rest);
  }

  /** White space ends the groups of an amount. */
  lemma GroupEndAtSpace(t: string, n: nat)
    requires n < |t| && IsJsSpace(t[n])
    ensures GroupEnd(t, n) == n
  {
  }

  /** A comma followed by `g` digits extends the amount by one group. */
  lemma GroupEndAfterComma(t: string, n: nat, g: nat)
    requires n < |t| && t[n] == ',' && g > 0 && DigitRun(t[n + 1..]) == g
    ensures GroupEnd(t, n) == GroupEnd(t, n + 1 + g)
  {
  }

  lemma NoCommaInDigits(d: string)
    requires AllDigits(d)
    ensures ',' !in d
  {
  }

  lemma SpaceLoanFollows()
    ensures LoanWordFollows(" loan")
  {
    var l := Lower(" loan");
    assert l == " loan";
    assert l[1..][..4] == "loan";
  }

  /** A message amount replaces the loan only when it is truthy: a stated
      amount of zero, or none, keeps the loan as it was. */
  function UpdateLoan(loan: real, m: string): (r: real)
    ensures ExtractLoanAmount(m).Some? && ExtractLoanAmount(m).value != 0.0 ==> r == ExtractLoanAmount(m).value
    ensures r == loan || r > 0.0
  {
    var amount := ExtractLoanAmount(m);
    if amount.Some? && amount.value != 0.0 then amount.value else loan
  }

  /** An amount of zero ("0 loan") is extracted, but zero is falsy, so the loan stays. */
  lemma ZeroAmountKeepsLoan(loan: real, d: string)
    requires |d| > 0 && AllDigits(d) && DigitsValue(d) == 0
    ensures ExtractLoanAmount(d + " loan") == Some(0.0)
    ensures UpdateLoan(loan, d + " loan") == loan
  {
    SpaceLoanFollows();
    AmountThenWord(d, " loan");
  }

  /** Starting from a positive loan, any sequence of messages keeps it positive. */
  lemma {:induction false} LoanStaysPositive(loan: real, ms: seq<string>)
    requires loan > 0.0
    ensures ApplyMessages(loan, ms) > 0.0
    decreases |ms|
  {
    if |ms| > 0 {
      LoanStaysPositive(UpdateLoan(loan, ms[0]), ms[1..]);
    }
  }

  /** The loan after each message in turn. */
  function ApplyMessages(loan: real, ms: seq<string>): real
    decreases |ms|
  {
    if |ms| == 0 then loan else ApplyMessages(UpdateLoan(loan, ms[0]), ms[1..])
  }

  // ---------------------------------------------------------------------
  // Tool tiers

  const BasicTools: seq<string> := ["Garden Hoe", "Digging Shovel", "Hand Pruners", "Rake", "Watering Can"]
  const IntermediateTools: seq<string> := ["Wheelbarrow", "Drip Irrigation System", "Garden Tiller", "Protective Gear"]
  const AdvancedTools: seq<string> := ["Small Tractor", "Rotary Cultivator", "Sprayer System"]

  /** How many tools of each catalogue tier are recommended. */
  datatype ToolMix = ToolMix(basics: nat, intermediate: nat, advanced: nat)

  /** The tier counts for a loan: below 5000 four basic tools, below 15000
      three basic and two intermediate, otherwise two basic, two intermediate
      and one advanced. */
  function MixFor(loan: real): (mix: ToolMix)
    ensures mix.basics + mix.intermediate + mix.advanced == (if loan < 5000.0 then 4 else 5)
    ensures mix.basics <= |BasicTools| && mix.intermediate <= |IntermediateTools| && mix.advanced <= |AdvancedTools|
    ensures mix.advanced == 1 <==> loan >= 15000.0
    ensures mix.intermediate == 0 <==> loan < 5000.0
  {
    if loan < 5000.0 then ToolMix(4, 0, 0)
    else if loan < 15000.0 then ToolMix(3, 2, 0)
    else ToolMix(2, 2, 1)
  }

  /** The recommended tools: the first tools of each tier, basics first. */
  function RecommendedTools(loan: real): (r: seq<string>)
    ensures |r| == (if loan < 5000.0 then 4 else 5)
    ensures forall i :: 0 <= i < |r| ==> r[i] in BasicTools || r[i] in IntermediateTools || r[i] in AdvancedTools
    ensures r[0] == BasicTools[0] && r[1] == BasicTools[1]
  {
    var mix := MixFor(loan);
    BasicTools[..mix.basics] + IntermediateTools[..mix.intermediate] + AdvancedTools[..mix.advanced]
  }

  /** The three tiers, tool by tool. */
  lemma ToolTiers(loan: real)
    ensures loan < 5000.0 ==> RecommendedTools(loan) == BasicTools[..4]
    ensures 5000.0 <= loan < 15000.0 ==> RecommendedTools(loan) == BasicTools[..3] + IntermediateTools[..2]
    ensures loan >= 15000.0 ==> RecommendedTools(loan) == BasicTools[..2] + IntermediateTools[..2] + [AdvancedTools[0]]
  {
    assert IntermediateTools[..0] == [] && AdvancedTools[..0] == [];
    assert AdvancedTools[..1] == [AdvancedTools[0]];
  }

  /** A larger loan never means fewer powered tools or more hand tools. */
  lemma ToolMixMonotone(l1: real, l2: real)
    requires l1 <= l2
    ensures MixFor(l1).intermediate + MixFor(l1).advanced <= MixFor(l2).intermediate + MixFor(l2).advanced
    ensures MixFor(l1).basics >= MixFor(l2).basics
  {
  }

  // ---------------------------------------------------------------------
  // The reply when the assistant service cannot be reached

  /** The topic a keyword reply is about. */
  datatype Topic = CropTopic | LoanTopic | FertilizerTopic | ToolTopic | GeneralTopic

  /** The offline reply's topic: the first keyword test that passes, in the
      order crop, loan or budget, fertilizer, tool or equipment. */
  function OfflineTopic(m: string): (t: Topic)
    ensures t == CropTopic <==> Mentions(m, "crop")
    ensures t == LoanTopic <==> !Mentions(m, "crop") && (Mentions(m, "loan") || Mentions(m, "budget"))
    ensures t == FertilizerTopic <==>
              !Mentions(m, "crop") && !Mentions(m, "loan") && !Mentions(m, "budget") && Mentions(m, "fertilizer")
    ensures t == ToolTopic <==>
              !Mentions(m, "crop") && !Mentions(m, "loan") && !Mentions(m, "budget") && !Mentions(m, "fertilizer")
              && (Mentions(m, "tool") || Mentions(m, "equipment"))
  {
    if Mentions(m, "crop") then CropTopic
    else if Mentions(m, "loan") || Mentions(m, "budget") then LoanTopic
    else if Mentions(m, "fertilizer") then FertilizerTopic
    else if Mentions(m, "tool") || Mentions(m, "equipment") then ToolTopic
    else GeneralTopic
  }

  /** The offline reply: its topic, the loan amount its text quotes, and for
      the tool topic the tools it lists. */
  datatype OfflineReply = OfflineReply(topic: Topic, quotedLoan: real, tools: seq<string>)

  /** One message sent while the service is unreachable, as written: the loan
      is updated from the message, but the reply is built in the same call,
      before the update is visible, and so quotes and tiers the previous loan. */
  function SendOfflineAsWritten(loan: real, m: string): (r: Option<(real, OfflineReply)>)
    ensures r.None? <==> Trim(m) == ""
    ensures r.Some? ==> r.value.0 == UpdateLoan(loan, m)
    ensures r.Some? ==> r.value.1.topic == OfflineTopic(m) && r.value.1.quotedLoan == loan
    ensures r.Some? && r.value.1.topic == ToolTopic ==> r.value.1.tools == RecommendedTools(loan)
  {
    if Trim(m) == "" then None
    else
      var t := OfflineTopic(m);
      Some((UpdateLoan(loan, m), OfflineReply(t, loan, if t == ToolTopic then RecommendedTools(loan) else [])))
  }

  /** The question the finding is shown on, after the stated amount. */
  const ToolQuestion := " dollars: tools?"

  /** A message that states a loan and asks about tools gets the previous
      loan's tiers: with a loan of 1000, "20000 dollars: tools?" lists four
      basic tools although the loan is now 20000, whose tier has five tools. */
  lemma StaleLoanInToolReply(d: string)
    requires |d| > 0 && AllDigits(d) && DigitsValue(d) >= 5000
    ensures var r := SendOfflineAsWritten(1000.0, d + ToolQuestion);
            r.Some? && r.value.0 == DigitsValue(d) as real && r.value.1.topic == ToolTopic
            && r.value.1.tools == BasicTools[..4] && |RecommendedTools(r.value.0)| == 5
  {
    DigitsNotBlank(d, ToolQuestion);
    DollarsFollows();
    AmountThenWord(d, ToolQuestion);
    ToolTopicOf(d);
    ToolTiers(1000.0);
  }

  /** Text that starts with a digit is not blank. */
  lemma DigitsNotBlank(d: string, rest: string)
    requires |d| > 0 && AllDigits(d)
    ensures Trim(d + rest) != ""
  {
    assert (d + rest)[0] == d[0];
    assert !IsJsSpace((d + rest)[0]);
  }

  lemma DollarsFollows()
    ensures LoanWordFollows(ToolQuestion)
  {
    var l := Lower(ToolQuestion);
    assert l == ToolQuestion;
    assert l[1..][..7] == "dollars";
  }

  lemma ToolTopicOf(d: string)
    requires AllDigits(d)
    ensures OfflineTopic(d + ToolQuestion) == ToolTopic
  {
    var m := d + ToolQuestion;
    var l := Lower(m);
    assert Lower(ToolQuestion) == ToolQuestion;
    assert l == m by {
      forall i | 0 <= i < |m| ensures l[i] == m[i] {
        if i >= |d| {
          assert m[i] == ToolQuestion[i - |d|] && Lower(ToolQuestion)[i - |d|] == LowerChar(ToolQuestion[i - |d|]);
        }
      }
    }
    assert m[|d| + 10..|d| + 14] == ToolQuestion[10..14] == "tool";
    assert OccursAt(l, "tool", |d| + 10);
    forall i ensures !OccursAt(l, "crop", i) && !OccursAt(l, "loan", i) && !OccursAt(l, "budget", i)
                     && !OccursAt(l, "fertilizer", i)
    {
      NotAWordOfMessage(l, d, i);
    }
  }

  lemma NotAWordOfMessage(l: string, d: string, i: int)
    requires AllDigits(d) && l == d + ToolQuestion
    ensures !OccursAt(l, "crop", i) && !OccursAt(l, "loan", i) && !OccursAt(l, "budget", i)
    ensures !OccursAt(l, "fertilizer", i)
  {
    if 0 <= i < |l| {
      if i >= |d| {
        assert l[i] == ToolQuestion[i - |d|];
      }
      if OccursAt(l, "crop", i) {
        CharInOccurrence(l, "crop", i, i);
      }
      if OccursAt(l, "budget", i) {
        CharInOccurrence(l, "budget", i, i);
      }
      if OccursAt(l, "fertilizer", i) {
        CharInOccurrence(l, "fertilizer", i, i);
      }
      if OccursAt(l, "loan", i) {
        CharInOccurrence(l, "loan", i, i);
        CharInOccurrence(l, "loan", i, i + 1);
      }
    }
  }

  /** The same message handled as evidently intended: the reply quotes and
      tiers the loan as updated by the message itself. */
  function SendOffline(loan: real, m: string): (r: Option<(real, OfflineReply)>)
    ensures r.None? <==> Trim(m) == ""
    ensures r.Some? ==> r.value.0 == UpdateLoan(loan, m)
    ensures r.Some? ==> r.value.1.topic == OfflineTopic(m) && r.value.1.quotedLoan == r.value.0
    ensures r.Some? && r.value.1.topic == ToolTopic ==> r.value.1.tools == RecommendedTools(r.value.0)
  {
    if Trim(m) == "" then None
    else
      var updated := UpdateLoan(loan, m);
      var t := OfflineTopic(m);
      Some((updated, OfflineReply(t, updated, if t == ToolTopic then RecommendedTools(updated) else [])))
  }

  /** A blank message changes nothing in either version: it is dropped before
      the loan is read out of it. */
  lemma BlankMessageIgnored(loan: real, m: string)
    requires AllSpace(m)
    ensures SendOffline(loan, m).None? && SendOfflineAsWritten(loan, m).None?
  {
  }
}

=== FILE: crops.dfy ===
/** The crop-suggestion endpoint (app/api/crops/route.js): its own variant of
    the lenient number reader, the check for required fields, the budget
    summary it returns without a model key, and the figures it puts in the
    model prompt. The model is an input: its text, or `None` when the call
    fails. */
module Crops {
  import opened Wrappers
  import opened JsNumber
  import opened JsValues
  import Gemini

  /** `safeParseFloat` of this endpoint: a number passes through unchanged
      (NaN included, so `None` here is NaN), any other falsy value is 0, and
      anything else is `parseFloat` of it with NaN read as 0. */
  function CropsParse(v: JsValue): (r: Option<real>)
    ensures r.None? <==> v.NaN?
    ensures v.Num? ==> r == Some(v.n)
    ensures !Truthy(v) && !v.NaN? ==> r == Some(0.0)
    ensures v.Str? && ParseFloat(v.text).None? ==> r == Some(0.0)
    ensures v.Str? && ParseFloat(v.text).Some? ==> r == ParseFloat(v.text)
  {
    if v.Num? then Some(v.n)
    else if v.NaN? then None
    else if !Truthy(v) then Some(0.0)
    else
      var parsed := ParseValue(v);
      // `parseFloat(value) || 0`: NaN and 0 both become 0
      if parsed.None? || parsed.value == 0.0 then Some(0.0) else parsed
  }

  /** The two endpoints' number readers agree on every value except NaN, which
      this one passes through and the assistant endpoint reads as 0. */
  lemma ParsersAgreeExceptNaN(v: JsValue)
    ensures !v.NaN? ==> CropsParse(v) == Some(Gemini.SafeParseFloat(v))
    ensures v.NaN? ==> CropsParse(v).None? && Gemini.SafeParseFloat(v) == 0.0
  {
  }

  /** A value read out of parsed JSON is never NaN, so it always reads as a number. */
  lemma JsonFieldParses(v: JsValue, k: string)
    requires IsJson(v)
    ensures CropsParse(Get(v, k)).Some?
  {
  }

  /** The sum of a sequence of amounts. */
  function Sum(xs: seq<real>): real
    decreases |xs|
  {
    if |xs| == 0 then 0.0 else xs[0] + Sum(xs[1..])
  }

  /** The allocation shares of the summary: seeds, fertilizers, equipment, labour, reserve. */
  const Shares: seq<real> := [0.2, 0.15, 0.3, 0.25, 0.1]

  /** The amount for each share of a budget. */
  function Allocation(budget: real): (a: seq<real>)
    ensures |a| == |Shares|
    ensures forall i :: 0 <= i < |a| ==> a[i] == budget * Shares[i]
  {
    seq(|Shares|, i requires 0 <= i < |Shares| => budget * Shares[i])
  }

  /** The shares cover the whole budget: they sum to 100 %, and the amounts to the budget. */
  lemma AllocationCoversBudget(budget: real)
    ensures Sum(Shares) == 1.0
    ensures Sum(Allocation(budget)) == budget
  {
    SumOfFive(Shares);
    SumOfFive(Allocation(budget));
  }

  lemma SumOfFive(xs: seq<real>)
    requires |xs| == 5
    ensures Sum(xs) == xs[0] + xs[1] + xs[2] + xs[3] + xs[4]
  {
    var t1 := xs[1..];
    var t2 := t1[1..];
    var t3 := t2[1..];
    var t4 := t3[1..];
    assert t4[1..] == [];
    assert Sum(t4) == xs[4];
    assert Sum(t3) == xs[3] + xs[4];
    assert Sum(t2) == xs[2] + xs[3] + xs[4];
    assert Sum(t1) == xs[1] + xs[2] + xs[3] + xs[4];
  }

  /** `debtToIncome`: the loan as a percentage of income; 0 without income. */
  function DebtToIncome(loan: real, income: real): (r: real)
    ensures income <= 0.0 ==> r == 0.0
    ensures income > 0.0 ==> r * income == loan * 100.0
  {
    if income > 0.0 then loan / income * 100.0 else 0.0
  }

  /** `farmingBudget`: the budget or 70 % of the balance, whichever is larger. */
  function InvestmentBudget(budget: real, balance: real): (r: real)
    ensures r >= budget && r * 10.0 >= balance * 7.0
    ensures r == budget || r * 10.0 == balance * 7.0
  {
    var share := balance * 0.7;
    if budget >= share then budget else share
  }

  /** The figures the model prompt quotes. */
  datatype PromptFigures = PromptFigures(
    accountBalance: real,
    budget: real,
    loanAmount: real,
    income: real,
    expenses: real,
    cashFlow: real,
    debtToIncome: real,
    farmingBudget: real)

  /** The endpoint's answer. */
  datatype CropsReply =
    | MissingFields                                                  // status 400
    | Summary(accountBalance: real, budget: real, loanAmount: real, allocation: seq<real>)
    | Suggestions(text: string, figures: PromptFigures)
    | StaticFallback                                                 // any failure

  /** Location, weather data and financial data are all truthy. */
  predicate HasRequiredFields(b: JsValue) {
    Truthy(Get(b, "location")) && Truthy(Get(b, "weatherData")) && Truthy(Get(b, "financialData"))
  }

  /** The endpoint. `body` is the parsed request body, `None` when it is not
      JSON; destructuring a null body throws, and every throw becomes the
      static fallback. */
  function HandleCrops(body: Option<JsValue>, hasKey: bool, modelText: Option<string>): (r: CropsReply)
    requires body.Some? ==> IsJson(body.value)
    ensures r == MissingFields <==> body.Some? && body.value != Null && !HasRequiredFields(body.value)
    ensures r.Summary? ==>
              !hasKey && body.Some? && Sum(r.allocation) == r.budget
              && r.allocation == Allocation(r.budget)
              && Some(r.budget) == CropsParse(Get(Get(body.value, "financialData"), "budget"))
              && Some(r.accountBalance) == CropsParse(Get(Get(body.value, "financialData"), "accountBalance"))
              && Some(r.loanAmount) == CropsParse(Get(Get(body.value, "financialData"), "loanAmount"))
    ensures r.Suggestions? ==>
              hasKey && modelText == Some(r.text) && body.Some?
              && Some(r.figures.accountBalance) == CropsParse(Get(Get(body.value, "financialData"), "accountBalance"))
              && Some(r.figures.budget) == CropsParse(Get(Get(body.value, "financialData"), "budget"))
              && Some(r.figures.loanAmount) == CropsParse(Get(Get(body.value, "financialData"), "loanAmount"))
              && Some(r.figures.income) == CropsParse(Get(Get(body.value, "financialData"), "income"))
              && Some(r.figures.expenses) == CropsParse(Get(Get(body.value, "financialData"), "expenses"))
              && r.figures.cashFlow == r.figures.income - r.figures.expenses
              && r.figures.debtToIncome == DebtToIncome(r.figures.loanAmount, r.figures.income)
              && r.figures.farmingBudget >= r.figures.budget
              && r.figures.farmingBudget == InvestmentBudget(r.figures.budget, r.figures.accountBalance)
    ensures body.Some? && body.value != Null && HasRequiredFields(body.value) ==>
              (!hasKey ==> r.Summary?) && (hasKey && modelText.Some? ==> r.Suggestions?)
    ensures r == StaticFallback <==> body.None? || body.value == Null || (HasRequiredFields(body.value) && hasKey && modelText.None?)
  {
    if body.None? || body.value == Null then StaticFallback
    else
      var b := body.value;
      if !HasRequiredFields(b) then MissingFields
      else
        var fd := Get(b, "financialData");
        JsonFieldParses(fd, "accountBalance");
        JsonFieldParses(fd, "budget");
        JsonFieldParses(fd, "loanAmount");
        var balance := CropsParse(Get(fd, "accountBalance")).value;
        var budget := CropsParse(Get(fd, "budget")).value;
        var loan := CropsParse(Get(fd, "loanAmount")).value;
        if !hasKey then
          AllocationCoversBudget(budget);
          Summary(balance, budget, loan, Allocation(budget))
        else if modelText.None? then StaticFallback
        else
          JsonFieldParses(fd, "income");
          JsonFieldParses(fd, "expenses");
          var income := CropsParse(Get(fd, "income")).value;
          var expenses := CropsParse(Get(fd, "expenses")).value;
          Suggestions(modelText.value,
                      PromptFigures(balance, budget, loan, income, expenses, income - expenses,
                                    DebtToIncome(loan, income), InvestmentBudget(budget, balance)))
  }
}

=== FILE: dashboard.dfy ===
/** Users and accounts (dashboard.js): finding or creating the signed-in user,
    creating an account under the one-default-account rule, and turning stored
    decimal fields into plain numbers. The authentication provider, the rate
    limiter and the database are inputs. */
module Dashboard {
  import opened Wrappers
  import opened Domain
  import opened JsText
  import opened JsNumber
  import opened JsValues

  /** What the authentication provider reports about a user. */
  datatype ProviderUser = ProviderUser(
    firstName: Option<string>,
    lastName: Option<string>,
    emailAddresses: seq<string>,
    imageUrl: string)

  /** `part || ''`: a missing (or empty) name part reads as empty. */
  function Part(p: Option<string>): (r: string)
    ensures p.Some? ==> r == p.value
    ensures p.None? ==> r == ""
  {
    if p.Some? then p.value else ""
  }

  /** `${firstName || ''} ${lastName || ''}`. */
  function FullName(first: Option<string>, last: Option<string>): string {
    Part(first) + " " + Part(last)
  }

  /** The name stored for a new user: first and last name joined by a space and
      trimmed, or "New User" when nothing but white space is left. */
  function DisplayName(first: Option<string>, last: Option<string>): (name: string)
    ensures Clean(name)
    ensures AllSpace(FullName(first, last)) ==> name == "New User"
    ensures !AllSpace(FullName(first, last)) ==> Framed(FullName(first, last), name)
  {
    NameFrom(FullName(first, last))
  }

  /** `full.trim() || "New User"`. */
  function NameFrom(full: string): (name: string)
    ensures Clean(name)
    ensures AllSpace(full) ==> name == "New User"
    ensures !AllSpace(full) ==> Framed(full, name)
  {
    var trimmed := Trim(full);
    if trimmed == "" then
      NewUserIsClean();
      "New User"
    else trimmed
  }

  lemma NewUserIsClean()
    ensures Clean("New User")
  {
  }

  /** A string that neither starts nor ends with white space. */
  predicate Clean(s: string) {
    |s| > 0 && !IsJsSpace(s[0]) && !IsJsSpace(s[|s| - 1])
  }

  lemma TrimClean(s: string)
    requires Clean(s)
    ensures Trim(s) == s
  {
    assert TrimStart(s) == s;
    assert TrimEnd(s) == s;
  }

  /** Clean first and last names give "first last". */
  lemma DisplayNameOfFullName(first: string, last: string)
    requires Clean(first) && Clean(last)
    ensures DisplayName(Some(first), Some(last)) == first + " " + last
  {
    var joined := first + " " + last;
    assert joined[0] == first[0] && joined[|joined| - 1] == last[|last| - 1];
    TrimClean(joined);
  }

  /** A clean first name and no last name give the first name alone (the joining space is trimmed). */
  lemma DisplayNameOfFirstNameOnly(first: string)
    requires Clean(first)
    ensures DisplayName(Some(first), None) == first
  {
    var joined := first + " " + "";
    assert joined[0] == first[0];
    assert TrimStart(joined) == joined;
    assert joined[..|joined| - 1] == first;
    assert TrimEnd(first) == first;
    assert TrimEnd(joined) == first;
  }

  /** `emailAddresses?.[0]?.emailAddress`, empty when there is none. */
  function PrimaryEmail(p: ProviderUser): (e: string)
    ensures |p.emailAddresses| == 0 ==> e == ""
    ensures |p.emailAddresses| > 0 ==> e == p.emailAddresses[0]
  {
    if |p.emailAddresses| > 0 then p.emailAddresses[0] else ""
  }

  lemma FindAppended(users: seq<User>, u: User)
    requires FindUserByClerkId(users, u.clerkUserId).None?
    ensures FindUserByClerkId(users + [u], u.clerkUserId) == Some(u)
  {
    var w := users + [u];
    assert w[|users|] == u;
    assert forall i :: 0 <= i < |users| ==> w[i] == users[i];
  }

  /** `getOrCreateUser`: the user with the provider id `clerkUserId`, created
      from the provider's record when the store has none. Returns the users
      afterwards and the user or the error. */
  function GetOrCreateUser(users: seq<User>, clerkUserId: string, provider: Option<ProviderUser>, newId: string)
    : (r: (seq<User>, Result<User>))
    ensures clerkUserId == "" ==> r == (users, Err("User ID is required"))
    ensures clerkUserId != "" && FindUserByClerkId(users, clerkUserId).Some? ==>
              r == (users, Ok(FindUserByClerkId(users, clerkUserId).value))
    ensures clerkUserId != "" && FindUserByClerkId(users, clerkUserId).None? && provider.None? ==>
              r == (users, Err("Failed to create user: Clerk user not found"))
    ensures clerkUserId != "" && FindUserByClerkId(users, clerkUserId).None? && provider.Some?
            && PrimaryEmail(provider.value) == "" ==>
              r == (users, Err("Failed to create user: User email not found"))
    ensures clerkUserId != "" && FindUserByClerkId(users, clerkUserId).None? && provider.Some?
            && PrimaryEmail(provider.value) != "" ==>
              r.1.Ok? && r.0 == users + [r.1.value]
    ensures r.1.Err? ==> r.0 == users
    ensures r.1.Ok? ==> FindUserByClerkId(r.0, clerkUserId) == Some(r.1.value)
    ensures r.1.Ok? && r.0 != users ==>
              FindUserByClerkId(users, clerkUserId).None? && provider.Some? && r.0 == users + [r.1.value]
              && r.1.value == User(newId, clerkUserId, PrimaryEmail(provider.value),
                                   DisplayName(provider.value.firstName, provider.value.lastName),
                                   provider.value.imageUrl)
              && r.1.value.email != ""
  {
    if clerkUserId == "" then (users, Err("User ID is required"))
    else
      var existing := FindUserByClerkId(users, clerkUserId);
      if existing.Some? then (users, Ok(existing.value))
      else if provider.None? then (users, Err("Failed to create user: Clerk user not found"))
      else
        var p := provider.value;
        var email := PrimaryEmail(p);
        if email == "" then (users, Err("Failed to create user: User email not found"))
        else
          var u := User(newId, clerkUserId, email, DisplayName(p.firstName, p.lastName), p.imageUrl);
          FindAppended(users, u);
          (users + [u], Ok(u))
  }

  /** Asking again, with whatever the provider now says, returns the same user and creates nobody. */
  lemma GetOrCreateIsIdempotent(users: seq<User>, clerkUserId: string, provider: Option<ProviderUser>, newId: string,
                                provider2: Option<ProviderUser>, newId2: string)
    requires GetOrCreateUser(users, clerkUserId, provider, newId).1.Ok?
    ensures var (users1, first) := GetOrCreateUser(users, clerkUserId, provider, newId);
            GetOrCreateUser(users1, clerkUserId, provider2, newId2) == (users1, first)
  {
  }

  /** The account-creation form. */
  datatype AccountInput = AccountInput(name: string, balance: string, isDefault: bool)

  /** The ids of the accounts of user `userId`. */
  function AccountsOf(accounts: map<string, Account>, userId: string): (ids: set<string>)
    ensures forall a :: a in ids <==> a in accounts && accounts[a].userId == userId
  {
    set a | a in accounts && accounts[a].userId == userId
  }

  /** No user has two default accounts. */
  predicate AtMostOneDefault(accounts: map<string, Account>) {
    forall a, b ::
      (a in accounts && b in accounts && accounts[a].isDefault && accounts[b].isDefault
       && accounts[a].userId == accounts[b].userId) ==> a == b
  }

  /** User `userId` has a default account. */
  predicate HasDefault(accounts: map<string, Account>, userId: string) {
    exists b :: b in accounts && accounts[b].isDefault && accounts[b].userId == userId
  }

  /** Every user who has an account has a default one. */
  predicate DefaultWhenAny(accounts: map<string, Account>) {
    forall a :: a in accounts ==> HasDefault(accounts, accounts[a].userId)
  }

  /** The `updateMany` that unsets the default flag of every account of `userId`. */
  function ClearDefaults(accounts: map<string, Account>, userId: string): (m: map<string, Account>)
    ensures m.Keys == accounts.Keys
    ensures forall a :: a in m && accounts[a].userId == userId ==> m[a] == accounts[a].(isDefault := false)
    ensures forall a :: a in m && accounts[a].userId != userId ==> m[a] == accounts[a]
  {
    map a | a in accounts :: if accounts[a].userId == userId then accounts[a].(isDefault := false) else accounts[a]
  }

  /** The account rows after opening account `id` for `userId`: the user's
      first account is default whatever was asked; a new default account takes
      the default flag from every other account of that user; a new account
      that is not default changes nothing else. */
  function OpenAccount(accounts: map<string, Account>, userId: string, name: string, balance: real,
                       wantDefault: bool, id: string): (r: (map<string, Account>, Account))
    requires id !in accounts
    ensures r.1 == Account(id, userId, name, balance, r.1.isDefault)
    ensures r.1.isDefault <==> AccountsOf(accounts, userId) == {} || wantDefault
    ensures r.0.Keys == accounts.Keys + {id} && r.0[id] == r.1
    ensures forall b :: b in accounts && accounts[b].userId != userId ==> r.0[b] == accounts[b]
    ensures forall b :: b in accounts && accounts[b].userId == userId ==>
              r.0[b] == accounts[b].(isDefault := accounts[b].isDefault && !r.1.isDefault)
  {
    var makeDefault := AccountsOf(accounts, userId) == {} || wantDefault;
    var rows := if makeDefault then ClearDefaults(accounts, userId) else accounts;
    var account := Account(id, userId, name, balance, makeDefault);
    (rows[id := account], account)
  }

  /** Opening an account never gives a user a second default account. */
  lemma OpenAccountKeepsOneDefault(accounts: map<string, Account>, userId: string, name: string, balance: real,
                                   wantDefault: bool, id: string)
    requires id !in accounts
    requires AtMostOneDefault(accounts)
    ensures AtMostOneDefault(OpenAccount(accounts, userId, name, balance, wantDefault, id).0)
  {
    var (m, a) := OpenAccount(accounts, userId, name, balance, wantDefault, id);
    forall x, y | x in m && y in m && m[x].isDefault && m[y].isDefault && m[x].userId == m[y].userId
      ensures x == y
    {
      if x != id && y != id {
        assert accounts[x].isDefault && accounts[y].isDefault;
      }
    }
  }

  /** Opening an account never leaves a user who has accounts without a default one. */
  lemma OpenAccountKeepsADefault(accounts: map<string, Account>, userId: string, name: string, balance: real,
                                 wantDefault: bool, id: string)
    requires id !in accounts
    requires DefaultWhenAny(accounts)
    ensures DefaultWhenAny(OpenAccount(accounts, userId, name, balance, wantDefault, id).0)
  {
    var (m, a) := OpenAccount(accounts, userId, name, balance, wantDefault, id);
    forall x | x in m
      ensures HasDefault(m, m[x].userId)
    {
      if m[x].userId == userId && a.isDefault {
        assert m[id].isDefault;
      } else if m[x].userId == userId {
        assert AccountsOf(accounts, userId) != {};
        var y :| y in AccountsOf(accounts, userId);
        assert HasDefault(accounts, accounts[y].userId);
        var b :| b in accounts && accounts[b].isDefault && accounts[b].userId == userId;
        assert b in m && m[b].isDefault && m[b].userId == userId;
      } else {
        assert x != id;
        var b :| b in accounts && accounts[b].isDefault && accounts[b].userId == accounts[x].userId;
        assert m[b] == accounts[b];
      }
    }
  }

  /** The part of `createAccount` after the request guards: resolve the user,
      parse the balance, open the account. */
  function CreateForUser(s: Store, clerkUserId: string, provider: Option<ProviderUser>, newUserId: string,
                         data: AccountInput, newAccountId: string): (r: (Store, Result<Account>))
    requires newAccountId !in s.accounts
    ensures r.0.transactions == s.transactions && r.0.budgets == s.budgets
    ensures r.1.Err? ==> r.0.accounts == s.accounts
    ensures r.1.Ok? <==>
              GetOrCreateUser(s.users, clerkUserId, provider, newUserId).1.Ok? && ParseFloat(data.balance).Some?
    ensures GetOrCreateUser(s.users, clerkUserId, provider, newUserId).1.Ok? && ParseFloat(data.balance).None? ==>
              r.1 == Err("Invalid balance amount")
    ensures r.1.Ok? ==>
              var user := GetOrCreateUser(s.users, clerkUserId, provider, newUserId).1.value;
              && FindUserByClerkId(r.0.users, clerkUserId) == Some(user)
              && (r.0.accounts, r.1.value)
                 == OpenAccount(s.accounts, user.id, data.name, ParseFloat(data.balance).value, data.isDefault, newAccountId)
  {
    var found := GetOrCreateUser(s.users, clerkUserId, provider, newUserId);
    var s1 := s.(users := found.0);
    if found.1.Err? then (s1, Err(found.1.error))
    else
      var balance := ParseFloat(data.balance);
      if balance.None? then (s1, Err("Invalid balance amount"))
      else
        var made := OpenAccount(s.accounts, found.1.value.id, data.name, balance.value, data.isDefault, newAccountId);
        (s1.(accounts := made.0), Ok(made.1))
  }

  /** `createAccount`: the session and rate-limit guards, then `CreateForUser`.
      A user created along the way stays created even when the balance is then
      rejected. */
  function CreateAccount(s: Store, session: Option<string>, decision: RateDecision, provider: Option<ProviderUser>,
                         newUserId: string, data: AccountInput, newAccountId: string): (r: (Store, Result<Account>))
    requires newAccountId !in s.accounts
    ensures !SignedIn(session) ==> r == (s, Err("Unauthorized"))
    ensures SignedIn(session) && decision == RateLimited ==> r == (s, Err("Too many requests. Please try again later."))
    ensures SignedIn(session) && decision == Blocked ==> r == (s, Err("Request blocked"))
    ensures r.0.transactions == s.transactions && r.0.budgets == s.budgets
    ensures r.1.Err? ==> r.0.accounts == s.accounts
    ensures r.1.Ok? <==>
              SignedIn(session) && decision == Allowed
              && GetOrCreateUser(s.users, session.value, provider, newUserId).1.Ok?
              && ParseFloat(data.balance).Some?
    ensures r.1.Ok? ==>
              var user := GetOrCreateUser(s.users, session.value, provider, newUserId).1.value;
              && FindUserByClerkId(r.0.users, session.value) == Some(user)
              && (r.0.accounts, r.1.value)
                 == OpenAccount(s.accounts, user.id, data.name, ParseFloat(data.balance).value, data.isDefault, newAccountId)
  {
    if !SignedIn(session) then (s, Err("Unauthorized"))
    else if decision == RateLimited then (s, Err("Too many requests. Please try again later."))
    else if decision == Blocked then (s, Err("Request blocked"))
    else
      var r := CreateForUser(s, session.value, provider, newUserId, data, newAccountId);
      assert decision == Allowed;
      r
  }

  /** Creating an account, successful or not, keeps "at most one default account per user". */
  lemma CreateAccountKeepsOneDefault(s: Store, session: Option<string>, decision: RateDecision,
                                     provider: Option<ProviderUser>, newUserId: string, data: AccountInput,
                                     newAccountId: string)
    requires newAccountId !in s.accounts
    requires AtMostOneDefault(s.accounts)
    ensures AtMostOneDefault(CreateAccount(s, session, decision, provider, newUserId, data, newAccountId).0.accounts)
  {
    var r := CreateAccount(s, session, decision, provider, newUserId, data, newAccountId);
    if r.1.Ok? {
      var user := GetOrCreateUser(s.users, session.value, provider, newUserId).1.value;
      OpenAccountKeepsOneDefault(s.accounts, user.id, data.name, ParseFloat(data.balance).value, data.isDefault, newAccountId);
    }
  }

  /** Creating an account, successful or not, keeps "every user with accounts has a default one". */
  lemma CreateAccountKeepsADefault(s: Store, session: Option<string>, decision: RateDecision,
                                   provider: Option<ProviderUser>, newUserId: string, data: AccountInput,
                                   newAccountId: string)
    requires newAccountId !in s.accounts
    requires DefaultWhenAny(s.accounts)
    ensures DefaultWhenAny(CreateAccount(s, session, decision, provider, newUserId, data, newAccountId).0.accounts)
  {
    var r := CreateAccount(s, session, decision, provider, newUserId, data, newAccountId);
    if r.1.Ok? {
      var user := GetOrCreateUser(s.users, session.value, provider, newUserId).1.value;
      OpenAccountKeepsADefault(s.accounts, user.id, data.name, ParseFloat(data.balance).value, data.isDefault, newAccountId);
    }
  }

  /** A stored row: field name to value, as the database client hands it
      over (money columns arrive as decimal objects). */
  type Row = map<string, JsValue>

  predicate IsMoneyKey(k: string) {
    k == "balance" || k == "amount"
  }

  /** The money fields are decimals or absent/falsy, as the database delivers them
      (a truthy field of another kind has no `toNumber`). */
  predicate MoneyFieldsAreDecimals(row: Row) {
    && ("balance" in row && Truthy(row["balance"]) ==> row["balance"].Decimal?)
    && ("amount" in row && Truthy(row["amount"]) ==> row["amount"].Decimal?)
  }

  /** The numeric value of a money field, if it has one. */
  function MoneyValue(f: JsValue): Option<real> {
    match f
    case Decimal(d) => Some(d)
    case Num(n) => Some(n)
    case _ => None
  }

  /** `serializeTransaction`: a copy of the row whose truthy money fields are plain numbers. */
  function SerializeRow(row: Row): (r: Row)
    requires MoneyFieldsAreDecimals(row)
    ensures r.Keys == row.Keys
    ensures forall k :: k in row && !IsMoneyKey(k) ==> r[k] == row[k]
    ensures forall k :: k in row && IsMoneyKey(k) ==> !r[k].Decimal? && MoneyValue(r[k]) == MoneyValue(row[k])
  {
    map k | k in row :: if IsMoneyKey(k) && Truthy(row[k]) then Num(row[k].d) else row[k]
  }
}

=== FILE: domain.dfy ===
/** The persisted records the finance actions read and write, and the store
    that holds them. Money is an exact `real` (the source keeps decimals in the
    database and converts them to JavaScript numbers). */
module Domain {
  import opened Wrappers
  import opened Calendar

  datatype TxType = Income | Expense

  datatype User = User(id: string, clerkUserId: string, email: string, name: string, imageUrl: string)

  datatype Account = Account(id: string, userId: string, name: string, balance: real, isDefault: bool)

  datatype Transaction = Transaction(
    id: string,
    userId: string,
    accountId: string,
    txType: TxType,
    amount: real,
    date: Date,
    category: string,
    description: string,
    isRecurring: bool,
    recurringInterval: string,
    nextRecurringDate: Option<Date>)

  /** One budget per user; `lastAlertSent` is the de-duplication stamp of the alert evaluator. */
  datatype Budget = Budget(id: string, userId: string, amount: real, lastAlertSent: Option<Date>)

  /** Users in creation order, accounts by id, transactions in creation order, budgets by owning user id. */
  datatype Store = Store(
    users: seq<User>,
    accounts: map<string, Account>,
    transactions: seq<Transaction>,
    budgets: map<string, Budget>)

  /** The rate limiter's verdict on a request. */
  datatype RateDecision = Allowed | RateLimited | Blocked

  /** The session's user id is present and non-empty (`if (!userId) throw`). */
  predicate SignedIn(session: Option<string>) {
    session.Some? && session.value != ""
  }

  /** The source's balance rule: an expense lowers the balance by its amount, anything else raises it. */
  function BalanceChange(t: TxType, amount: real): (r: real)
    ensures t == Expense ==> r + amount == 0.0
    ensures t != Expense ==> r == amount
  {
    if t == Expense then -amount else amount
  }

  /** The two unique user fields the source looks users up by. */
  datatype UserKey = ById | ByClerkId

  function KeyOf(u: User, k: UserKey): string {
    match k
    case ById => u.id
    case ByClerkId => u.clerkUserId
  }

  /** First user whose field `k` equals `key` (`findUnique({ where: { … } })`). */
  function FindUser(users: seq<User>, k: UserKey, key: string): (r: Option<User>)
    ensures r.Some? ==> r.value in users && KeyOf(r.value, k) == key
    ensures r.None? ==> forall i :: 0 <= i < |users| ==> KeyOf(users[i], k) != key
  {
    if |users| == 0 then None
    else if KeyOf(users[0], k) == key then Some(users[0])
    else FindUser(users[1..], k, key)
  }

  /** Lookup by the authentication provider's id. */
  function FindUserByClerkId(users: seq<User>, clerkUserId: string): Option<User> {
    FindUser(users, ByClerkId, clerkUserId)
  }

  /** Lookup by the internal id. */
  function FindUserById(users: seq<User>, id: string): Option<User> {
    FindUser(users, ById, id)
  }

  /** Every budget amount is positive: the alert evaluator divides by the
      amount, and the source never guards a zero. */
  predicate BudgetsUsable(s: Store) {
    forall u :: u in s.budgets ==> s.budgets[u].amount > 0.0
  }
}

=== FILE: gemini.dfy ===
/** The farm-assistant endpoint (app/api/gemini/route.js): the figures it
    derives from the request and the stored records, and the reply it gives
    when the language model cannot be reached. The language model is an
    input: its text when a call succeeds, `None` when both calls fail. */
module Gemini {
  import opened Wrappers
  import opened JsText
  import opened JsNumber
  import opened JsValues
  import opened Domain
  import opened Chatbot

  /** The loan assumed when neither a loan nor a budget is known. */
  const DefaultLoan: real := 50000.0

  /** `safeParseFloat(value)`: `parseFloat`, with NaN read as 0. */
  function SafeParseFloat(v: JsValue): (r: real)
    ensures v.Num? ==> r == v.n
    ensures v.Decimal? ==> r == v.d
    ensures v.Str? && StartsNumeral(TrimStart(v.text)) ==> Some(r) == ParseFloat(v.text)
    ensures v.Str? && !StartsNumeral(TrimStart(v.text)) ==> r == 0.0
    ensures !(v.Str? || v.Num? || v.Decimal?) ==> r == 0.0
  {
    ParseValue(v).GetOr(0.0)
  }

  /** The text of a natural number is read back as that number. */
  lemma SafeParseRendered(n: nat)
    ensures SafeParseFloat(Str(Render(n))) == n as real
  {
    ParseRendered(n);
  }

  /** The sum of the amounts of a user's transactions of one type. */
  function TypeTotal(txs: seq<Transaction>, userId: string, t: TxType): real
    decreases |txs|
  {
    if |txs| == 0 then 0.0
    else TypeTotal(txs[..|txs| - 1], userId, t)
         + (if txs[|txs| - 1].userId == userId && txs[|txs| - 1].txType == t then txs[|txs| - 1].amount else 0.0)
  }

  /** A recorded transaction adds its amount to its own user's total of its
      own type and leaves every other total as it was. */
  lemma TypeTotalAppend(txs: seq<Transaction>, x: Transaction, userId: string, t: TxType)
    ensures x.userId == userId && x.txType == t ==> TypeTotal(txs + [x], userId, t) == TypeTotal(txs, userId, t) + x.amount
    ensures !(x.userId == userId && x.txType == t) ==> TypeTotal(txs + [x], userId, t) == TypeTotal(txs, userId, t)
  {
    assert (txs + [x])[..|txs|] == txs;
  }

  /** Only the user's own transactions count. */
  lemma {:induction false} TypeTotalOfOthers(txs: seq<Transaction>, userId: string, t: TxType)
    requires forall i :: 0 <= i < |txs| ==> txs[i].userId != userId
    ensures TypeTotal(txs, userId, t) == 0.0
    decreases |txs|
  {
    if |txs| > 0 {
      TypeTotalOfOthers(txs[..|txs| - 1], userId, t);
    }
  }

  /** `loanAmount`: the stated loan if non-zero, else the budget if non-zero, else 50000. */
  function LoanAmount(stated: real, budget: real): (r: real)
    ensures r != 0.0
    ensures stated != 0.0 ==> r == stated
    ensures stated == 0.0 && budget != 0.0 ==> r == budget
    ensures stated == 0.0 && budget == 0.0 ==> r == DefaultLoan
  {
    if stated != 0.0 then stated else if budget != 0.0 then budget else DefaultLoan
  }

  /** `farmingBudget`: the smaller of the loan and a positive budget; the loan when there is none. */
  function FarmingBudget(loan: real, budget: real): (r: real)
    ensures r <= loan
    ensures budget > 0.0 ==> r <= budget && (r == loan || r == budget)
    ensures budget <= 0.0 ==> r == loan
  {
    var cap := if budget > 0.0 then budget else loan;
    if loan <= cap then loan else cap
  }

  /** `savingsRatio`: the share of income left after expenses, in per cent; 0 without income. */
  function SavingsRatio(income: real, expenses: real): (r: real)
    ensures income <= 0.0 ==> r == 0.0
    ensures income > 0.0 ==> r * income == (income - expenses) * 100.0
  {
    if income > 0.0 then (income - expenses) / income * 100.0 else 0.0
  }

  /** With income, the ratio is at most 100 when expenses are not negative, and
      not negative exactly when expenses do not exceed income. */
  lemma SavingsRatioBounds(income: real, expenses: real)
    requires income > 0.0
    ensures expenses >= 0.0 ==> SavingsRatio(income, expenses) <= 100.0
    ensures SavingsRatio(income, expenses) >= 0.0 <==> expenses <= income
  {
  }

  /** The figures the prompt and the fallback reply quote. */
  datatype Figures = Figures(
    income: real,
    expenses: real,
    budget: real,
    loanAmount: real,
    accountBalance: real,
    farmingBudget: real,
    savingsRatio: real)

  /** The figures, from the stored records of a found user and otherwise from
      the figures the client sent. The stated loan and the account balance
      always come from the client. */
  function ComputeFigures(s: Store, user: Option<User>, fd: JsValue): (f: Figures)
    ensures user.Some? ==> f.income == TypeTotal(s.transactions, user.value.id, Income)
                           && f.expenses == TypeTotal(s.transactions, user.value.id, Expense)
    ensures user.None? ==> f.income == SafeParseFloat(Get(fd, "income")) && f.expenses == SafeParseFloat(Get(fd, "expenses"))
    ensures user.Some? && user.value.id in s.budgets ==> f.budget == s.budgets[user.value.id].amount
    ensures !(user.Some? && user.value.id in s.budgets) ==> f.budget == SafeParseFloat(Get(fd, "budget"))
    ensures f.loanAmount == LoanAmount(SafeParseFloat(Get(fd, "loanAmount")), f.budget)
    ensures f.accountBalance == SafeParseFloat(Get(fd, "accountBalance"))
    ensures f.loanAmount != 0.0 && f.farmingBudget <= f.loanAmount
    ensures f.farmingBudget == FarmingBudget(f.loanAmount, f.budget)
    ensures f.savingsRatio == SavingsRatio(f.income, f.expenses)
  {
    var income := if user.Some? then TypeTotal(s.transactions, user.value.id, Income) else SafeParseFloat(Get(fd, "income"));
    var expenses := if user.Some? then TypeTotal(s.transactions, user.value.id, Expense) else SafeParseFloat(Get(fd, "expenses"));
    var budget := if user.Some? && user.value.id in s.budgets then s.budgets[user.value.id].amount
                  else SafeParseFloat(Get(fd, "budget"));
    var loan := LoanAmount(SafeParseFloat(Get(fd, "loanAmount")), budget);
    Figures(income, expenses, budget, loan, SafeParseFloat(Get(fd, "accountBalance")),
            FarmingBudget(loan, budget), SavingsRatio(income, expenses))
  }

  /** `budgetLevel`, which picks the tool list of the fallback reply. */
  function BudgetLevel(loan: real): (level: string)
    ensures level == "low" <==> loan < 5000.0
    ensures level == "high" <==> loan >= 15000.0
    ensures level in {"low", "medium", "high"}
  {
    if loan < 5000.0 then "low" else if loan < 15000.0 then "medium" else "high"
  }

  /** The endpoint's budget levels and the assistant page's tool tiers use the
      same thresholds: a low level is the tier without intermediate tools, a
      high level the tier with an advanced tool. */
  lemma BudgetLevelMatchesToolTiers(loan: real)
    ensures BudgetLevel(loan) == "low" <==> MixFor(loan).intermediate == 0
    ensures BudgetLevel(loan) == "high" <==> MixFor(loan).advanced == 1
    ensures BudgetLevel(loan) == "medium" <==> MixFor(loan) == ToolMix(3, 2, 0)
  {
  }

  /** The fallback reply's topic: the first keyword test that passes, in the
      order crop, fertilizer, loan or budget, tool or equipment. */
  function FallbackTopic(p: string): (t: Topic)
    ensures t == CropTopic <==> Mentions(p, "crop")
    ensures t == FertilizerTopic <==> !Mentions(p, "crop") && Mentions(p, "fertilizer")
    ensures t == LoanTopic <==>
              !Mentions(p, "crop") && !Mentions(p, "fertilizer") && (Mentions(p, "loan") || Mentions(p, "budget"))
    ensures t == ToolTopic <==>
              !Mentions(p, "crop") && !Mentions(p, "fertilizer") && !Mentions(p, "loan") && !Mentions(p, "budget")
              && (Mentions(p, "tool") || Mentions(p, "equipment"))
  {
    if Mentions(p, "crop") then CropTopic
    else if Mentions(p, "fertilizer") then FertilizerTopic
    else if Mentions(p, "loan") || Mentions(p, "budget") then LoanTopic
    else if Mentions(p, "tool") || Mentions(p, "equipment") then ToolTopic
    else GeneralTopic
  }

  /** The assistant page's offline reply and this endpoint's fallback reply
      test their keywords in different orders, and differ exactly on a
      message that mentions fertilizer and a loan or budget but no crop. */
  lemma TopicsDisagreeOnlyOnFertilizerLoans(m: string)
    ensures OfflineTopic(m) != FallbackTopic(m) <==>
              !Mentions(m, "crop") && Mentions(m, "fertilizer") && (Mentions(m, "loan") || Mentions(m, "budget"))
    ensures OfflineTopic(m) != FallbackTopic(m) ==> OfflineTopic(m) == LoanTopic && FallbackTopic(m) == FertilizerTopic
  {
  }

  /** The endpoint's answer. */
  datatype GeminiReply =
    | DevelopmentMode                          // no model key configured
    | UserNotFound                             // status 404
    | TechnicalDifficulties                    // any other failure
    | ModelReply(text: string)                 // the model's text
    | FallbackReply(topic: Topic, figures: Figures, level: Option<string>)

  /** The user id to look up: a truthy id other than "default-user". */
  predicate LooksUp(clerkUserId: JsValue) {
    Truthy(clerkUserId) && clerkUserId != Str("default-user")
  }

  /** The client figures as the endpoint reads them: a missing `financialData` stands for an empty object. */
  function ClientFigures(b: JsValue): (fd: JsValue)
    ensures Get(b, "financialData") != Undefined ==> fd == Get(b, "financialData")
    ensures Get(b, "financialData") == Undefined ==> fd == Obj(map[])
  {
    var rawFd := Get(b, "financialData");
    if rawFd == Undefined then Obj(map[]) else rawFd
  }

  /** The stored user whose records the figures use: none unless the id is
      looked up and found. */
  function LookedUpUser(s: Store, b: JsValue): (u: Option<User>)
    ensures u.Some? ==> LooksUp(Get(b, "clerkUserId")) && Get(b, "clerkUserId").Str?
                        && u == FindUserByClerkId(s.users, Get(b, "clerkUserId").text)
    ensures LooksUp(Get(b, "clerkUserId")) && Get(b, "clerkUserId").Str? ==>
              u == FindUserByClerkId(s.users, Get(b, "clerkUserId").text)
  {
    var cid := Get(b, "clerkUserId");
    if LooksUp(cid) && cid.Str? then FindUserByClerkId(s.users, cid.text) else None
  }

  /** The request passes every check before the model is asked: a non-null
      body, a looked-up id that is a string of a stored user, and non-null
      client figures. */
  predicate ReachesModel(s: Store, b: JsValue) {
    && b != Null
    && (LooksUp(Get(b, "clerkUserId")) ==> Get(b, "clerkUserId").Str? && LookedUpUser(s, b).Some?)
    && ClientFigures(b) != Null
  }

  /** The endpoint. `body` is the parsed request body, `None` when it is not
      JSON. Destructuring a null body, reading the client figures of a null
      `financialData`, looking up a non-string id and lower-casing a
      non-string prompt all throw, and a throw becomes the technical-difficulties
      reply. A missing `financialData` stands for an empty object. */
  function HandleGemini(hasKey: bool, body: Option<JsValue>, s: Store, modelText: Option<string>): (r: GeminiReply)
    ensures !hasKey ==> r == DevelopmentMode
    ensures r == UserNotFound <==>
              hasKey && body.Some? && body.value != Null && LooksUp(Get(body.value, "clerkUserId"))
              && Get(body.value, "clerkUserId").Str?
              && FindUserByClerkId(s.users, Get(body.value, "clerkUserId").text).None?
    ensures r.ModelReply? ==> modelText == Some(r.text)
    ensures r.FallbackReply? ==>
              modelText.None? && body.Some? && Get(body.value, "prompt").Str?
              && r.topic == FallbackTopic(Get(body.value, "prompt").text)
              && r.figures.loanAmount != 0.0 && r.figures.farmingBudget <= r.figures.loanAmount
              && (r.level.Some? <==> r.topic == ToolTopic)
              && (r.level.Some? ==> r.level.value == BudgetLevel(r.figures.loanAmount))
    ensures hasKey && body.Some? && modelText.Some? && r.TechnicalDifficulties? ==>
              body.value == Null || Get(body.value, "financialData") == Null
              || (LooksUp(Get(body.value, "clerkUserId")) && !Get(body.value, "clerkUserId").Str?)
    ensures r.ModelReply? || r.FallbackReply? <==> hasKey && body.Some? && ReachesModel(s, body.value)
                                                   && (modelText.Some? || Get(body.value, "prompt").Str?)
    ensures hasKey && body.Some? && ReachesModel(s, body.value) && modelText.Some? ==> r == ModelReply(modelText.value)
    ensures hasKey && body.Some? && ReachesModel(s, body.value) && modelText.None? && Get(body.value, "prompt").Str? ==>
              r.FallbackReply?
    ensures r.FallbackReply? ==>
              r.figures == ComputeFigures(s, LookedUpUser(s, body.value), ClientFigures(body.value))
  {
    if !hasKey then DevelopmentMode
    else if body.None? || body.value == Null then TechnicalDifficulties
    else
      var b := body.value;
      var cid := Get(b, "clerkUserId");
      var fd := ClientFigures(b);
      if LooksUp(cid) && !cid.Str? then TechnicalDifficulties
      else
        var user := LookedUpUser(s, b);
        if LooksUp(cid) && user.None? then UserNotFound
        else if fd == Null then TechnicalDifficulties
        else
          var f := ComputeFigures(s, user, fd);
          if modelText.Some? then ModelReply(modelText.value)
          else
            var prompt := Get(b, "prompt");
            if !prompt.Str? then TechnicalDifficulties
            else
              var topic := FallbackTopic(prompt.text);
              FallbackReply(topic, f, if topic == ToolTopic then Some(BudgetLevel(f.loanAmount)) else None)
  }

  /** A signed-in user's stored records decide income, expenses and a stored
      budget, whatever figures the client sent. */
  lemma StoredRecordsWin(s: Store, b1: JsValue, b2: JsValue)
    requires b1 != Null && b2 != Null
    requires Get(b1, "clerkUserId") == Get(b2, "clerkUserId") && LooksUp(Get(b1, "clerkUserId"))
    requires Get(b1, "clerkUserId").Str? && FindUserByClerkId(s.users, Get(b1, "clerkUserId").text).Some?
    requires Get(b1, "prompt").Str? && Get(b2, "prompt").Str?
    requires Get(b1, "financialData") != Null && Get(b2, "financialData") != Null
    ensures var r1 := HandleGemini(true, Some(b1), s, None);
            var r2 := HandleGemini(true, Some(b2), s, None);
            var u := FindUserByClerkId(s.users, Get(b1, "clerkUserId").text).value;
            r1.FallbackReply? && r2.FallbackReply?
            && r1.figures.income == r2.figures.income == TypeTotal(s.transactions, u.id, Income)
            && r1.figures.expenses == r2.figures.expenses == TypeTotal(s.transactions, u.id, Expense)
            && (u.id in s.budgets ==> r1.figures.budget == r2.figures.budget == s.budgets[u.id].amount)
  {
    var u := FindUserByClerkId(s.users, Get(b1, "clerkUserId").text).value;
    assert LookedUpUser(s, b1) == Some(u) == LookedUpUser(s, b2);
    assert ReachesModel(s, b1) && ReachesModel(s, b2);
  }

  /** The placeholder id "default-user" is not looked up: the client's figures are used. */
  lemma DefaultUserUsesClientFigures(s: Store, b: JsValue)
    requires b != Null && Get(b, "clerkUserId") == Str("default-user")
    requires Get(b, "prompt").Str? && Get(b, "financialData").Obj?
    ensures var r := HandleGemini(true, Some(b), s, None);
            var fd := Get(b, "financialData");
            r.FallbackReply? && r.figures.income == SafeParseFloat(Get(fd, "income"))
            && r.figures.expenses == SafeParseFloat(Get(fd, "expenses"))
            && r.figures.budget == SafeParseFloat(Get(fd, "budget"))
  {
  }
}

=== FILE: jsnum.dfy ===
/** JavaScript's `parseFloat`, as the modelled code uses it on form input and
    request fields: leading white space is skipped, then the longest prefix of
    the form [sign] digits [. digits] [exponent] is read; with no digit before
    the exponent the result is NaN. Values are exact reals, so there is no
    rounding and no overflow to Infinity; NaN is `None`. */
module JsNumber {
  import opened Wrappers
  import opened JsText
  import opened JsValues

  predicate IsDigit(c: char) {
    '0' <= c <= '9'
  }

  predicate AllDigits(s: string) {
    forall i :: 0 <= i < |s| ==> IsDigit(s[i])
  }

  /** Length of the run of decimal digits that starts `s`. */
  function DigitRun(s: string): (n: nat)
    ensures n <= |s| && AllDigits(s[..n])
    ensures n < |s| ==> !IsDigit(s[n])
  {
    if |s| > 0 && IsDigit(s[0]) then
      var n := 1 + DigitRun(s[1..]);
      assert forall i :: 1 <= i < n ==> s[..n][i] == s[1..][..n - 1][i - 1];
      n
    else 0
  }

  /** The natural number a digit string denotes. */
  function DigitsValue(d: string): nat
    requires AllDigits(d)
  {
    if |d| == 0 then 0 else 10 * DigitsValue(d[..|d| - 1]) + (d[|d| - 1] as int - '0' as int)
  }

  function Pow10(n: nat): (p: nat)
    ensures p >= 1
  {
    if n == 0 then 1 else 10 * Pow10(n - 1)
  }

  /** Ten to the power `e`, for any integer `e`. */
  function Scale(e: int): (r: real)
    ensures r > 0.0
    ensures e == 0 ==> r == 1.0
  {
    if e >= 0 then Pow10(e) as real else 1.0 / (Pow10(-e) as real)
  }

  /** The parts of a decimal literal: sign, integer digits, fraction digits, exponent. */
  datatype Numeral = Numeral(negative: bool, intDigits: string, fracDigits: string, exponent: int)

  predicate WellFormed(n: Numeral) {
    AllDigits(n.intDigits) && AllDigits(n.fracDigits) && |n.intDigits| + |n.fracDigits| > 0
  }

  function NumeralValue(n: Numeral): (r: real)
    requires WellFormed(n)
    ensures !n.negative ==> r >= 0.0
  {
    var mantissa := DigitsValue(n.intDigits) as real
                    + DigitsValue(n.fracDigits) as real / Pow10(|n.fracDigits|) as real;
    var magnitude := mantissa * Scale(n.exponent);
    assert mantissa >= 0.0;
    if n.negative then -magnitude else magnitude
  }

  /** `t` without one leading sign character. */
  function Unsigned(t: string): string {
    if |t| > 0 && (t[0] == '+' || t[0] == '-') then t[1..] else t
  }

  /** `t` begins with a decimal literal: after an optional sign, a digit, or a dot and a digit. */
  predicate StartsNumeral(t: string) {
    var b := Unsigned(t);
    |b| > 0 && (IsDigit(b[0]) || (|b| > 1 && b[0] == '.' && IsDigit(b[1])))
  }

  /** The exponent part starting `s`, if complete: (its value, its length); (0, 0) otherwise. */
  function ScanExponent(s: string): (r: (int, nat))
    ensures r.1 <= |s|
    ensures r.1 == 0 ==> r.0 == 0
  {
    if |s| > 0 && (s[0] == 'e' || s[0] == 'E') then
      var j := if |s| > 1 && (s[1] == '+' || s[1] == '-') then 2 else 1;
      var n := DigitRun(s[j..]);
      if n == 0 then (0, 0)
      else
        var v := DigitsValue(s[j..][..n]) as int;
        (if j == 2 && s[1] == '-' then -v else v, j + n)
    else (0, 0)
  }

  /** The longest decimal literal that starts `t`, in parts. */
  function ScanDecimal(t: string): (r: Option<Numeral>)
    ensures r.Some? <==> StartsNumeral(t)
    ensures r.Some? ==> WellFormed(r.value)
    ensures r.Some? ==> (r.value.negative <==> |t| > 0 && t[0] == '-')
  {
    var b := Unsigned(t);
    var n1 := DigitRun(b);
    var hasDot := n1 < |b| && b[n1] == '.';
    var n2 := if hasDot then DigitRun(b[n1 + 1..]) else 0;
    if n1 + n2 == 0 then None
    else
      var m := if hasDot then n1 + 1 + n2 else n1;
      var frac := if hasDot then b[n1 + 1..][..n2] else "";
      Some(Numeral(|t| > 0 && t[0] == '-', b[..n1], frac, ScanExponent(b[m..]).0))
  }

  /** `parseFloat(s)`; `None` stands for NaN. */
  function ParseFloat(s: string): (r: Option<real>)
    ensures r.Some? <==> StartsNumeral(TrimStart(s))
    ensures r.Some? && TrimStart(s)[0] != '-' ==> r.value >= 0.0
  {
    var lit := ScanDecimal(TrimStart(s));
    if lit.Some? then Some(NumeralValue(lit.value)) else None
  }

  /** The digits of `n` in base ten, without leading zeros (`String(n)`). */
  function Render(n: nat): (s: string)
    ensures |s| > 0 && AllDigits(s) && DigitsValue(s) == n
  {
    var last := ['0' + (n % 10) as char];
    if n < 10 then last
    else
      var s := Render(n / 10) + last;
      assert s[..|s| - 1] == Render(n / 10);
      s
  }

  /** A digit string followed by something that cannot continue a literal reads as its own value. */
  lemma DigitsThenStop(d: string, rest: string)
    requires |d| > 0 && AllDigits(d)
    requires |rest| == 0 || !(IsDigit(rest[0]) || rest[0] in ".eE")
    ensures ParseFloat(d + rest) == Some(DigitsValue(d) as real)
  {
    var t := d + rest;
    assert t[0] == d[0];
    assert !IsJsSpace(t[0]);
    assert TrimStart(t) == t;
    ScanDigits(d, rest);
    WholeValue(d);
  }

  /** A literal without fraction or exponent denotes its integer digits. */
  lemma WholeValue(d: string)
    requires |d| > 0 && AllDigits(d)
    ensures NumeralValue(Numeral(false, d, "", 0)) == DigitsValue(d) as real
  {
    assert DigitsValue("") == 0;
    assert Pow10(0) == 1;
  }

  lemma ScanDigits(d: string, rest: string)
    requires |d| > 0 && AllDigits(d)
    requires |rest| == 0 || !(IsDigit(rest[0]) || rest[0] in ".eE")
    ensures ScanDecimal(d + rest) == Some(Numeral(false, d, "", 0))
  {
    var t := d + rest;
    assert t[0] == d[0];
    assert Unsigned(t) == t;
    DigitRunOfDigits(d, rest);
    assert t[..|d|] == d;
    assert t[|d|..] == rest;
    assert ScanExponent(rest) == (0, 0);
  }

  lemma {:induction false} DigitRunOfDigits(d: string, rest: string)
    requires AllDigits(d)
    requires |rest| == 0 || !IsDigit(rest[0])
    ensures DigitRun(d + rest) == |d|
    decreases |d|
  {
    if |d| > 0 {
      assert (d + rest)[1..] == d[1..] + rest;
      DigitRunOfDigits(d[1..], rest);
    } else {
      assert d + rest == rest;
    }
  }

  /** No exponent starts with a character other than `e` or `E`. */
  lemma NoExponent(rest: string)
    requires |rest| == 0 || !(rest[0] in "eE")
    ensures ScanExponent(rest) == (0, 0)
  {
  }

  /** Text that starts with a non-space reads as the literal it starts with. */
  lemma ParseOfScan(t: string, n: Numeral)
    requires ScanDecimal(t) == Some(n)
    ensures ParseFloat(t) == Some(NumeralValue(n))
  {
    assert StartsNumeral(t);
    assert IsDigit(t[0]) || t[0] in "+-.";
    assert !IsJsSpace(t[0]);
    assert TrimStart(t) == t;
  }

  /** A decimal fraction `d.f` reads as the numeral with integer digits `d`
      and fraction digits `f`. */
  lemma FractionValue(d: string, f: string, rest: string)
    requires |d| > 0 && AllDigits(d) && AllDigits(f)
    requires |rest| == 0 || !(IsDigit(rest[0]) || rest[0] in "eE")
    ensures ParseFloat(d + "." + f + rest) == Some(NumeralValue(Numeral(false, d, f, 0)))
  {
    ScanFraction(d, f, rest);
    ParseOfScan(d + "." + f + rest, Numeral(false, d, f, 0));
  }

  /** That numeral's value: the integer digits plus the fraction digits over
      the matching power of ten. */
  lemma {:induction false} FractionNumeral(d: string, f: string)
    requires AllDigits(d) && AllDigits(f) && |d| + |f| > 0
    ensures NumeralValue(Numeral(false, d, f, 0))
         == DigitsValue(d) as real + DigitsValue(f) as real / Pow10(|f|) as real
  {
  }

  lemma ScanFraction(d: string, f: string, rest: string)
    requires |d| > 0 && AllDigits(d) && AllDigits(f)
    requires |rest| == 0 || !(IsDigit(rest[0]) || rest[0] in "eE")
    ensures ScanDecimal(d + "." + f + rest) == Some(Numeral(false, d, f, 0))
  {
    var t := d + "." + f + rest;
    assert t[0] == d[0];
    assert Unsigned(t) == t;
    assert t == d + ("." + f + rest);
    DigitRunOfDigits(d, "." + f + rest);
    assert t[|d|] == '.';
    var after := t[|d| + 1..];
    assert after == f + rest;
    DigitRunOfDigits(f, rest);
    assert after[..|f|] == f;
    assert t[..|d|] == d;
    assert t[|d| + 1 + |f|..] == rest;
    NoExponent(rest);
  }

  /** Digits followed by an exponent part `x` read as the numeral with those
      integer digits and the exponent `x` denotes (see ExponentDigits). */
  lemma ExponentValue(d: string, x: string)
    requires |d| > 0 && AllDigits(d) && |x| > 0 && x[0] in "eE"
    ensures ParseFloat(d + x) == Some(NumeralValue(Numeral(false, d, "", ScanExponent(x).0)))
  {
    ScanThenExponent(d, x);
    ParseOfScan(d + x, Numeral(false, d, "", ScanExponent(x).0));
  }

  /** That numeral's value: the integer digits times ten to the power of the exponent. */
  lemma {:induction false} ExponentNumeral(d: string, e: nat)
    requires |d| > 0 && AllDigits(d)
    ensures NumeralValue(Numeral(false, d, "", e)) == DigitsValue(d) as real * Pow10(e) as real
  {
    WholeNumeralValue(Numeral(false, d, "", e));
    NaturalScale(DigitsValue(d) as real, e);
  }

  /** A numeral without fraction digits is its integer digits scaled by its exponent. */
  lemma WholeNumeralValue(n: Numeral)
    requires WellFormed(n) && !n.negative && n.fracDigits == ""
    ensures NumeralValue(n) == DigitsValue(n.intDigits) as real * Scale(n.exponent)
  {
    assert DigitsValue(n.fracDigits) == 0;
  }

  /** For a non-negative exponent, scaling is multiplying by a power of ten. */
  lemma {:induction false} NaturalScale(x: real, e: nat)
    ensures x * Scale(e) == x * Pow10(e) as real
  {
  }

  /** Digits followed by an exponent marker: the literal ends with whatever exponent follows. */
  lemma ScanThenExponent(d: string, x: string)
    requires |d| > 0 && AllDigits(d) && |x| > 0 && x[0] in "eE"
    ensures ScanDecimal(d + x) == Some(Numeral(false, d, "", ScanExponent(x).0))
  {
    var t := d + x;
    assert t[0] == d[0];
    assert Unsigned(t) == t;
    DigitRunOfDigits(d, x);
    assert t[..|d|] == d;
    assert t[|d|..] == x;
  }

  /** `e` and a digit run `k` denote the exponent `k`, and span `1 + |k|` characters. */
  lemma {:induction false} ExponentDigits(marker: char, k: string, rest: string)
    requires marker in "eE"
    requires |k| > 0 && AllDigits(k)
    requires |rest| == 0 || !IsDigit(rest[0])
    ensures ScanExponent([marker] + k + rest) == (DigitsValue(k) as int, 1 + |k|)
  {
    var e := [marker] + k + rest;
    var u := k + rest;
    assert e == [marker] + u;
    assert e[1..] == u;
    assert u[0] == k[0];
    DigitRunOfDigits(k, rest);
    assert u[..|k|] == k;
  }

  /** A worked value: "1.5" reads as 1.5. */
  lemma OneAndAHalf()
    ensures ParseFloat("1.5") == Some(1.5)
  {
    assert "1" + "." + "5" + "" == "1.5";
    FractionValue("1", "5", "");
    OneAndAHalfNumeral();
  }

  lemma OneAndAHalfNumeral()
    ensures NumeralValue(Numeral(false, "1", "5", 0)) == 1.5
  {
    FractionNumeral("1", "5");
    assert DigitsValue("1") == 1 && DigitsValue("5") == 5 && Pow10(1) == 10;
  }

  /** An exponent marker, a minus sign and digits read as the negated digits. */
  lemma {:induction false} NegativeExponentDigits(marker: char, k: string, rest: string)
    requires marker in "eE"
    requires |k| > 0 && AllDigits(k)
    requires |rest| == 0 || !IsDigit(rest[0])
    ensures ScanExponent([marker] + "-" + k + rest) == (-(DigitsValue(k) as int), 2 + |k|)
  {
    var e := [marker] + "-" + k + rest;
    var u := k + rest;
    assert e == [marker, '-'] + u;
    assert e[2..] == u;
    assert u[0] == k[0];
    DigitRunOfDigits(k, rest);
    assert u[..|k|] == k;
  }

  /** An exponent marker, a plus sign and digits read as the digits. */
  lemma {:induction false} PlusExponentDigits(marker: char, k: string, rest: string)
    requires marker in "eE"
    requires |k| > 0 && AllDigits(k)
    requires |rest| == 0 || !IsDigit(rest[0])
    ensures ScanExponent([marker] + "+" + k + rest) == (DigitsValue(k) as int, 2 + |k|)
  {
    var e := [marker] + "+" + k + rest;
    var u := k + rest;
    assert e == [marker, '+'] + u;
    assert e[2..] == u;
    assert u[0] == k[0];
    DigitRunOfDigits(k, rest);
    assert u[..|k|] == k;
  }

  /** A negative exponent divides the integer digits by a power of ten. */
  lemma {:induction false} NegativeExponentNumeral(d: string, e: nat)
    requires |d| > 0 && AllDigits(d)
    ensures NumeralValue(Numeral(false, d, "", -(e as int))) == DigitsValue(d) as real / Pow10(e) as real
  {
    WholeNumeralValue(Numeral(false, d, "", -(e as int)));
    NegativeScale(DigitsValue(d) as real, e);
  }

  /** For a negative exponent, scaling is dividing by a power of ten. */
  lemma {:induction false} NegativeScale(x: real, e: nat)
    ensures x * Scale(-(e as int)) == x / Pow10(e) as real
  {
    if e > 0 {
      assert Scale(-(e as int)) == 1.0 / Pow10(e) as real;
    }
  }

  /** A worked instance: "25e-2" is a quarter. */
  lemma QuarterFromExponent()
    ensures ParseFloat("25e-2") == Some(0.25)
  {
    assert "25" + "e-2" == "25e-2";
    ExponentValue("25", "e-2");
    QuarterNumeral();
  }

  lemma QuarterNumeral()
    ensures ScanExponent("e-2").0 == -2
    ensures NumeralValue(Numeral(false, "25", "", -2)) == 0.25
  {
    assert ['e'] + "-" + "2" + "" == "e-2";
    NegativeExponentDigits('e', "2", "");
    NegativeExponentNumeral("25", 2);
    assert DigitsValue("25") == 25 && DigitsValue("2") == 2 && Pow10(2) == 100;
  }

  /** A worked value: "2e3" reads as 2000. */
  lemma TwoThousand()
    ensures ParseFloat("2e3") == Some(2000.0)
  {
    assert "2" + "e3" == "2e3";
    ExponentValue("2", "e3");
    TwoThousandNumeral();
  }

  lemma TwoThousandNumeral()
    ensures ScanExponent("e3").0 == 3
    ensures NumeralValue(Numeral(false, "2", "", 3)) == 2000.0
  {
    assert ['e'] + "3" + "" == "e3";
    ExponentDigits('e', "3", "");
    ExponentNumeral("2", 3);
    assert DigitsValue("2") == 2 && DigitsValue("3") == 3 && Pow10(3) == 1000;
  }

  /** A leading minus sign gives the negative numeral of the digits after it. */
  lemma NegatedValue(d: string, rest: string)
    requires |d| > 0 && AllDigits(d)
    requires |rest| == 0 || !(IsDigit(rest[0]) || rest[0] in ".eE")
    ensures ParseFloat("-" + d + rest) == Some(NumeralValue(Numeral(true, d, "", 0)))
  {
    ScanNegated(d, rest);
    ParseOfScan("-" + d + rest, Numeral(true, d, "", 0));
  }

  /** That numeral's value is minus the digits' value. */
  lemma NegatedNumeral(d: string)
    requires |d| > 0 && AllDigits(d)
    ensures NumeralValue(Numeral(true, d, "", 0)) == -(DigitsValue(d) as real)
  {
    WholeValue(d);
  }

  lemma ScanNegated(d: string, rest: string)
    requires |d| > 0 && AllDigits(d)
    requires |rest| == 0 || !(IsDigit(rest[0]) || rest[0] in ".eE")
    ensures ScanDecimal("-" + d + rest) == Some(Numeral(true, d, "", 0))
  {
    var t := "-" + d + rest;
    assert t[1..] == d + rest;
    ScanDigits(d, rest);
  }

  /** Round trip: the text of a natural number parses back to that number. */
  lemma ParseRendered(n: nat)
    ensures ParseFloat(Render(n)) == Some(n as real)
  {
    DigitsThenStop(Render(n), "");
    assert Render(n) + "" == Render(n);
  }

  /** The string a non-numeric, non-array value converts to (`String(v)`). */
  function WordOf(v: JsValue): string
    requires !(v.Str? || v.Num? || v.Decimal? || v.Arr?)
  {
    match v
    case Bool(b) => if b then "true" else "false"
    case Null => "null"
    case Undefined => "undefined"
    case NaN => "NaN"
    case Obj(_) => "[object Object]"
  }

  /** `parseFloat(v)` for any value, which converts `v` to a string first. A
      number's string reads back as the number and a decimal object's as its
      value; the words that `undefined`, `null`, booleans, NaN and plain
      objects turn into read as NaN. */
  function ParseValue(v: JsValue): (r: Option<real>)
    ensures v.Str? ==> r == ParseFloat(v.text)
    ensures v.Num? ==> r == Some(v.n)
    ensures v.Decimal? ==> r == Some(v.d)
    ensures !(v.Str? || v.Num? || v.Decimal?) ==> r.None?
  {
    match v
    case Str(s) => ParseFloat(s)
    case Num(n) => Some(n)
    case Decimal(d) => Some(d)
    case Arr(_) => None
    case _ =>
      var w := WordOf(v);
      assert w[0] in "tfnuN[";
      LetterFirstIsNaN(w);
      ParseFloat(w)
  }

  /** Text that starts with one of the first letters of those words reads as NaN. */
  lemma LetterFirstIsNaN(w: string)
    requires |w| > 0 && w[0] in "tfnuN["
    ensures ParseFloat(w).None?
  {
    assert !IsJsSpace(w[0]);
    assert TrimStart(w) == w;
  }
}

=== FILE: jstext.dfy ===
/** The JavaScript string operations the modelled code relies on: white space
    as `trim` and the regular-expression class `\s` define it, ASCII case
    folding, `includes`/`indexOf`, and `split` on a one-character separator. */
module JsText {

  /** ECMAScript WhiteSpace or LineTerminator: what `trim` removes and `\s` matches. */
  predicate IsJsSpace(c: char) {
    var n := c as int;
    n == 0x09 || n == 0x0A || n == 0x0B || n == 0x0C || n == 0x0D || n == 0x20
    || n == 0xA0 || n == 0x1680 || (0x2000 <= n <= 0x200A) || n == 0x2028 || n == 0x2029
    || n == 0x202F || n == 0x205F || n == 0x3000 || n == 0xFEFF
  }

  predicate AllSpace(s: string) {
    forall i :: 0 <= i < |s| ==> IsJsSpace(s[i])
  }

  /** `s` without its leading white space. */
  function TrimStart(s: string): (r: string)
    ensures |r| <= |s| && r == s[|s| - |r|..]
    ensures AllSpace(s[..|s| - |r|])
    ensures |r| > 0 ==> !IsJsSpace(r[0])
  {
    if |s| > 0 && IsJsSpace(s[0]) then
      var r := TrimStart(s[1..]);
      assert s[1..][..|s| - 1 - |r|] == s[1..|s| - |r|];
      r
    else s
  }

  /** `s` without its trailing white space. */
  function TrimEnd(s: string): (r: string)
    ensures |r| <= |s| && r == s[..|r|]
    ensures AllSpace(s[|r|..])
    ensures |r| > 0 ==> !IsJsSpace(r[|r| - 1])
  {
    if |s| > 0 && IsJsSpace(s[|s| - 1]) then
      var r := TrimEnd(s[..|s| - 1]);
      assert s[|r|..] == s[..|s| - 1][|r|..] + [s[|s| - 1]];
      r
    else s
  }

  /** `r` is a piece of `s` with only white space before and after it. */
  ghost predicate Framed(s: string, r: string) {
    exists i :: 0 <= i <= |s| - |r| && r == s[i..i + |r|] && AllSpace(s[..i]) && AllSpace(s[i + |r|..])
  }

  /** `String.prototype.trim`: the middle of `s` between leading and trailing
      white space; empty exactly when `s` is all white space. */
  function Trim(s: string): (r: string)
    ensures Framed(s, r)
    ensures |r| > 0 ==> !IsJsSpace(r[0]) && !IsJsSpace(r[|r| - 1])
    ensures r == [] <==> AllSpace(s)
  {
    var a := TrimStart(s);
    var r := TrimEnd(a);
    TrimParts(s, a, r);
    r
  }

  /** The facts `Trim` states, from those of `TrimStart` and `TrimEnd`. */
  lemma TrimParts(s: string, a: string, r: string)
    requires |a| <= |s| && a == s[|s| - |a|..] && AllSpace(s[..|s| - |a|])
    requires |r| <= |a| && r == a[..|r|] && AllSpace(a[|r|..])
    requires |a| > 0 ==> !IsJsSpace(a[0])
    requires |r| > 0 ==> !IsJsSpace(r[|r| - 1])
    ensures Framed(s, r)
    ensures |r| > 0 ==> !IsJsSpace(r[0]) && !IsJsSpace(r[|r| - 1])
    ensures r == [] <==> AllSpace(s)
  {
    var i := |s| - |a|;
    assert r == s[i..i + |r|];
    assert s[i + |r|..] == a[|r|..];
    assert 0 <= i <= |s| - |r| && r == s[i..i + |r|] && AllSpace(s[..i]) && AllSpace(s[i + |r|..]);
    if |r| > 0 {
      assert r[0] == a[0] == s[i];
    } else {
      assert s == s[..i] + a[|r|..];
    }
  }

  /** ASCII upper-case letters folded to lower case; other characters kept. */
  function LowerChar(c: char): (d: char)
    ensures 'A' <= c <= 'Z' ==> 'a' <= d <= 'z' && d as int == c as int + 32
    ensures !('A' <= c <= 'Z') ==> d == c
  {
    if 'A' <= c <= 'Z' then (c as int + 32) as char else c
  }

  function Lower(s: string): (r: string)
    ensures |r| == |s| && forall i :: 0 <= i < |s| ==> r[i] == LowerChar(s[i])
  {
    seq(|s|, i requires 0 <= i < |s| => LowerChar(s[i]))
  }

  /** `sub` occurs in `s` starting at position `i`. */
  predicate OccursAt(s: string, sub: string, i: int) {
    0 <= i && i + |sub| <= |s| && s[i..i + |sub|] == sub
  }

  /** Inside an occurrence of `w` at `j`, position `x` holds `w[x - j]`. */
  lemma CharInOccurrence(s: string, w: string, j: int, x: int)
    requires OccursAt(s, w, j) && j <= x < j + |w|
    ensures s[x] == w[x - j]
  {
    assert s[j..j + |w|][x - j] == s[x];
  }

  /** `s.indexOf(sub, from)`: the first occurrence at or after `from`. */
  function IndexFrom(s: string, sub: string, from: nat): (r: int)
    ensures r == -1 || (from <= r && OccursAt(s, sub, r))
    ensures forall i :: from <= i && (r == -1 || i < r) ==> !OccursAt(s, sub, i)
    decreases |s| - from
  {
    if from + |sub| > |s| then -1
    else if s[from..from + |sub|] == sub then from
    else IndexFrom(s, sub, from + 1)
  }

  /** `s.includes(sub)`. */
  predicate Includes(s: string, sub: string)
    ensures Includes(s, sub) <==> exists i :: OccursAt(s, sub, i)
  {
    IndexFrom(s, sub, 0) != -1
  }

  /** `s.toLowerCase().includes(word)` for a lower-case `word`. */
  predicate Mentions(s: string, word: string) {
    Includes(Lower(s), word)
  }

  /** `s.split(sep)` for a one-character separator: the pieces between separators. */
  function Split(s: string, sep: char): (parts: seq<string>)
    ensures |parts| >= 1
    ensures forall k :: 0 <= k < |parts| ==> sep !in parts[k]
    ensures Join(parts, sep) == s
  {
    if |s| == 0 then [""]
    else
      var rest := Split(s[1..], sep);
      if s[0] == sep then
        assert s == [sep] + s[1..];
        [""] + rest
      else
        assert s == [s[0]] + s[1..];
        [[s[0]] + rest[0]] + rest[1..]
  }

  /** The inverse of `Split`: the pieces with a separator between each pair. */
  function Join(parts: seq<string>, sep: char): string {
    if |parts| == 0 then ""
    else if |parts| == 1 then parts[0]
    else parts[0] + [sep] + Join(parts[1..], sep)
  }

  /** A separator-free prefix joins the first piece of what follows it. */
  lemma {:induction false} SplitPrefix(p: string, t: string, sep: char)
    requires sep !in p
    ensures Split(p + t, sep) == [p + Split(t, sep)[0]] + Split(t, sep)[1..]
    decreases |p|
  {
    if |p| > 0 {
      assert (p + t)[1..] == p[1..] + t;
      assert (p + t)[0] == p[0];
      SplitPrefix(p[1..], t, sep);
      assert [p[0]] + (p[1..] + Split(t, sep)[0]) == p + Split(t, sep)[0];
    } else {
      var parts := Split(t, sep);
      assert p + t == t && p + parts[0] == parts[0];
      assert parts == [parts[0]] + parts[1..];
    }
  }

  /** Splitting the join of separator-free pieces gives the pieces back. */
  lemma {:induction false} SplitJoin(parts: seq<string>, sep: char)
    requires |parts| >= 1
    requires forall k :: 0 <= k < |parts| ==> sep !in parts[k]
    ensures Split(Join(parts, sep), sep) == parts
    decreases |parts|
  {
    if |parts| == 1 {
      SplitPrefix(parts[0], "", sep);
      assert parts[0] + "" == parts[0];
    } else {
      var tail := Join(parts[1..], sep);
      assert Join(parts, sep) == parts[0] + ([sep] + tail);
      SplitJoin(parts[1..], sep);
      SplitAfterSeparator(tail, sep);
      SplitPrefix(parts[0], [sep] + tail, sep);
      assert parts[0] + "" == parts[0];
      assert ([""] + parts[1..])[1..] == parts[1..];
    }
  }

  /** A leading separator splits off an empty first piece. */
  lemma SplitAfterSeparator(t: string, sep: char)
    ensures Split([sep] + t, sep) == [""] + Split(t, sep)
  {
    assert ([sep] + t)[1..] == t;
  }

  /** The characters of `s` that satisfy `keep`, in their original order. */
  function Filter(s: string, keep: char -> bool): (r: string)
    ensures |r| <= |s|
    ensures forall i :: 0 <= i < |r| ==> keep(r[i])
    ensures forall c :: c in r <==> c in s && keep(c)
  {
    if |s| == 0 then ""
    else
      var rest := Filter(s[1..], keep);
      assert forall c :: c in s ==> c == s[0] || c in s[1..];
      if keep(s[0]) then [s[0]] + rest else rest
  }

  /** Filtering a concatenation filters each part: the kept characters stay in order. */
  lemma {:induction false} FilterAppend(a: string, b: string, keep: char -> bool)
    ensures Filter(a + b, keep) == Filter(a, keep) + Filter(b, keep)
    decreases |a|
  {
    if |a| == 0 {
      assert a + b == b;
    } else {
      assert (a + b)[1..] == a[1..] + b;
      FilterAppend(a[1..], b, keep);
    }
  }

  /** A string whose every character is kept passes through unchanged. */
  lemma {:induction false} FilterKeepsAll(s: string, keep: char -> bool)
    requires forall i :: 0 <= i < |s| ==> keep(s[i])
    ensures Filter(s, keep) == s
    decreases |s|
  {
    if |s| > 0 {
      FilterKeepsAll(s[1..], keep);
    }
  }

  /** `s.replace(/c/g, '')`: every occurrence of `c` removed. */
  function RemoveAll(s: string, c: char): (r: string)
    ensures c !in r
    ensures forall d :: d != c ==> (d in r <==> d in s)
  {
    Filter(s, d => d != c)
  }

  /** Removal works character by character from the front. */
  lemma RemoveAllCons(s: string, c: char)
    requires |s| > 0
    ensures RemoveAll(s, c) == (if s[0] == c then "" else [s[0]]) + RemoveAll(s[1..], c)
  {
  }

  lemma RemoveAllAppend(a: string, b: string, c: char)
    ensures RemoveAll(a + b, c) == RemoveAll(a, c) + RemoveAll(b, c)
  {
    FilterAppend(a, b, d => d != c);
  }

  /** Removing a character that does not occur changes nothing. */
  lemma RemoveAllAbsent(s: string, c: char)
    requires c !in s
    ensures RemoveAll(s, c) == s
  {
    FilterKeepsAll(s, d => d != c);
  }
}

=== FILE: jsvalue.dfy ===
/** The JavaScript values the modelled code receives: parsed JSON (request
    bodies, translation files), `undefined` for a missing property, NaN, and
    the decimal objects the database client returns for money columns. */
module JsValues {

  datatype JsValue =
    | Obj(fields: map<string, JsValue>)
    | Arr(items: seq<JsValue>)
    | Str(text: string)
    | Num(n: real)
    | NaN
    | Bool(b: bool)
    | Null
    | Undefined
    | Decimal(d: real)

  /** JavaScript truthiness; objects, arrays and decimal objects are always truthy. */
  predicate Truthy(v: JsValue) {
    match v
    case Obj(_) => true
    case Arr(_) => true
    case Str(s) => s != ""
    case Num(n) => n != 0.0
    case NaN => false
    case Bool(b) => b
    case Null => false
    case Undefined => false
    case Decimal(_) => true
  }

  /** `v.k` for a named (non-index) property: an object's own field, else `undefined`. */
  function Get(v: JsValue, k: string): (r: JsValue)
    ensures v.Obj? && k in v.fields ==> r == v.fields[k]
    ensures !(v.Obj? && k in v.fields) ==> r == Undefined
    ensures IsJson(v) ==> IsJson(r) || r == Undefined
  {
    if v.Obj? && k in v.fields then v.fields[k] else Undefined
  }

  /** A value `JSON.parse` can produce: no NaN, no `undefined`, no decimal objects. */
  predicate IsJson(v: JsValue) {
    match v
    case Obj(fields) => forall k :: k in fields ==> IsJson(fields[k])
    case Arr(items) => forall i :: 0 <= i < |items| ==> IsJson(items[i])
    case NaN => false
    case Undefined => false
    case Decimal(_) => false
    case _ => true
  }
}

=== FILE: keyword_reply.dfy ===
/** The canned-reply classifier of the simple chatbot endpoint
    (app/api/chatbot/route.js): three case-insensitive regular expressions
    tried in order, with a default reply. Matching is on `Lower(message)`:
    the patterns are ASCII, and a non-Unicode `/i` regular expression folds
    exactly the ASCII letters onto each other. */
module KeywordReply {
  import opened JsText

  const SavingsReply := "Try the 50/30/20 rule: 50% needs, 30% wants, 20% savings."
  const CropReply := "Based on most regions, paddy, millets, and pulses are good in the current season."
  const LowInvestmentReply := "Try vegetables like okra, beans, and leafy greens—they're cost-effective and yield quickly."
  const DefaultReply := "Sorry, I didn't understand that."

  /** The characters the regular-expression `.` does not match. */
  predicate IsLineTerminator(c: char) {
    c == '\n' || c == '\r' || c as int == 0x2028 || c as int == 0x2029
  }

  /** No line terminator in `s[from..to]`. */
  predicate NoBreak(s: string, from: int, to: int)
    requires 0 <= from && to <= |s|
  {
    forall k :: from <= k < to ==> !IsLineTerminator(s[k])
  }

  /** `/crop.*location/` in regular-expression terms: "crop" at `i`, "location"
      at `j` at or after its end, and no line break in between. */
  predicate CropThenLocationAt(s: string, i: int, j: int) {
    OccursAt(s, "crop", i) && OccursAt(s, "location", j) && i + 4 <= j && NoBreak(s, i + 4, j)
  }

  ghost predicate CropThenLocation(s: string) {
    exists i, j :: CropThenLocationAt(s, i, j)
  }

  /** The first line terminator at or after `k`, or the end of `s`. */
  function LineEnd(s: string, k: nat): (e: nat)
    requires k <= |s|
    ensures k <= e <= |s| && NoBreak(s, k, e)
    ensures e < |s| ==> IsLineTerminator(s[e])
    decreases |s| - k
  {
    if k == |s| || IsLineTerminator(s[k]) then k else LineEnd(s, k + 1)
  }

  /** The search for `crop.*location` from position `p`: take the next "crop",
      look for "location" on the rest of its line, else go on after that line. */
  function ScanCropLocation(s: string, p: nat): bool
    decreases |s| - p
  {
    var i := IndexFrom(s, "crop", p);
    if i == -1 then false
    else
      var e := LineEnd(s, i + 4);
      if Includes(s[i + 4..e], "location") then true
      else if e >= |s| then false
      else ScanCropLocation(s, e)
  }

  /** The search finds a match exactly when one starts at or after `p`. */
  lemma {:induction false} ScanCropLocationCorrect(s: string, p: nat)
    ensures ScanCropLocation(s, p) <==> exists i, j :: p <= i && CropThenLocationAt(s, i, j)
    decreases |s| - p
  {
    var i := IndexFrom(s, "crop", p);
    if i != -1 {
      var e := LineEnd(s, i + 4);
      if Includes(s[i + 4..e], "location") {
        LocationOnCropLine(s, i, e);
      } else {
        if e < |s| {
          ScanCropLocationCorrect(s, e);
        }
        forall i0, j | p <= i0 && CropThenLocationAt(s, i0, j)
          ensures e < |s| && e <= i0
        {
          LaterMatchIsOnLaterLine(s, p, i, e, i0, j);
        }
      }
    }
  }

  /** A slice of a slice is a slice of the original. */
  lemma SliceOfSlice(s: string, a: int, b: int, c: int, d: int)
    requires 0 <= a <= b <= |s| && 0 <= c <= d <= b - a
    ensures s[a..b][c..d] == s[a + c..a + d]
  {
    assert forall t :: 0 <= t < d - c ==> s[a..b][c..d][t] == s[a + c + t];
  }

  predicate NoTerminatorIn(w: string) {
    forall k :: 0 <= k < |w| ==> !IsLineTerminator(w[k])
  }

  /** "location" on the rest of the line of a "crop" is a match. */
  lemma LocationOnCropLine(s: string, i: int, e: int)
    requires OccursAt(s, "crop", i) && i + 4 <= e <= |s| && NoBreak(s, i + 4, e)
    requires Includes(s[i + 4..e], "location")
    ensures exists j :: CropThenLocationAt(s, i, j)
  {
    var rest := s[i + 4..e];
    var k :| OccursAt(rest, "location", k);
    SliceOfSlice(s, i + 4, e, k, k + 8);
    assert OccursAt(s, "location", i + 4 + k);
    assert CropThenLocationAt(s, i, i + 4 + k);
  }

  /** When the first "crop" from `p` has no "location" after it on its line,
      every match from `p` starts after that line ends. */
  lemma LaterMatchIsOnLaterLine(s: string, p: nat, i: int, e: nat, i0: int, j: int)
    requires i == IndexFrom(s, "crop", p) && i != -1
    requires i + 4 <= |s| && e == LineEnd(s, i + 4)
    requires !Includes(s[i + 4..e], "location")
    requires p <= i0 && CropThenLocationAt(s, i0, j)
    ensures e < |s| && e <= i0
  {
    LocationOnFirstLine(s, i, e, j);
    var k :| i + 4 <= k < j && IsLineTerminator(s[k]);
    assert e <= k;
    assert NoTerminatorIn("crop");
    OccurrenceHasNoBreak(s, "crop", i0);
    assert NoBreak(s, i0, j);
  }

  /** A "location" after the "crop" at `i` with no line break in between lies
      on the rest of that line. */
  lemma LocationOnFirstLine(s: string, i: int, e: nat, j: int)
    requires 0 <= i && i + 4 <= j && OccursAt(s, "location", j) && e == LineEnd(s, i + 4)
    ensures NoBreak(s, i + 4, j) ==> Includes(s[i + 4..e], "location")
  {
    if NoBreak(s, i + 4, j) {
      assert NoTerminatorIn("location");
      OccurrenceHasNoBreak(s, "location", j);
      assert NoBreak(s, i + 4, j + 8);
      assert e >= j + 8;
      SliceOfSlice(s, i + 4, e, j - (i + 4), j - (i + 4) + 8);
      assert OccursAt(s[i + 4..e], "location", j - (i + 4));
    }
  }

  /** An occurrence of a word without line terminators contains no line break. */
  lemma OccurrenceHasNoBreak(s: string, w: string, j: int)
    requires OccursAt(s, w, j) && NoTerminatorIn(w)
    ensures NoBreak(s, j, j + |w|)
  {
    forall x | j <= x < j + |w|
      ensures !IsLineTerminator(s[x])
    {
      CharInOccurrence(s, w, j, x);
    }
  }

  /** The message mentions saving or budget (`/saving|budget/i`). */
  predicate AboutSavings(m: string) {
    Includes(Lower(m), "saving") || Includes(Lower(m), "budget")
  }

  /** `/crop.*location|best crop/i`. */
  predicate AboutCrops(m: string) {
    ScanCropLocation(Lower(m), 0) || Includes(Lower(m), "best crop")
  }

  /** `/low investment/i`. */
  predicate AboutLowInvestment(m: string) {
    Includes(Lower(m), "low investment")
  }

  /** The reply: the first rule that matches, else the default. */
  function Reply(m: string): (r: string)
    ensures AboutSavings(m) ==> r == SavingsReply
    ensures !AboutSavings(m) && AboutCrops(m) ==> r == CropReply
    ensures !AboutSavings(m) && !AboutCrops(m) && AboutLowInvestment(m) ==> r == LowInvestmentReply
    ensures r == DefaultReply <==> !AboutSavings(m) && !AboutCrops(m) && !AboutLowInvestment(m)
  {
    if AboutSavings(m) then SavingsReply
    else if AboutCrops(m) then CropReply
    else if AboutLowInvestment(m) then LowInvestmentReply
    else DefaultReply
  }

  /** The crop rule in the regular expression's own terms: "best crop", or
      "crop" followed later on the same line by "location", ignoring case. */
  lemma CropRuleMeaning(m: string)
    ensures AboutCrops(m) <==> CropThenLocation(Lower(m)) || Includes(Lower(m), "best crop")
  {
    ScanCropLocationCorrect(Lower(m), 0);
  }

  /** A line break between "crop" and "location" defeats the crop rule. */
  lemma CropAndLocationOnSeparateLines()
    ensures !AboutCrops("crop\nlocation")
  {
    var s := "crop\nlocation";
    LowerOfLowercase(s);
    NoCropRuleMatch(s);
    CropRuleMeaning(s);
  }

  lemma NoCropRuleMatch(s: string)
    requires s == "crop\nlocation"
    ensures !CropThenLocation(s) && !Includes(s, "best crop")
  {
    forall i, j ensures !CropThenLocationAt(s, i, j) {
      NoMatchAcrossBreak(s, i, j);
    }
    if Includes(s, "best crop") {
      var i :| OccursAt(s, "best crop", i);
      CharInOccurrence(s, "best crop", i, i + 4);
    }
  }

  lemma NoMatchAcrossBreak(s: string, i: int, j: int)
    requires s == "crop\nlocation"
    ensures !CropThenLocationAt(s, i, j)
  {
    assert s[4] == '\n' && IsLineTerminator(s[4]);
    if CropThenLocationAt(s, i, j) {
      CharInOccurrence(s, "crop", i, i);
      CharInOccurrence(s, "crop", i, i + 1);
      CharInOccurrence(s, "location", j, j);
    }
  }

  /** The example text has no upper-case letters. */
  lemma LowerOfLowercase(s: string)
    requires s == "crop\nlocation"
    ensures Lower(s) == s
  {
  }

  /** Case does not matter: a message and its lower-case form get the same reply. */
  lemma ReplyIgnoresCase(m: string)
    ensures Reply(m) == Reply(Lower(m))
  {
    assert Lower(Lower(m)) == Lower(m);
  }
}

=== FILE: ledger.dfy ===
/** Recording and editing transactions (transaction.js, `createTransaction`
    and `updateTransaction`): the authorisation and lookup errors, the balance
    rule, the stored `nextRecurringDate`, and the budget-alert evaluation that
    follows every expense. Authentication, rate limiting and the email reply
    are inputs. */
module Ledger {
  import opened Wrappers
  import opened Calendar
  import opened Domain
  import opened Recurrence
  import opened BudgetAlert

  /** The form data of a transaction. */
  datatype TxInput = TxInput(
    txType: TxType,
    amount: real,
    accountId: string,
    date: Date,
    category: string,
    description: string,
    isRecurring: bool,
    recurringInterval: string)

  /** The store after the action, what the action returned, and the budget-alert outcome if one ran. */
  datatype ActionResult = ActionResult(store: Store, result: Result<Transaction>, alert: Option<Outcome>)

  /** What a transaction contributes to the balance of account `a`. */
  function DeltaOn(t: Transaction, a: string): real {
    if t.accountId == a then BalanceChange(t.txType, t.amount) else 0.0
  }

  /** Total contribution of `txs` to the balance of account `a`. */
  function DeltaSum(txs: seq<Transaction>, a: string): real {
    if |txs| == 0 then 0.0 else DeltaSum(txs[..|txs| - 1], a) + DeltaOn(txs[|txs| - 1], a)
  }

  /** The balance account `a` had before any of its recorded transactions:
      the ledger is consistent while this stays fixed. */
  function Opening(s: Store, a: string): real
    requires a in s.accounts
  {
    s.accounts[a].balance - DeltaSum(s.transactions, a)
  }

  predicate TxIdFresh(s: Store, id: string) {
    forall i :: 0 <= i < |s.transactions| ==> s.transactions[i].id != id
  }

  /** The account `accountId` exists and belongs to user `userId` (`findUnique({ where: { id, userId } })`). */
  predicate OwnedAccount(s: Store, accountId: string, userId: string) {
    accountId in s.accounts && s.accounts[accountId].userId == userId
  }

  /** Position of the first transaction with id `id` owned by `userId`. */
  function FindTransaction(txs: seq<Transaction>, id: string, userId: string): (r: Option<nat>)
    ensures r.Some? ==> r.value < |txs| && txs[r.value].id == id && txs[r.value].userId == userId
    ensures r.Some? ==> forall i :: 0 <= i < r.value ==> !(txs[i].id == id && txs[i].userId == userId)
    ensures r.None? ==> forall i :: 0 <= i < |txs| ==> !(txs[i].id == id && txs[i].userId == userId)
  {
    if |txs| == 0 then None
    else if txs[0].id == id && txs[0].userId == userId then Some(0)
    else
      var rest := FindTransaction(txs[1..], id, userId);
      if rest.None? then None else Some(rest.value + 1)
  }

  /** Appending a transaction adds its contribution. */
  lemma DeltaSumAppend(txs: seq<Transaction>, t: Transaction, a: string)
    ensures DeltaSum(txs + [t], a) == DeltaSum(txs, a) + DeltaOn(t, a)
  {
    assert (txs + [t])[..|txs + [t]| - 1] == txs;
  }

  /** Replacing one transaction swaps its contribution for the new one's. */
  lemma {:induction false} DeltaSumReplace(txs: seq<Transaction>, i: nat, t: Transaction, a: string)
    requires i < |txs|
    ensures DeltaSum(txs[i := t], a) == DeltaSum(txs, a) - DeltaOn(txs[i], a) + DeltaOn(t, a)
    decreases |txs|
  {
    var n := |txs| - 1;
    var u := txs[i := t];
    assert u[..n] == if i == n then txs[..n] else txs[..n][i := t];
    if i < n {
      DeltaSumReplace(txs[..n], i, t, a);
    }
  }

  /** The budget side of a successful write, where `r.store` with the old
      budgets put back is the store just after the write: a transaction that is
      not an expense leaves every budget as it was; an expense runs the budget
      check for the writing user on that store, whose outcome is the alert and
      which can change no budget but that user's. */
  ghost predicate AlertAfterWrite(s: Store, r: ActionResult, userId: string, data: TxInput, now: Date, sendOk: bool)
    requires Valid(now) && BudgetsUsable(s)
  {
    && r.store.budgets.Keys == s.budgets.Keys
    && (forall u :: u in s.budgets && u != userId ==> r.store.budgets[u] == s.budgets[u])
    && (data.txType != Expense ==> r.store.budgets == s.budgets && r.alert.None?)
    && (data.txType == Expense ==>
          r.alert.Some?
          && (r.store, r.alert.value) == CheckBudgetAlert(r.store.(budgets := s.budgets), userId, data.accountId, now, sendOk))
  }

  /** `createTransaction`: check the session, the rate limiter, the user and
      the account's ownership; store the transaction with its next recurring
      date, move the account balance by the transaction's effect, and run the
      budget-alert evaluation for an expense. `newId` is the id the database
      assigns. */
  function CreateTransaction(s: Store, session: Option<string>, decision: RateDecision, data: TxInput,
                             newId: string, now: Date, sendOk: bool): (r: ActionResult)
    requires Valid(data.date) && Valid(now) && BudgetsUsable(s) && TxIdFresh(s, newId)
    ensures !SignedIn(session) ==> r.result == Err("Unauthorized")
    ensures SignedIn(session) && decision == RateLimited ==> r.result == Err("Too many requests. Please try again later.")
    ensures SignedIn(session) && decision == Blocked ==> r.result == Err("Request blocked")
    ensures SignedIn(session) && decision == Allowed && FindUserByClerkId(s.users, session.value).None? ==>
              r.result == Err("User not found")
    ensures SignedIn(session) && decision == Allowed && FindUserByClerkId(s.users, session.value).Some?
            && !OwnedAccount(s, data.accountId, FindUserByClerkId(s.users, session.value).value.id) ==>
              r.result == Err("Account not found")
    ensures r.result.Ok? <==>
              SignedIn(session) && decision == Allowed
              && FindUserByClerkId(s.users, session.value).Some?
              && OwnedAccount(s, data.accountId, FindUserByClerkId(s.users, session.value).value.id)
    ensures r.result.Err? ==> r.store == s && r.alert.None?
    ensures r.store.users == s.users
    ensures r.result.Ok? ==>
              && r.store.transactions == s.transactions + [r.result.value]
              && r.result.value.id == newId
              && r.result.value.accountId == data.accountId
              && r.result.value.nextRecurringDate == NextRecurringField(data.isRecurring, data.recurringInterval, data.date)
              && r.store.accounts.Keys == s.accounts.Keys
              && r.store.accounts[data.accountId].balance
                   == s.accounts[data.accountId].balance + BalanceChange(data.txType, data.amount)
              && (forall a :: a in s.accounts && a != data.accountId ==> r.store.accounts[a] == s.accounts[a])
              && (r.alert.Some? <==> data.txType == Expense)
    ensures r.result.Ok? ==> AlertAfterWrite(s, r, FindUserByClerkId(s.users, session.value).value.id, data, now, sendOk)
    ensures BudgetsUsable(r.store)
  {
    if !SignedIn(session) then ActionResult(s, Err("Unauthorized"), None)
    else if decision == RateLimited then ActionResult(s, Err("Too many requests. Please try again later."), None)
    else if decision == Blocked then ActionResult(s, Err("Request blocked"), None)
    else
      var user := FindUserByClerkId(s.users, session.value);
      if user.None? then ActionResult(s, Err("User not found"), None)
      else if !OwnedAccount(s, data.accountId, user.value.id) then ActionResult(s, Err("Account not found"), None)
      else
        assert SignedIn(session) && decision == Allowed && user == FindUserByClerkId(s.users, session.value);
        var account := s.accounts[data.accountId];
        var newBalance := account.balance + BalanceChange(data.txType, data.amount);
        var tx := Transaction(newId, user.value.id, data.accountId, data.txType, data.amount, data.date,
                              data.category, data.description, data.isRecurring, data.recurringInterval,
                              NextRecurringField(data.isRecurring, data.recurringInterval, data.date));
        var s1 := s.(accounts := s.accounts[data.accountId := account.(balance := newBalance)],
                     transactions := s.transactions + [tx]);
        SetBalance(s.accounts, data.accountId, newBalance);
        if data.txType == Expense then
          var checked := CheckBudgetAlert(s1, user.value.id, data.accountId, now, sendOk);
          ActionResult(checked.0, Ok(tx), Some(checked.1))
        else ActionResult(s1, Ok(tx), None)
  }

  /** Setting one account's balance keeps the set of accounts and every other account. */
  lemma SetBalance(accounts: map<string, Account>, id: string, balance: real)
    requires id in accounts
    ensures var m := accounts[id := accounts[id].(balance := balance)];
            && m.Keys == accounts.Keys && m[id].balance == balance
            && (forall a :: a in accounts && a != id ==> m[a] == accounts[a])
  {
  }

  /** Creating a transaction keeps every account's opening balance: the new
      balance is explained by the new transaction. */
  lemma CreateKeepsLedgerConsistent(s: Store, session: Option<string>, decision: RateDecision, data: TxInput,
                                    newId: string, now: Date, sendOk: bool, a: string)
    requires Valid(data.date) && Valid(now) && BudgetsUsable(s) && TxIdFresh(s, newId)
    requires a in s.accounts
    ensures var r := CreateTransaction(s, session, decision, data, newId, now, sendOk);
      a in r.store.accounts && Opening(r.store, a) == Opening(s, a)
  {
    var r := CreateTransaction(s, session, decision, data, newId, now, sendOk);
    if r.result.Ok? {
      DeltaSumAppend(s.transactions, r.result.value, a);
    }
  }

  /** The transaction after an edit: the form's fields replace the stored ones; id and owner stay. */
  function ApplyEdit(orig: Transaction, data: TxInput): (t: Transaction)
    requires Valid(data.date)
    ensures t.id == orig.id && t.userId == orig.userId
    ensures t.accountId == data.accountId && t.txType == data.txType && t.amount == data.amount
  {
    orig.(accountId := data.accountId, txType := data.txType, amount := data.amount, date := data.date,
          category := data.category, description := data.description, isRecurring := data.isRecurring,
          recurringInterval := data.recurringInterval,
          nextRecurringDate := NextRecurringField(data.isRecurring, data.recurringInterval, data.date))
  }

  /** `updateTransaction` as the source writes it: the balance increment
      `new effect - old effect` goes to the account named in the form, whether
      or not the transaction was on that account and whether or not the
      account belongs to the caller. A missing account makes the database
      update fail, which rolls the edit back. */
  function UpdateTransactionAsWritten(s: Store, session: Option<string>, id: string, data: TxInput,
                                      now: Date, sendOk: bool): (r: ActionResult)
    requires Valid(data.date) && Valid(now) && BudgetsUsable(s)
    ensures !SignedIn(session) ==> r.result == Err("Unauthorized")
    ensures SignedIn(session) && FindUserByClerkId(s.users, session.value).None? ==> r.result == Err("User not found")
    ensures SignedIn(session) && FindUserByClerkId(s.users, session.value).Some?
            && FindTransaction(s.transactions, id, FindUserByClerkId(s.users, session.value).value.id).None? ==>
              r.result == Err("Transaction not found")
    ensures SignedIn(session) && FindUserByClerkId(s.users, session.value).Some?
            && FindTransaction(s.transactions, id, FindUserByClerkId(s.users, session.value).value.id).Some?
            && data.accountId !in s.accounts ==>
              r.result == Err("Record to update not found")
    ensures r.result.Ok? <==>
              && SignedIn(session) && FindUserByClerkId(s.users, session.value).Some?
              && FindTransaction(s.transactions, id, FindUserByClerkId(s.users, session.value).value.id).Some?
              && data.accountId in s.accounts
    ensures r.result.Err? ==> r.store == s && r.alert.None?
    ensures r.result.Ok? ==>
              var user := FindUserByClerkId(s.users, session.value).value;
              var i := FindTransaction(s.transactions, id, user.id).value;
              && r.result.value == ApplyEdit(s.transactions[i], data)
              && r.store.transactions == s.transactions[i := r.result.value]
              && r.store.accounts == s.accounts[data.accountId := s.accounts[data.accountId].(balance :=
                   s.accounts[data.accountId].balance + BalanceChange(data.txType, data.amount)
                   - BalanceChange(s.transactions[i].txType, s.transactions[i].amount))]
              && (r.alert.Some? <==> data.txType == Expense)
    ensures r.store.users == s.users
    ensures r.result.Ok? ==> AlertAfterWrite(s, r, FindUserByClerkId(s.users, session.value).value.id, data, now, sendOk)
    ensures BudgetsUsable(r.store)
  {
    if !SignedIn(session) then ActionResult(s, Err("Unauthorized"), None)
    else
      var user := FindUserByClerkId(s.users, session.value);
      if user.None? then ActionResult(s, Err("User not found"), None)
      else
        var found := FindTransaction(s.transactions, id, user.value.id);
        if found.None? then ActionResult(s, Err("Transaction not found"), None)
        else
          var orig := s.transactions[found.value];
          var oldChange := BalanceChange(orig.txType, orig.amount);
          var newChange := BalanceChange(data.txType, data.amount);
          var net := newChange - oldChange;
          var updated := ApplyEdit(orig, data);
          if data.accountId !in s.accounts then ActionResult(s, Err("Record to update not found"), None)
          else
            var account := s.accounts[data.accountId];
            var s1 := s.(accounts := s.accounts[data.accountId := account.(balance := account.balance + net)],
                         transactions := s.transactions[found.value := updated]);
            if data.txType == Expense then
              var (s2, outcome) := CheckBudgetAlert(s1, user.value.id, data.accountId, now, sendOk);
              ActionResult(s2, Ok(updated), Some(outcome))
            else ActionResult(s1, Ok(updated), None)
  }

  /** The balances after an edit that moves transaction `orig` to the form's
      account: its old effect leaves its old account and its new effect joins
      the new one (on one account this is the single increment `new - old`). */
  function MoveEffect(accounts: map<string, Account>, orig: Transaction, data: TxInput): (m: map<string, Account>)
    requires data.accountId in accounts
    ensures m.Keys == accounts.Keys
    ensures forall a :: a in accounts && a != orig.accountId && a != data.accountId ==> m[a] == accounts[a]
    ensures orig.accountId == data.accountId ==>
              m[data.accountId] == accounts[data.accountId].(balance := accounts[data.accountId].balance
                + (BalanceChange(data.txType, data.amount) - BalanceChange(orig.txType, orig.amount)))
    ensures orig.accountId != data.accountId && orig.accountId in accounts ==>
              && m[orig.accountId] == accounts[orig.accountId].(balance := accounts[orig.accountId].balance
                   - BalanceChange(orig.txType, orig.amount))
              && m[data.accountId] == accounts[data.accountId].(balance := accounts[data.accountId].balance
                   + BalanceChange(data.txType, data.amount))
    ensures orig.accountId !in accounts ==>
              m[data.accountId] == accounts[data.accountId].(balance := accounts[data.accountId].balance
                + BalanceChange(data.txType, data.amount))
  {
    var oldChange := BalanceChange(orig.txType, orig.amount);
    var newChange := BalanceChange(data.txType, data.amount);
    if orig.accountId == data.accountId || orig.accountId !in accounts then
      var acc := accounts[data.accountId];
      var change := if orig.accountId == data.accountId then newChange - oldChange else newChange;
      accounts[data.accountId := acc.(balance := acc.balance + change)]
    else
      var from := accounts[orig.accountId];
      var m1 := accounts[orig.accountId := from.(balance := from.balance - oldChange)];
      var to := m1[data.accountId];
      m1[data.accountId := to.(balance := to.balance + newChange)]
  }

  /** `updateTransaction` with both defects corrected: the form's account must
      belong to the caller (as `createTransaction` demands), and a transaction
      moved between accounts takes its effect from the old account to the new. */
  function UpdateTransaction(s: Store, session: Option<string>, id: string, data: TxInput,
                             now: Date, sendOk: bool): (r: ActionResult)
    requires Valid(data.date) && Valid(now) && BudgetsUsable(s)
    ensures !SignedIn(session) ==> r.result == Err("Unauthorized")
    ensures SignedIn(session) && FindUserByClerkId(s.users, session.value).None? ==> r.result == Err("User not found")
    ensures SignedIn(session) && FindUserByClerkId(s.users, session.value).Some?
            && FindTransaction(s.transactions, id, FindUserByClerkId(s.users, session.value).value.id).None? ==>
              r.result == Err("Transaction not found")
    ensures SignedIn(session) && FindUserByClerkId(s.users, session.value).Some?
            && FindTransaction(s.transactions, id, FindUserByClerkId(s.users, session.value).value.id).Some?
            && !OwnedAccount(s, data.accountId, FindUserByClerkId(s.users, session.value).value.id) ==>
              r.result == Err("Account not found")
    ensures r.result.Ok? <==>
              && SignedIn(session) && FindUserByClerkId(s.users, session.value).Some?
              && FindTransaction(s.transactions, id, FindUserByClerkId(s.users, session.value).value.id).Some?
              && OwnedAccount(s, data.accountId, FindUserByClerkId(s.users, session.value).value.id)
    ensures r.result.Err? ==> r.store == s && r.alert.None?
    ensures r.result.Ok? ==>
              var user := FindUserByClerkId(s.users, session.value).value;
              var i := FindTransaction(s.transactions, id, user.id).value;
              && r.result.value == ApplyEdit(s.transactions[i], data)
              && r.store.transactions == s.transactions[i := r.result.value]
              && r.store.accounts == MoveEffect(s.accounts, s.transactions[i], data)
              && (r.alert.Some? <==> data.txType == Expense)
    ensures r.store.users == s.users
    ensures r.result.Ok? ==> AlertAfterWrite(s, r, FindUserByClerkId(s.users, session.value).value.id, data, now, sendOk)
    ensures BudgetsUsable(r.store)
  {
    if !SignedIn(session) then ActionResult(s, Err("Unauthorized"), None)
    else
      var user := FindUserByClerkId(s.users, session.value);
      if user.None? then ActionResult(s, Err("User not found"), None)
      else
        var found := FindTransaction(s.transactions, id, user.value.id);
        if found.None? then ActionResult(s, Err("Transaction not found"), None)
        else if !OwnedAccount(s, data.accountId, user.value.id) then ActionResult(s, Err("Account not found"), None)
        else
          var orig := s.transactions[found.value];
          var updated := ApplyEdit(orig, data);
          var s1 := s.(accounts := MoveEffect(s.accounts, orig, data),
                       transactions := s.transactions[found.value := updated]);
          if data.txType == Expense then
            var (s2, outcome) := CheckBudgetAlert(s1, user.value.id, data.accountId, now, sendOk);
            ActionResult(s2, Ok(updated), Some(outcome))
          else ActionResult(s1, Ok(updated), None)
  }

  /** The corrected edit keeps every account's opening balance, and so the
      ledger stays consistent whichever account the transaction moves to. */
  lemma UpdateKeepsLedgerConsistent(s: Store, session: Option<string>, id: string, data: TxInput,
                                    now: Date, sendOk: bool, a: string)
    requires Valid(data.date) && Valid(now) && BudgetsUsable(s)
    requires a in s.accounts
    ensures var r := UpdateTransaction(s, session, id, data, now, sendOk);
      a in r.store.accounts && Opening(r.store, a) == Opening(s, a)
  {
    var r := UpdateTransaction(s, session, id, data, now, sendOk);
    if r.result.Ok? {
      var user := FindUserByClerkId(s.users, session.value).value;
      var i := FindTransaction(s.transactions, id, user.id).value;
      DeltaSumReplace(s.transactions, i, r.result.value, a);
    }
  }

  /** The corrected edit only touches the caller's own accounts: the one the
      transaction leaves and the one the form names. */
  lemma UpdateTouchesOnlyOwnAccounts(s: Store, session: Option<string>, id: string, data: TxInput,
                                     now: Date, sendOk: bool)
    requires Valid(data.date) && Valid(now) && BudgetsUsable(s)
    ensures var r := UpdateTransaction(s, session, id, data, now, sendOk);
      r.result.Ok? ==>
        var user := FindUserByClerkId(s.users, session.value).value;
        && s.accounts[data.accountId].userId == user.id
        && forall a :: a in s.accounts && s.accounts[a].userId != user.id ==>
             a == r.result.value.accountId || a == s.transactions[FindTransaction(s.transactions, id, user.id).value].accountId
             || r.store.accounts[a] == s.accounts[a]
  {
  }

  /** On an edit that keeps the account, the source's increment and the
      corrected move agree. */
  lemma SameAccountEditsAgree(s: Store, session: Option<string>, id: string, data: TxInput, now: Date, sendOk: bool)
    requires Valid(data.date) && Valid(now) && BudgetsUsable(s)
    requires SignedIn(session) && FindUserByClerkId(s.users, session.value).Some?
    requires var user := FindUserByClerkId(s.users, session.value).value;
      && FindTransaction(s.transactions, id, user.id).Some?
      && s.transactions[FindTransaction(s.transactions, id, user.id).value].accountId == data.accountId
      && OwnedAccount(s, data.accountId, user.id)
    ensures UpdateTransactionAsWritten(s, session, id, data, now, sendOk) == UpdateTransaction(s, session, id, data, now, sendOk)
  {
    var user := FindUserByClerkId(s.users, session.value).value;
    var orig := s.transactions[FindTransaction(s.transactions, id, user.id).value];
    var acc := s.accounts[data.accountId];
    assert MoveEffect(s.accounts, orig, data)
        == s.accounts[data.accountId := acc.(balance := acc.balance + (BalanceChange(data.txType, data.amount)
                                                      - BalanceChange(orig.txType, orig.amount)))];
  }

  /** Recording a transaction and then editing it on the same account leaves
      the account at its balance before the transaction plus the edited
      transaction's effect. */
  lemma CreateThenEdit(s: Store, session: Option<string>, decision: RateDecision, data: TxInput, newId: string,
                       edit: TxInput, now: Date, sendOk1: bool, sendOk2: bool)
    requires Valid(data.date) && Valid(edit.date) && Valid(now) && BudgetsUsable(s) && TxIdFresh(s, newId)
    requires edit.accountId == data.accountId
    requires CreateTransaction(s, session, decision, data, newId, now, sendOk1).result.Ok?
    ensures var s1 := CreateTransaction(s, session, decision, data, newId, now, sendOk1).store;
      var r := UpdateTransactionAsWritten(s1, session, newId, edit, now, sendOk2);
      && r.result.Ok?
      && r.store.accounts[data.accountId].balance == s.accounts[data.accountId].balance + BalanceChange(edit.txType, edit.amount)
  {
    var c := CreateTransaction(s, session, decision, data, newId, now, sendOk1);
    var user := FindUserByClerkId(s.users, session.value).value;
    FindAppended(s.transactions, c.result.value);
  }

  /** A transaction appended under a fresh id is found at the end. */
  lemma FindAppended(txs: seq<Transaction>, t: Transaction)
    requires forall i :: 0 <= i < |txs| ==> txs[i].id != t.id
    ensures FindTransaction(txs + [t], t.id, t.userId) == Some(|txs|)
  {
    var u := txs + [t];
    assert u[|txs|] == t;
    assert forall i :: 0 <= i < |txs| ==> u[i] == txs[i];
  }

  /** A store with one user who has two accounts and a second user with one,
      and an income of 30 recorded on account "A" (opening balance 100). */
  function SampleStore(): Store {
    Store([User("u1", "c1", "ann@example.com", "Ann", ""), User("u2", "c2", "bob@example.com", "Bob", "")],
          map["A" := Account("A", "u1", "Cash", 130.0, true),
              "B" := Account("B", "u1", "Bank", 50.0, false),
              "V" := Account("V", "u2", "Savings", 500.0, true)],
          [Transaction("t1", "u1", "A", Income, 30.0, Date(2025, 1, 10), "salary", "", false, "", None)],
          map[])
  }

  /** Moving the income from "A" to "B" as the source does: the increment
      `30 - 30 = 0` goes to "B", so "A" keeps the income it no longer holds and
      "B" never receives it; the corrected edit moves it. */
  lemma MovedEditLeavesOldEffect()
    ensures var s := SampleStore();
      var edit := TxInput(Income, 30.0, "B", Date(2025, 1, 10), "salary", "", false, "");
      var asWritten := UpdateTransactionAsWritten(s, Some("c1"), "t1", edit, Date(2025, 1, 12), true);
      var corrected := UpdateTransaction(s, Some("c1"), "t1", edit, Date(2025, 1, 12), true);
      && Opening(s, "A") == 100.0 && Opening(s, "B") == 50.0
      && asWritten.result.Ok?
      && asWritten.store.accounts["A"].balance == 130.0 && asWritten.store.accounts["B"].balance == 50.0
      && Opening(asWritten.store, "A") == 130.0 && Opening(asWritten.store, "B") == 20.0
      && corrected.result.Ok?
      && corrected.store.accounts["A"].balance == 100.0 && corrected.store.accounts["B"].balance == 80.0
  {
    var s := SampleStore();
    assert FindUserByClerkId(s.users, "c1") == Some(s.users[0]);
    assert FindTransaction(s.transactions, "t1", "u1") == Some(0);
    var edit := TxInput(Income, 30.0, "B", Date(2025, 1, 10), "salary", "", false, "");
    var asWritten := UpdateTransactionAsWritten(s, Some("c1"), "t1", edit, Date(2025, 1, 12), true);
    assert asWritten.store.transactions == [ApplyEdit(s.transactions[0], edit)];
    assert DeltaSum(asWritten.store.transactions, "A") == 0.0 by {
      assert asWritten.store.transactions[..0] == [];
    }
    assert DeltaSum(asWritten.store.transactions, "B") == 30.0 by {
      assert asWritten.store.transactions[..0] == [];
    }
    assert DeltaSum(s.transactions, "A") == 30.0 by {
      assert s.transactions[..0] == [];
    }
    assert DeltaSum(s.transactions, "B") == 0.0 by {
      assert s.transactions[..0] == [];
    }
  }

  /** User "u1" points the edit at account "V" of user "u2": the source moves
      that account's balance by the increment 40 - 30; the corrected edit refuses. */
  lemma EditReachesForeignAccount()
    ensures var s := SampleStore();
      var edit := TxInput(Income, 40.0, "V", Date(2025, 1, 10), "salary", "", false, "");
      var asWritten := UpdateTransactionAsWritten(s, Some("c1"), "t1", edit, Date(2025, 1, 12), true);
      var corrected := UpdateTransaction(s, Some("c1"), "t1", edit, Date(2025, 1, 12), true);
      && s.accounts["V"].userId != s.users[0].id
      && asWritten.result.Ok? && asWritten.store.accounts["V"].balance == 510.0
      && corrected.result == Err("Account not found") && corrected.store == s
  {
    var s := SampleStore();
    assert FindUserByClerkId(s.users, "c1") == Some(s.users[0]);
    assert FindTransaction(s.transactions, "t1", "u1") == Some(0);
  }
}

=== FILE: recurrence.dfy ===
/** Recurring transactions: the next occurrence date stored with a transaction
    (transaction.js, `calculateNextRecurringDate` and the `nextRecurringDate`
    field written by `createTransaction` and `updateTransaction`). */
module Recurrence {
  import opened Wrappers
  import opened Calendar

  /** The intervals the helper advances by; any other string leaves the date as it is. */
  predicate IsKnownInterval(interval: string) {
    interval == "DAILY" || interval == "WEEKLY" || interval == "MONTHLY" || interval == "YEARLY"
  }

  /** The date one interval after `start`, with JavaScript's overflow: the
      day-of-month is kept when the month or year changes, and a day the
      target month does not have carries into the following month. */
  function NextRecurringDate(start: Date, interval: string): (r: Date)
    requires Valid(start)
    ensures Valid(r)
    ensures interval == "DAILY" ==> DayNumber(r) == DayNumber(start) + 1
    ensures interval == "WEEKLY" ==> DayNumber(r) == DayNumber(start) + 7
    ensures interval == "MONTHLY" ==>
      DayNumber(r) == FirstOfMonth(NextMonth(start.year, start.month).0, NextMonth(start.year, start.month).1) + start.day - 1
    ensures interval == "YEARLY" ==> DayNumber(r) == FirstOfMonth(start.year + 1, start.month) + start.day - 1
    ensures !IsKnownInterval(interval) ==> r == start
  {
    if interval == "DAILY" then MakeDate(start.year, start.month, start.day + 1)
    else if interval == "WEEKLY" then MakeDate(start.year, start.month, start.day + 7)
    else if interval == "MONTHLY" then MakeDate(start.year, start.month + 1, start.day)
    else if interval == "YEARLY" then MakeDate(start.year + 1, start.month, start.day)
    else start
  }

  /** Every known interval moves the date strictly forward. */
  lemma NextRecurringDateIsLater(start: Date, interval: string)
    requires Valid(start)
    ensures IsKnownInterval(interval) ==> Before(start, NextRecurringDate(start, interval))
  {
    var r := NextRecurringDate(start, interval);
    if interval == "MONTHLY" {
      FirstOfNextMonth(start.year, start.month);
    } else if interval == "YEARLY" {
      DaysBeforeNextYear(start.year);
    }
    BeforeIsDayOrder(start, r);
  }

  /** A monthly step lands on the same day of the next month whenever that month has the day. */
  lemma MonthlyKeepsDay(start: Date)
    requires Valid(start)
    requires start.day <= DaysInMonth(NextMonth(start.year, start.month).0, NextMonth(start.year, start.month).1)
    ensures NextRecurringDate(start, "MONTHLY")
         == Date(NextMonth(start.year, start.month).0, NextMonth(start.year, start.month).1, start.day)
  {
  }

  /** A yearly step keeps month and day except from 29 February. */
  lemma YearlyKeepsDay(start: Date)
    requires Valid(start) && !(start.month == 2 && start.day == 29)
    ensures NextRecurringDate(start, "YEARLY") == Date(start.year + 1, start.month, start.day)
  {
  }

  /** The overflow the source inherits from `setMonth`: 31 January 2025 plus one month is 3 March 2025. */
  lemma MonthlyOverflowExample()
    ensures NextRecurringDate(Date(2025, 1, 31), "MONTHLY") == Date(2025, 3, 3)
  {
  }

  /** The `nextRecurringDate` stored with a created or updated transaction:
      present exactly when the transaction recurs and names an interval (the
      source tests `recurringInterval` for truthiness, so "" counts as absent). */
  function NextRecurringField(isRecurring: bool, interval: string, date: Date): (r: Option<Date>)
    requires Valid(date)
    ensures r.Some? <==> isRecurring && interval != ""
    ensures r.Some? ==> Valid(r.value)
    ensures r.Some? && IsKnownInterval(interval) ==> Before(date, r.value)
    ensures r.Some? && !IsKnownInterval(interval) ==> r.value == date
  {
    if isRecurring && interval != "" then
      NextRecurringDateIsLater(date, interval);
      Some(NextRecurringDate(date, interval))
    else None
  }
}

=== FILE: translations.dfy ===
/** The interface-language state (LanguageContext.js): the four supported
    languages, the guard on switching, the language restored at start-up, the
    loading of a translation file with an English fallback, and the dotted-key
    lookup `t`. Fetching a translation file is an input: the files that can be
    fetched are a map from language code to parsed content. */
module Translations {
  import opened Wrappers
  import opened JsText
  import opened JsNumber
  import opened JsValues

  /** The array index a property name denotes: digits without a leading zero. */
  function IndexName(k: string): (r: Option<nat>)
    ensures r.Some? ==> k == Render(r.value)
  {
    if |k| > 0 && AllDigits(k) && (k[0] != '0' || |k| == 1) then
      RenderDigits(k);
      Some(DigitsValue(k))
    else None
  }

  /** A digit string without a leading zero is the rendering of its value. */
  lemma {:induction false} RenderDigits(k: string)
    requires |k| > 0 && AllDigits(k) && (k[0] != '0' || |k| == 1)
    ensures Render(DigitsValue(k)) == k
    decreases |k|
  {
    var init := k[..|k| - 1];
    var d := k[|k| - 1];
    if |k| == 1 {
      assert DigitsValue(init) == 0;
    } else {
      assert init[0] == k[0];
      assert AllDigits(init);
      RenderDigits(init);
      assert DigitsValue(init) > 0 by {
        LeadingDigitPositive(init);
      }
      assert k == init + [d];
    }
  }

  lemma {:induction false} LeadingDigitPositive(k: string)
    requires |k| > 0 && AllDigits(k) && k[0] != '0'
    ensures DigitsValue(k) > 0
    decreases |k|
  {
    if |k| > 1 {
      assert k[..|k| - 1][0] == k[0];
      LeadingDigitPositive(k[..|k| - 1]);
    }
  }

  /** `j[k]` for a property name `k`: an object's own field, a character of a
      string or an element of an array by index, or their `length`. */
  function Member(j: JsValue, k: string): (r: Option<JsValue>)
    ensures j.Obj? ==> (r.Some? <==> k in j.fields)
    ensures j.Obj? && k in j.fields ==> r == Some(j.fields[k])
  {
    match j
    case Obj(fields) => if k in fields then Some(fields[k]) else None
    case Str(s) =>
      if k == "length" then Some(Num(|s| as real))
      else
        var i := IndexName(k);
        if i.Some? && i.value < |s| then Some(Str([s[i.value]])) else None
    case Arr(items) =>
      if k == "length" then Some(Num(|items| as real))
      else
        var i := IndexName(k);
        if i.Some? && i.value < |items| then Some(items[i.value]) else None
    case _ => None
  }

  /** One step of the lookup loop succeeds: the current value is truthy and so is its member `k`. */
  predicate Steps(j: JsValue, k: string) {
    Truthy(j) && Member(j, k).Some? && Truthy(Member(j, k).value)
  }

  /** Follow `keys` from `j`; `None` as soon as a step fails. */
  function Walk(j: JsValue, keys: seq<string>): (r: Option<JsValue>)
    ensures |keys| > 0 && r.Some? ==> Truthy(r.value)
    decreases |keys|
  {
    if |keys| == 0 then Some(j)
    else if Steps(j, keys[0]) then Walk(Member(j, keys[0]).value, keys[1..])
    else None
  }

  /** `t(key)`: the key itself while loading or when the path does not resolve,
      otherwise the value the path reaches, which is then truthy. */
  function Translate(isLoading: bool, translations: JsValue, key: string): (r: JsValue)
    ensures isLoading ==> r == Str(key)
    ensures r == Str(key) || Truthy(r)
    ensures !isLoading && Walk(translations, Split(key, '.')).None? ==> r == Str(key)
    ensures !isLoading && Walk(translations, Split(key, '.')).Some? ==> r == Walk(translations, Split(key, '.')).value
  {
    if isLoading then Str(key)
    else
      var reached := Walk(translations, Split(key, '.'));
      if reached.Some? then reached.value else Str(key)
  }

  /** Nested objects along `path`, every value on the way truthy, end in `v`. */
  predicate Reaches(j: JsValue, path: seq<string>, v: JsValue)
    decreases |path|
  {
    if |path| == 0 then j == v
    else j.Obj? && path[0] in j.fields && Truthy(j.fields[path[0]]) && Reaches(j.fields[path[0]], path[1..], v)
  }

  lemma {:induction false} WalkReaches(j: JsValue, path: seq<string>, v: JsValue)
    requires Truthy(j) && Reaches(j, path, v)
    ensures Walk(j, path) == Some(v)
    decreases |path|
  {
    if |path| > 0 {
      WalkReaches(j.fields[path[0]], path[1..], v);
    }
  }

  /** Looking up the dotted form of a path through nested objects yields the value at its end. */
  lemma TranslateNestedPath(translations: JsValue, path: seq<string>, v: JsValue)
    requires |path| >= 1 && forall k :: 0 <= k < |path| ==> '.' !in path[k]
    requires Reaches(translations, path, v) && translations.Obj?
    ensures Translate(false, translations, Join(path, '.')) == v
  {
    SplitJoin(path, '.');
    WalkReaches(translations, path, v);
  }

  lemma {:induction false} WalkThrough(j: JsValue, path: seq<string>, i: nat, o: JsValue)
    requires i <= |path| && Truthy(j) && Reaches(j, path[..i], o)
    ensures Walk(j, path) == Walk(o, path[i..])
    decreases i
  {
    if i > 0 {
      assert path[..i][1..] == path[1..][..i - 1];
      WalkThrough(j.fields[path[0]], path[1..], i - 1, o);
      assert path[1..][i - 1..] == path[i..];
    } else {
      assert path[..i] == [];
    }
  }

  /** When a segment of the key is missing from, or falsy in, the object the
      segments before it reach, the key itself comes back. */
  lemma TranslateUnresolvedSegment(translations: JsValue, key: string, i: nat, o: JsValue)
    requires translations.Obj? && o.Obj?
    requires i < |Split(key, '.')| && Reaches(translations, Split(key, '.')[..i], o)
    requires Split(key, '.')[i] !in o.fields || !Truthy(o.fields[Split(key, '.')[i]])
    ensures Translate(false, translations, key) == Str(key)
  {
    var path := Split(key, '.');
    WalkThrough(translations, path, i, o);
    assert path[i..][0] == path[i];
  }

  /** A segment after a string value indexes its characters: `t("greeting.0")`
      with greeting "Hello" is "H". */
  lemma StringValuesAreIndexed()
    ensures Translate(false, Obj(map["greeting" := Str("Hello")]), "greeting.0") == Str("H")
  {
    SplitJoin(["greeting", "0"], '.');
    assert Join(["greeting", "0"], '.') == "greeting.0";
    WalkIntoString();
  }

  lemma WalkIntoString()
    ensures Walk(Obj(map["greeting" := Str("Hello")]), ["greeting", "0"]) == Some(Str("H"))
  {
    var top := Obj(map["greeting" := Str("Hello")]);
    assert IndexName("0") == Some(0) by {
      assert AllDigits("0");
    }
    assert Member(Str("Hello"), "0") == Some(Str("H"));
    assert Walk(Str("Hello"), ["0"]) == Some(Str("H")) by {
      assert ["0"][1..] == [];
    }
    assert Steps(top, "greeting");
    assert ["greeting", "0"][1..] == ["0"];
  }

  /** The language codes offered (`languages`). */
  const Supported: seq<string> := ["en", "ta", "te", "hi"]

  /** The interface-language state; `saved` is the persisted choice. */
  datatype LangState = LangState(language: string, translations: JsValue, isLoading: bool, saved: Option<string>)

  /** `loadTranslations(code)`: the file for `code` if it can be fetched; else,
      for a code other than "en", the English file if that can be fetched; else
      the translations are left as they were. Loading ends in every case. */
  function LoadTranslations(st: LangState, code: string, files: map<string, JsValue>): (r: LangState)
    ensures !r.isLoading && r.language == st.language && r.saved == st.saved
    ensures code in files ==> r.translations == files[code]
    ensures code !in files && code != "en" && "en" in files ==> r.translations == files["en"]
    ensures code !in files && (code == "en" || "en" !in files) ==> r.translations == st.translations
  {
    var t := if code in files then files[code]
             else if code != "en" && "en" in files then files["en"]
             else st.translations;
    st.(translations := t, isLoading := false)
  }

  /** `changeLanguage(code)`: a supported code becomes the language, is saved and
      its file loaded; any other code changes nothing. */
  function ChangeLanguage(st: LangState, code: string, files: map<string, JsValue>): (r: LangState)
    ensures code !in Supported ==> r == st
    ensures code in Supported ==> r.language == code && r.saved == Some(code) && !r.isLoading
    ensures code in Supported && code in files ==> r.translations == files[code]
    ensures code in Supported && code !in files && code != "en" && "en" in files ==> r.translations == files["en"]
    ensures code in Supported && code !in files && (code == "en" || "en" !in files) ==>
              r.translations == st.translations
    ensures r.language in Supported || r.language == st.language
  {
    if code in Supported then LoadTranslations(st.(language := code, saved := Some(code)), code, files)
    else st
  }

  /** The state on mount: language "en", an empty translation object, loading. */
  function Initial(saved: Option<string>): LangState {
    LangState("en", Obj(map[]), true, saved)
  }

  /** The mount effect: a saved supported code becomes the language; the file
      loaded is the saved code's whenever one is saved, supported or not. */
  function Restore(saved: Option<string>, files: map<string, JsValue>): (r: LangState)
    ensures r.language in Supported && !r.isLoading
    ensures r.language != "en" <==> saved.Some? && saved.value in Supported && saved.value != "en"
    ensures saved.Some? && saved.value != "" && saved.value in files ==> r.translations == files[saved.value]
    ensures saved.Some? && saved.value != "" && saved.value !in files && saved.value != "en" && "en" in files ==>
              r.translations == files["en"]
    ensures (saved.None? || saved.value == "") && "en" in files ==> r.language == "en" && r.translations == files["en"]
    ensures (saved.None? || saved.value == "" || saved.value !in files) && "en" !in files ==> r.translations == Obj(map[])
    ensures r.saved == saved
  {
    var st := Initial(saved);
    var adopted := saved.Some? && saved.value != "" && saved.value in Supported;
    var st1 := if adopted then st.(language := saved.value) else st;
    var loadCode := if saved.Some? && saved.value != "" then saved.value else st.language;
    LoadTranslations(st1, loadCode, files)
  }

  /** The language is always a supported one: true on mount and kept by every switch. */
  lemma LanguageStaysSupported(saved: Option<string>, files: map<string, JsValue>, codes: seq<string>)
    ensures RunChanges(Restore(saved, files), codes, files).language in Supported
  {
    ChangesKeepSupported(Restore(saved, files), codes, files);
  }

  /** The state after switching to each of `codes` in turn. */
  function RunChanges(st: LangState, codes: seq<string>, files: map<string, JsValue>): LangState
    decreases |codes|
  {
    if |codes| == 0 then st else RunChanges(ChangeLanguage(st, codes[0], files), codes[1..], files)
  }

  lemma {:induction false} ChangesKeepSupported(st: LangState, codes: seq<string>, files: map<string, JsValue>)
    requires st.language in Supported
    ensures RunChanges(st, codes, files).language in Supported
    decreases |codes|
  {
    if |codes| > 0 {
      ChangesKeepSupported(ChangeLanguage(st, codes[0], files), codes[1..], files);
    }
  }

  /** A saved code that is not supported leaves the language English but still
      has its own file loaded when that file can be fetched. */
  lemma UnsupportedSavedCodeStillLoads()
    ensures var files := map["fr" := Obj(map["hello" := Str("bonjour")]), "en" := Obj(map[])];
            var st := Restore(Some("fr"), files);
            st.language == "en" && st.translations == files["fr"]
  {
  }
}

=== FILE: wrappers.dfy ===
/** Failure-compatible wrappers shared by the model: an optional value and a
    result that carries either a value or the message of the error the source throws. */
module Wrappers {

  datatype Option<+T> = None | Some(value: T) {

    /** The wrapped value, or `default` when there is none. */
    function GetOr(default: T): T {
      match this
      case Some(v) => v
      case None => default
    }
  }

  /** `Err` carries the message of the `Error` the source throws or returns. */
  datatype Result<+T> = Ok(value: T) | Err(error: string)
}
